=== FILE: README.md ===
# Product-specification console: a Dafny model of its bookkeeping core

The console is an admin front end for light-fixture products. A product has
projects, a project has samples, a sample has measurements, and products and
measurements carry the same eleven-entry catalogue of photometric parameters
(power, voltage, luminous flux and so on). The number -999 on the wire means
"not yet measured".

This project models the pure bookkeeping under the screens and the Redux
store, and proves properties of it:

- the product-specification screen: its catalogue, the product rows and
  measurement cards built from the backend parameters, the save pipeline
  that turns edited rows into `{id, valor}` update batches, the open project
  tabs with their history and fallback, the per-project sample selection,
  the per-card edit flags, measurement deletion, and the measurement-type
  summary;
- the generic specification table: cell edits, the display rule and the
  row-action popover with its confirm dialog;
- the products list: the `useTable` hook (sort, select, paging), the page
  slice, the "not found" message, the edit-form defaults, the per-row
  summary and the row's popover and dialog;
- the six store slices (product, project, sample, measurement, product
  parameter, measurement parameter). Each reducer is a pure function over
  an immutable state. The fan-out thunks are modelled as the list of
  requests they issue and as the outcome they report.

Modules follow the program: `Catalog`, `Entities`, `SpecTable`, `SpecRows`,
`SpecTabs`, `SpecSelection`, `SpecEdit` and `Summary` for the
product-specification screen; `UserTable` and `UserRow` for the products
list; `SliceStatus`, `CrudSlice` (the product and project slices, whose
reducers are identical), `SampleSlice`, `MeasurementSlice`,
`ParProductSlice`, `ParMeasurementSlice` and `Batch` for the store.
`Options`, `Lists` and `Text` hold the JavaScript idioms the code leans on
(`??`, `||`, `find`, `findIndex`, `filter`, `new Set`, `toLowerCase`, `trim`,
`replace`, `join`).

Abstractions:

- JavaScript's `Number()` parse is a parameter `parse: string -> Option<real>`. None stands for NaN.
- A table row (`Record<string, any>`) is a map from keys to cells. A cell is a number, a string, or null/undefined.
- `toLowerCase` is modelled on ASCII letters. `trim` uses a fixed set of white-space characters.
- Wherever the code would throw a `TypeError`, the model returns None. One case is reading `.toString()` of a missing value.

Behaviour of the code that a reader might not expect, which the model keeps:

- The parameter fan-outs (`ParMedicaoSlice.ts:91-112`, `ParProductSlice.ts:51-69`) never fail, even when one of their requests fails (Finding 2; `Batch.BatchAlwaysFulfilled`).
- The product and project delete reducers (`ProductSlice.ts:129-133`) do not remove the deleted item; it stays listed until the next fetch (`CrudSlice.IdsChangeOnlyOnFetch`).
- Card rows carry the stored number rather than `-` (`productSpecification-view.tsx:398`), so saving an unedited measurement card sends every value it shows back, -999 included (`SpecEdit.CardRowsRoundTrip`).
- The sample-delete handler (`productSpecification-view.tsx:555-595`) sends only the sample delete and then drops the selection entry; it issues no delete for the sample's measurements (`SpecSelection.DeleteSample`).

## Model

| member | source | states |
|---|---|---|
| Catalog.LookupTitle | src/sections/productSpecification/view/productSpecification-view.tsx:202 | looking up a label finds the catalogue entry with that label, and None exactly when no entry has it |
| Catalog.KeysNormal | src/sections/productSpecification/view/productSpecification-view.tsx:64-76 | every catalogue key is already lower case and trimmed, so the save's `key.toLowerCase().trim()` leaves it unchanged |
| Catalog.Distinct | src/sections/productSpecification/view/productSpecification-view.tsx:64-76 | no two catalogue entries share a label or a key |
| Catalog.LookupOwnTitle | src/sections/productSpecification/view/productSpecification-view.tsx:202 | looking up an entry's own label finds that very entry |
| SpecTable.HandleChange | src/sections/productSpecification/productSpecification-table.tsx:57-61 | same number of rows; field `key` of row `rowIdx` holds the new value; every other field of that row and every other row is unchanged |
| SpecTable.ChangeUndo | src/sections/productSpecification/productSpecification-table.tsx:57-61 | writing a field back to its old value restores the rows exactly |
| SpecTable.ChangeLastWins | src/sections/productSpecification/productSpecification-table.tsx:57-61 | two edits of the same field give what the later edit alone gives |
| SpecTable.Display | src/sections/productSpecification/productSpecification-table.tsx:145-150 | the number -999 shows as `-`; null or missing shows blank in the value column and `-` elsewhere; any other value shows as itself |
| SpecTable.RenderCell | src/sections/productSpecification/productSpecification-table.tsx:120-151 | only the value column is an input, it is enabled exactly in edit mode, and it shows what the display rule gives |
| SpecTable.TypedValueShown | src/sections/productSpecification/productSpecification-table.tsx:145-146 | after typing into a value box, the box shows exactly the typed text |
| SpecTable.RenderBody | src/sections/productSpecification/productSpecification-table.tsx:113-164 | one body row per data row, or with no data a single placeholder spanning the columns plus one |
| SpecTable.BodyNeverEmpty | src/sections/productSpecification/productSpecification-table.tsx:224-230 | whatever the data, the body shows at least one row, and the placeholder spans more cells than there are columns |
| SpecTable.OpenPopover | src/sections/productSpecification/productSpecification-table.tsx:62-69 | opening the menu records the row index and changes nothing else |
| SpecTable.ClickDelete | src/sections/productSpecification/productSpecification-table.tsx:76-81 | the row under the menu becomes pending (none when there is no index or it is past the end), the menu closes and the dialog opens |
| SpecTable.ConfirmDelete | src/sections/productSpecification/productSpecification-table.tsx:83-90 | the pending row reaches `onDelete` exactly when there is both a row and a callback; the dialog always closes and nothing stays pending |
| SpecTable.CancelDelete | src/sections/productSpecification/productSpecification-table.tsx:209-212 | closing the dialog leaves it closed with nothing pending |
| SpecTable.ClickEdit | src/sections/productSpecification/productSpecification-table.tsx:189-195 | without a row index nothing happens; with one the menu closes, and when a callback exists `onEdit` is called exactly once, with that row, or with `undefined` when the index is past the end |
| SpecTable.DeleteFlowDeletesClickedRow | src/sections/productSpecification/productSpecification-table.tsx:62-90 | menu on row i, delete, confirm: exactly row i is deleted and the table is idle again |
| SpecTable.DeleteFlowCancelled | src/sections/productSpecification/productSpecification-table.tsx:209-212 | menu, delete (as `SpecTable.ClickDelete`), then the dialog's close: nothing is deleted and the table is idle again |
| SpecTable.EditFlowEditsClickedRow | src/sections/productSpecification/productSpecification-table.tsx:189-195 | menu on row i, "Editar": the row at i is edited, or `undefined` when i is past the end, and the table is idle again |
| SpecRows.ProductRow | src/sections/productSpecification/view/productSpecification-view.tsx:354-360 | a product row has the entry's label; its value is the first parameter whose lower-cased name is the key, or `-` when there is none or it is -999; its unit is the matched parameter's unit when that is present and non-empty, `-` otherwise |
| SpecRows.ProductRows | src/sections/productSpecification/view/productSpecification-view.tsx:352-364 | exactly one product row per catalogue entry, in catalogue order |
| SpecRows.MeasurementRow | src/sections/productSpecification/view/productSpecification-view.tsx:391-401 | a card row has the label and the matched parameter's id, name, value and unit; when nothing matched these are empty, 0 and the catalogue unit; the unit falls back to the catalogue unit when the matched one is missing or empty, and to `-` when that is empty too |
| SpecRows.MeasurementRows | src/sections/productSpecification/view/productSpecification-view.tsx:391-402 | exactly one card row per catalogue entry, in catalogue order |
| SpecRows.Step | src/sections/productSpecification/view/productSpecification-view.tsx:200-221 | one row of the save: dropped for an unknown label, no trimmed lower-case name match, or a value that does not parse after its first comma becomes a dot; otherwise the matched parameter's id with the parsed value; a missing value throws |
| SpecRows.StepKeeps | src/sections/productSpecification/view/productSpecification-view.tsx:200-221 | a row with a known label, a matching backend parameter and a readable value keeps exactly that parameter's id with that value |
| SpecRows.Collect | src/sections/productSpecification/view/productSpecification-view.tsx:221-222 | the `filter` after the `map`: None as soon as a row throws, otherwise the kept updates in row order, never more than there are rows |
| SpecRows.CollectAppend | src/sections/productSpecification/view/productSpecification-view.tsx:200-222 | the batch of two row lists together is the first batch followed by the second |
| SpecRows.Normalise | src/sections/productSpecification/view/productSpecification-view.tsx:200-222 | the save pipeline: no more updates than rows, and an update is in the batch exactly when some row's step keeps it |
| SpecRows.NormaliseIdsFromBackend | src/sections/productSpecification/view/productSpecification-view.tsx:206-212 | every id in the batch belongs to a backend parameter whose trimmed, lower-cased name is the key of the row's catalogue label |
| SpecRows.NormaliseAppend | src/sections/productSpecification/view/productSpecification-view.tsx:258-273 | the save treats rows one at a time, so the batch of a concatenation is the concatenation of the batches, and order is kept |
| SpecRows.TrimmedMatch | src/sections/productSpecification/view/productSpecification-view.tsx:206-208 | on names without surrounding white space, the save's match (`toLowerCase().trim()`) finds what the row builder's match (`toLowerCase()`) found |
| SpecRows.NormNameAsWritten | src/sections/productSpecification/view/productSpecification-view.tsx:206-208 | the save lower-cases a backend name and then trims it |
| Text.LowerTrimCommute | src/sections/productSpecification/view/productSpecification-view.tsx:206-208 | lower-casing and trimming commute, so the order in the save does not matter |
| SpecRows.UntrimmedNameSavesOtherId | src/sections/productSpecification/view/productSpecification-view.tsx:200-221 | with backend names " potencia" (id a) and "potencia" (id b, value 7), the row shows 7 but the unedited save sends 7 under id a |
| SpecRows.DashUnchanged | src/sections/productSpecification/view/productSpecification-view.tsx:213 | a `-` has no comma, so the save reads it as it is |
| SpecRows.ProductRowStep | src/sections/productSpecification/view/productSpecification-view.tsx:200-221 | for backend names without surrounding white space, an unedited product row saves its matched parameter's id and value, and is dropped when it shows `-` |
| SpecRows.StepsOfProductRows | src/sections/productSpecification/view/productSpecification-view.tsx:200-221 | for backend names without surrounding white space, unedited product rows have, row by row, the outcome the backend parameters dictate |
| SpecRows.ProductRowsRoundTrip | src/sections/productSpecification/view/productSpecification-view.tsx:197-246 | for backend names without surrounding white space, saving the product rows unedited re-submits exactly the measured parameters, with their own ids and values, in catalogue order |
| SpecTabs.Open | src/sections/productSpecification/view/productSpecification-view.tsx:934-947 | an open tab with the same value is replaced in place (count unchanged), else the tab is appended; other tabs are untouched; the id ends the history and occurs there once, the other entries keep their order; the tab becomes active |
| SpecTabs.Close | src/sections/productSpecification/view/productSpecification-view.tsx:950-984 | the tab and every history occurrence of its id go; with an empty history the active and pending tabs become the project list and the selected project is cleared; otherwise the new last entry becomes active only when pending was the old last entry or the active tab is the selected project, and both become the project list in every other case |
| SpecTabs.Fallback | src/sections/productSpecification/view/productSpecification-view.tsx:172-187 | a valid active tab is kept; an invalid one becomes the most recent valid history entry, or the project list when there is none |
| SpecTabs.FallbackIdempotent | src/sections/productSpecification/view/productSpecification-view.tsx:172-187 | running the fallback effect a second time changes nothing |
| SpecTabs.OpenKeepsInv | src/sections/productSpecification/view/productSpecification-view.tsx:934-947 | opening keeps the history duplicate-free, the open tab values distinct, and the history equal to the set of open tab values |
| SpecTabs.CloseKeepsInv | src/sections/productSpecification/view/productSpecification-view.tsx:950-984 | closing keeps the same invariant |
| SpecTabs.NoFallbackAfterOpen | src/sections/productSpecification/view/productSpecification-view.tsx:172-187 | after opening a tab the active tab is valid, so the fallback effect does nothing |
| SpecTabs.NoFallbackAfterClose | src/sections/productSpecification/view/productSpecification-view.tsx:172-187 | under the invariant, closing a tab leaves a valid active tab, so the fallback effect does nothing |
| SpecSelection.CurrentProjectId | src/sections/productSpecification/view/productSpecification-view.tsx:558-559 | the project an action on the current tab aims at: the active tab when the last report was a fixed tab, else the report |
| SpecSelection.SelectSample | src/sections/productSpecification/view/productSpecification-view.tsx:741-751 | a chip click gives the project this sample; every other project keeps its choice |
| SpecSelection.ChipHighlighted | src/sections/productSpecification/view/productSpecification-view.tsx:726-733 | a chip is highlighted exactly when the project's chosen sample has the chip's code |
| SpecSelection.SelectHighlights | src/sections/productSpecification/view/productSpecification-view.tsx:726-751 | after a click, the clicked project highlights exactly the chips with the clicked sample's code, and every other project's highlights are unchanged |
| SpecSelection.SampleActionsEnabled | src/sections/productSpecification/view/productSpecification-view.tsx:783-823 | "Del amostra" and "Add Medição" are enabled exactly when the project has a chosen sample with a non-empty id |
| SpecSelection.DeleteSample | src/sections/productSpecification/view/productSpecification-view.tsx:555-595 | with no sample chosen for the current project nothing is sent and the selection stays; otherwise one delete for that product, project and sample is sent and that project's entry is dropped |
| SpecSelection.CreateMeasurement | src/sections/productSpecification/view/productSpecification-view.tsx:1185-1198 | the measurement is created under the current project and its chosen sample's id (empty when none is chosen) |
| SpecSelection.CreateSampleAsWritten | src/sections/productSpecification/view/productSpecification-view.tsx:605-646 | as written: nothing for a missing product or tab, else a create under the active tab when the report is the project list, and under the report otherwise |
| SpecSelection.CreateSampleWrongProject | src/sections/productSpecification/view/productSpecification-view.tsx:611-633 | with the specification tab reported, the sample is created under project "1" |
| SpecSelection.CreateSample | src/sections/productSpecification/view/productSpecification-view.tsx:605-646 | corrected: the sample is created under the same current project as the other sample actions |
| SpecSelection.CreateSampleTargetsProject | src/sections/productSpecification/view/productSpecification-view.tsx:605-646 | a created sample and a created measurement aim at the same project |
| SpecSelection.ChosenSamples | src/sections/productSpecification/view/productSpecification-view.tsx:373-379 | a stored sample is kept exactly when some project's choice has its id, never more than are stored, and all of them when every one is chosen |
| SpecSelection.Cards | src/sections/productSpecification/view/productSpecification-view.tsx:381-405 | None exactly when a chosen sample has no measurement list; otherwise every card is the card of a chosen sample's measurement |
| SpecSelection.ChosenSamplesAppend | src/sections/productSpecification/view/productSpecification-view.tsx:373-379 | the filter keeps store order: a list in two parts gives the first part's chosen samples followed by the second's, and one sample is kept exactly when chosen |
| SpecSelection.SampleCards | src/sections/productSpecification/view/productSpecification-view.tsx:384-403 | one card per measurement of the sample, in order, or None when it has no measurement list |
| SpecSelection.CardsAppend | src/sections/productSpecification/view/productSpecification-view.tsx:381-405 | the cards of two sample lists are the first list's cards followed by the second's (None when either is), and one sample gives its own cards |
| SpecSelection.CardsShape | src/sections/productSpecification/view/productSpecification-view.tsx:384-402 | every card carries its sample's id and project and exactly one row per catalogue entry |
| SpecSelection.CardTitle | src/sections/productSpecification/view/productSpecification-view.tsx:857-861 | the two instrument types get their full names; a type is shown as stored exactly when it is neither |
| SpecSelection.MeasurementPanel | src/sections/productSpecification/view/productSpecification-view.tsx:837-922 | cards when there are any; otherwise "choose a sample" exactly when no project has a choice, else "no measurements" |
| SpecEdit.EditEnabled | src/sections/productSpecification/view/productSpecification-view.tsx:870 | a card's button is enabled exactly when this card is in edit mode or no card is; with at most one card in edit mode, that is exactly when no other card is |
| SpecEdit.EnabledWhenNoOtherEditing | src/sections/productSpecification/view/productSpecification-view.tsx:870 | while at most one card is in edit mode, a card's button is enabled exactly when no other card is in edit mode |
| SpecEdit.RowsAsParams | src/sections/productSpecification/view/productSpecification-view.tsx:264-266 | the card's own rows, read as the parameters the measurement save searches |
| SpecEdit.ValueEditKeepsBackend | src/sections/productSpecification/view/productSpecification-view.tsx:906-917 | typing into the value column leaves the parameters the save searches unchanged |
| SpecEdit.ChosenSampleId | src/sections/productSpecification/view/productSpecification-view.tsx:256-257 | the chosen sample's id for the project when it is set and non-empty |
| SpecEdit.EditMeasurement | src/sections/productSpecification/view/productSpecification-view.tsx:248-296 | entering edit mode flips only this card's flag; saving with no project, no chosen sample, no product, a throwing row or an empty batch changes no flag and sends nothing; otherwise it sends the batch and flips only this card's flag |
| SpecEdit.EditKeepsAtMostOne | src/sections/productSpecification/view/productSpecification-view.tsx:292-295 | while the other cards' buttons are disabled, a click never leaves two cards in edit mode |
| SpecEdit.NoThrowWithValues | src/sections/productSpecification/view/productSpecification-view.tsx:269 | rows whose values are all present never make the save throw |
| SpecEdit.CardRowName | src/sections/productSpecification/view/productSpecification-view.tsx:393-397 | a card row read back carries the matched parameter's id and the entry key as its normal name, or empty strings |
| SpecEdit.LocatedByNames | src/sections/productSpecification/view/productSpecification-view.tsx:263-266 | in rows built from entries with distinct keys, the save's search for an entry's key finds that entry's row |
| SpecEdit.CardBackendLookup | src/sections/productSpecification/view/productSpecification-view.tsx:263-266 | the search for entry i's key in unedited card rows finds row i exactly when that row was matched |
| SpecEdit.StepsOfCardRows | src/sections/productSpecification/view/productSpecification-view.tsx:258-273 | unedited card rows have, row by row, the expected outcome |
| SpecEdit.CardRowsRoundTrip | src/sections/productSpecification/view/productSpecification-view.tsx:258-273 | saving an unedited card re-submits every parameter it shows, with its own id and value, -999 included, in catalogue order |
| SpecEdit.EditedRowStep | src/sections/productSpecification/view/productSpecification-view.tsx:269-271 | a row whose value was replaced by text that parses saves the parsed number under its parameter's id |
| SpecEdit.TypedValueSaved | src/sections/productSpecification/view/productSpecification-view.tsx:258-273 | a number typed into a matched card row reaches the batch under that row's parameter id |
| SpecEdit.EditThenSaveResubmits | src/sections/productSpecification/view/productSpecification-view.tsx:248-296 | entering edit mode and saving unedited sends the card's values back and leaves edit mode |
| SpecEdit.ToggleEdit | src/sections/productSpecification/view/productSpecification-view.tsx:197-246 | the mode always flips, except when the save throws; leaving edit mode with the project list loaded sends the batch read from the rows, and exactly when a batch is sent the product is fetched again and the specification tab `'1'` is selected once it settles |
| SpecEdit.ToggleTwiceResubmits | src/sections/productSpecification/view/productSpecification-view.tsx:197-246 | for backend names without surrounding white space, entering and leaving edit mode without typing re-submits exactly the product's measured parameters, then fetches the product again and selects tab `'1'` |
| SpecEdit.LeaveEditSends | src/sections/productSpecification/view/productSpecification-view.tsx:198-241 | leaving edit mode with rows that read as a batch sends that batch for that product, then fetches the product again and selects tab `'1'` |
| SpecEdit.RowId | src/sections/productSpecification/view/productSpecification-view.tsx:304-311 | a row contributes the id of the first backend parameter whose normal name is its label's key, and nothing for an unknown label or no match |
| SpecEdit.MatchedIds | src/sections/productSpecification/view/productSpecification-view.tsx:303-312 | the ids collected for deletion: the rows' contributions, in row order, never more than there are rows |
| SpecEdit.RowIdsOfCardRows | src/sections/productSpecification/view/productSpecification-view.tsx:303-312 | unedited card rows contribute exactly their matched parameters' ids |
| SpecEdit.CardIdsDeleted | src/sections/productSpecification/view/productSpecification-view.tsx:303-312 | deleting an unedited card collects exactly the ids of the parameters it shows, in catalogue order |
| SpecEdit.DeleteMeasurement | src/sections/productSpecification/view/productSpecification-view.tsx:298-345 | nothing without a project or product; else the parameters are deleted first when any matched, and the measurement is deleted only when that step did not fail |
| SpecEdit.ChangeCardRows | src/sections/productSpecification/view/productSpecification-view.tsx:906-917 | the card with that id takes the new rows; every other card is unchanged |
| SpecEdit.SyncCards | src/sections/productSpecification/view/productSpecification-view.tsx:410-421 | the kept cards are replaced by the derived ones exactly when the id lists differ |
| SpecEdit.EditSurvivesSync | src/sections/productSpecification/view/productSpecification-view.tsx:410-421 | typing into a card and then re-deriving the same measurements keeps what was typed |
| Summary.DisplayName | src/sections/user/user-table-row.tsx:104-108 | `ESFERA_INTEGRADORA` shows as "Esfera", `GONIOFOTOMETRO` as "Gônio", any other type unchanged |
| Summary.ProductTypes | src/sections/user/user-table-row.tsx:94-100 | empty exactly when no project has a sample with a measurement |
| Summary.ProjectTypes | src/sections/productSpecification/view/productSpecification-view.tsx:1113-1116 | empty exactly when none of the project's samples has a measurement |
| Summary.SampleTypes | src/sections/user/user-table-row.tsx:97-98 | the types of a sample's measurements, one per measurement in order, or none without a list |
| Summary.TypesInOrder | src/sections/user/user-table-row.tsx:94-100 | the types are gathered project by project and sample by sample: a concatenation gives the first part's types followed by the second's, a single project its own, and no projects or samples none |
| Summary.Names | src/sections/user/user-table-row.tsx:102-110 | the display names, each once, in order of first occurrence |
| Summary.Summarise | src/sections/user/user-table-row.tsx:112 | `-` exactly when there is no type or the only name is `-`; otherwise the text starts with the first name |
| Summary.SummariseSnoc | src/sections/user/user-table-row.tsx:102-112 | one more type: a display name already shown leaves the summary unchanged, and a new one appends " / " and that name |
| Summary.ProductSummaryDash | src/sections/user/user-table-row.tsx:93-113 | a product's summary is `-` when no project has a sample with a measurement, and otherwise is `-` only if that is literally the only type |
| Summary.SummaryRepeat | src/sections/productSpecification/view/productSpecification-view.tsx:1113-1131 | repeating measurements leaves the summary unchanged |
| Summary.SummaryOfOne | src/sections/productSpecification/view/productSpecification-view.tsx:1118-1131 | a single measurement is summarised by its display name |
| Summary.ProjectSummary | src/sections/productSpecification/view/productSpecification-view.tsx:1113-1131 | the projects table's `medicao` cell is `-` exactly when no sample of the project has a measurement or the only name is `-` |
| Summary.ProjectOfOneMeasurement | src/sections/productSpecification/view/productSpecification-view.tsx:1113-1131 | a project whose one sample has one measurement shows that measurement's display name |
| Summary.ProductSummary | src/sections/user/user-table-row.tsx:93-113 | a product without projects shows `-`, and a product with one project shows the same text as that project's row in the projects table |
| UserTable.OnSort | src/sections/user/view/user-view.tsx:370-377 | the clicked column becomes the sort column; descending exactly when that column was sorted ascending; nothing else changes |
| UserTable.SortClicks | src/sections/user/view/user-view.tsx:370-377 | a new column sorts ascending; repeated clicks alternate the direction |
| UserTable.OnSelectAllRows | src/sections/user/view/user-view.tsx:379-385 | checked selects exactly the given ids, unchecked selects none |
| UserTable.OnSelectRow | src/sections/user/view/user-view.tsx:387-396 | a selected id is removed and an unselected one appended at the end; no other id changes |
| UserTable.SelectRowTwice | src/sections/user/view/user-view.tsx:387-396 | toggling an unselected id twice restores the selection |
| UserTable.SelectRowNoDup | src/sections/user/view/user-view.tsx:387-396 | toggling keeps a duplicate-free selection duplicate-free |
| UserTable.OnResetPage | src/sections/user/view/user-view.tsx:398-400 | back to page 0, nothing else changes |
| UserTable.OnChangePage | src/sections/user/view/user-view.tsx:402-404 | the requested page, nothing else changes |
| UserTable.OnChangeRowsPerPage | src/sections/user/view/user-view.tsx:406-412 | the new page size and page 0; sort and selection kept |
| UserTable.OnFilterName | src/sections/user/view/user-view.tsx:243-246 | the filter takes the typed text and the page goes back to 0 |
| UserTable.PageRows | src/sections/user/view/user-view.tsx:274-278 | the rows `page*n .. page*n+n` clamped to the data: at most `n`, exactly as many as remain, each the data row at its offset |
| UserTable.EveryRowOnItsPage | src/sections/user/view/user-view.tsx:274-278 | row k appears at position `k % n` of page `k / n` |
| UserTable.PageSizes | src/sections/user/view/user-view.tsx:274-278 | the page just past the full pages holds the remainder, and with at least `n` rows the first page is full |
| UserTable.NotFound | src/sections/user/view/user-view.tsx:125 | the message shows exactly when the filtered list is empty and a filter is typed |
| UserTable.InitialValues | src/sections/user/view/user-view.tsx:130-138 | with no product the form opens on `''`, "JARDIM", `''`, `[]`, `[]`; otherwise each present field is kept and each missing one defaulted |
| UserTable.InitialValuesOfCompleteProduct | src/sections/user/view/user-view.tsx:130-138 | a complete product opens the form on its own values, and an empty type stays empty |
| UserRow.Handle | src/sections/user/user-table-row.tsx:50-72 | a delete is requested exactly on confirming with the dialog open, an edit exactly on "Editar" with the menu open; "Deletar" closes the menu and opens the dialog; confirming closes the dialog |
| UserRow.DeleteFlow | src/sections/user/user-table-row.tsx:50-72 | from any state, menu, "Deletar", confirm: one delete, and the row is closed again |
| UserRow.CancelFlow | src/sections/user/user-table-row.tsx:55-72 | from any state, menu, "Deletar", close: no delete, and the row is closed again |
| UserRow.EditFlow | src/sections/user/user-table-row.tsx:50-67 | from any state, menu, "Editar": one edit, the menu closed and the dialog as it was |
| UserRow.NoDeleteWithoutDialog | src/sections/user/user-table-row.tsx:59-72 | with the dialog closed and no "Deletar" click, no event sequence deletes |
| SliceStatus.LoadFailed | src/store/models/ProductSlice.ts:149-152 | a failed fetch: not busy, success kept, the payload as the error unless it is missing or empty, then the fallback |
| SliceStatus.TransitionsCoherent | src/store/models/ProjectSlice.ts:125-170 | no transition leaves a busy slice showing an error, yet a success and an error can be shown together |
| SliceStatus.ErrorMessage | src/store/models/AmostraSlice.ts:129-132 | the error message the toolkit attaches to a rejected action: "Rejected" for a value rejection, the thrown message otherwise |
| SliceStatus.RejectionErrorAsWritten | src/store/models/AmostraSlice.ts:129-132 | as written: the stored error is that message, or the fallback when there is none |
| SliceStatus.ValueRejectionHidden | src/store/models/AmostraSlice.ts:129-132 | for a thunk that rejects with a value, the stored error is always "Rejected"; neither the server's message nor the fallback reaches the state |
| SliceStatus.RejectionError | src/store/models/AmostraSlice.ts:129-132 | corrected: the rejection value unless missing or empty, the thrown message when there is one, else the fallback |
| SliceStatus.RejectionErrorShowsCause | src/store/models/MedicaoSlice.ts:147-150 | read from where the thunk put it, "Rejected" appears only when it is literally the value; thrown errors read the same either way |
| SliceStatus.FailedAsWritten | src/store/models/AmostraSlice.ts:165-169 | as written, a failed update or delete clears the flags and stores the toolkit's message or the fallback, "Rejected" for a value rejection |
| SliceStatus.FetchFailedAsWritten | src/store/models/AmostraSlice.ts:129-132 | as written, a failed list fetch keeps the success flag and stores the toolkit's message or the fallback, "Rejected" for a value rejection |
| CrudSlice.Reduce | src/store/models/ProductSlice.ts:98-190 | the list is replaced only by a fetch and changed only by an update, which puts the new item at the position of the first item with the same id and leaves every other position as it was (no change without one); a delete leaves items; the selection changes only on show; a failed fetch stores the payload unless it is missing or empty, else "Erro ao carregar produtos", and a failed show likewise with "Erro ao carregar o produto"; pending, fulfilled and rejected set the flags as each case does |
| CrudSlice.UpdatedListed | src/store/models/ProjectSlice.ts:193-202 | after an update the new item is listed exactly when some item had its id |
| CrudSlice.UpdateKeepsIds | src/store/models/ProductSlice.ts:175-184 | an update keeps the list of ids |
| CrudSlice.IdsChangeOnlyOnFetch | src/store/models/ProductSlice.ts:124-190 | without a fetch the listed ids never change, whatever is created, deleted or updated |
| CrudSlice.AlwaysCoherent | src/store/models/ProjectSlice.ts:117-208 | no sequence of actions leaves the slice busy while it shows an error |
| SampleSlice.NextData | src/store/models/AmostraSlice.ts:111-186 | a fetch replaces the list; an update puts the sample at the position of the first sample with its id and leaves every other position as it was (no change without one); a delete drops every sample with the id; nothing else changes the list |
| SampleSlice.NextStatus | src/store/models/AmostraSlice.ts:111-186 | the flags per action and, as written, a failure stores `action.error.message` or the fallback ("Erro ao buscar amostras", "Erro ao atualizar amostra", "Erro ao deletar amostra"), which is "Rejected" for the value-rejecting list and delete requests; and the reset to idle |
| SampleSlice.Reduce | src/store/models/AmostraSlice.ts:107-188 | the list changes only when a fetch, update or delete answers; a fetch replaces it and ends loading, an update keeps the length and every sample with another id, a delete keeps exactly the samples with other ids; the reset goes to idle; the slice is never left busy while showing an error |
| SampleSlice.NextStatusCorrected | src/store/models/AmostraSlice.ts:129-186 | corrected: a failure stores the rejection value, or the thrown message, or the fallback; every other action as written |
| SampleSlice.ValueFailureShown | src/store/models/AmostraSlice.ts:129-132 | a failed list fetch or delete that rejected with the server's text stores "Rejected" as written, and that text (or the fallback when empty) when corrected |
| SampleSlice.ThrownFailureSame | src/store/models/AmostraSlice.ts:165-169 | the update thunk throws instead of rejecting with a value, so a failed update stores the thrown message (or the fallback) under both readings |
| SampleSlice.DeleteIdempotent | src/store/models/AmostraSlice.ts:177-181 | deleting a sample twice is deleting it once |
| SampleSlice.DeleteKeepsOrder | src/store/models/AmostraSlice.ts:177-181 | the surviving samples keep their order |
| MeasurementSlice.Reduce | src/store/models/MedicaoSlice.ts:130-168 | a fetch replaces the list, a create appends, an update puts the record at the position of the first record with its id and leaves every other position as it was (no change without one), a delete drops every match; only the fetch and the reset touch the flags; as written a failed fetch stores `action.error.message` or "Erro ao buscar medições", which is "Rejected" for its value rejection |
| MeasurementSlice.ReduceCorrected | src/store/models/MedicaoSlice.ts:147-150 | corrected: a failed fetch stores the rejection value, or the fallback when it is empty; every other action as written |
| MeasurementSlice.FetchFailureShown | src/store/models/MedicaoSlice.ts:147-150 | a failed fetch stores "Rejected" as written and the server's text (or "Erro ao buscar medições") when corrected |
| MeasurementSlice.CreateThenDelete | src/store/models/MedicaoSlice.ts:153-168 | deleting a measurement just created under a fresh id restores the slice |
| ParMeasurementSlice.Reduce | src/store/models/ParMedicaoSlice.ts:269-299 | a fetch replaces the list, a failed fetch stores "Erro ao buscar parâmetros", a create appends, an update replaces every match, a delete drops every match, and the reset empties the list and clears the flags |
| ParMeasurementSlice.UpdateIdempotent | src/store/models/ParMedicaoSlice.ts:292-296 | applying the same update twice is applying it once |
| ParMeasurementSlice.CreateThenDelete | src/store/models/ParMedicaoSlice.ts:289-299 | deleting a parameter just created under a fresh id restores the slice |
| ParMeasurementSlice.CreateMultiple | src/store/models/ParMedicaoSlice.ts:93-106 | eleven creates on the measurement's route, one per catalogue entry, named by the key, valued -999, in the entry's unit |
| ParMeasurementSlice.UpdateMultiple | src/store/models/ParMedicaoSlice.ts:176-189 | one update per item, in order, with its id and value |
| ParMeasurementSlice.DeleteMultiple | src/store/models/ParMedicaoSlice.ts:245-257 | one delete per id, in order |
| ParMeasurementSlice.BatchDeleteRemovesIds | src/store/models/ParMedicaoSlice.ts:245-257 | once every delete of a batch has answered, exactly the parameters with other ids remain |
| ParMeasurementSlice.SaveUpdatesBackendParams | src/sections/productSpecification/view/productSpecification-view.tsx:258-285 | every update of a measurement save is addressed to a parameter the measurement holds |
| ParProductSlice.Reduce | src/store/models/ParProductSlice.ts:120-157 | a create appends with success, an update puts the parameter at the position of the first parameter with its id, leaves every other position as it was (no change without one) and reports success, a rejected create stores the payload; the selection never changes |
| ParProductSlice.CreateMultiple | src/store/models/ParProductSlice.ts:53-64 | eleven creates for the product, one per catalogue entry, named by the key, valued -999, in the entry's unit |
| ParProductSlice.UpdateMultiple | src/store/models/ParProductSlice.ts:97-106 | one update per item, in order, with its id and value |
| ParProductSlice.BatchCreateAppends | src/store/models/ParProductSlice.ts:134-139 | once the creates have answered, the stored parameters follow the ones already listed, with success |
| Batch.CatalogParams | src/store/models/ParMedicaoSlice.ts:94-101 | the create bodies: eleven, each the key of its catalogue entry, -999 and the entry's unit |
| Batch.FreshShowsDashes | src/sections/productSpecification/view/productSpecification-view.tsx:352-402 | a freshly created product or measurement shows every value as `-`, and each card row carries its own parameter's id |
| Batch.Dispatched | src/store/models/ParMedicaoSlice.ts:93-106 | dispatching a request thunk resolves with its outcome, success or not |
| Batch.Unwrapped | src/sections/productSpecification/view/productSpecification-view.tsx:224-236 | an unwrapped dispatch resolves exactly when the request succeeded and rejects with its message otherwise |
| Batch.All | src/store/models/ParMedicaoSlice.ts:93 | rejects exactly when some promise rejects, with the first such reason in list order; otherwise resolves with every value in order |
| Batch.BatchAsWritten | src/store/models/ParMedicaoSlice.ts:91-112 | as written: the batch is fulfilled exactly when the dispatched requests all resolve |
| Batch.BatchAlwaysFulfilled | src/store/models/ParProductSlice.ts:51-69 | as written, the batch is fulfilled whatever the requests did, including a failed one |
| Batch.BatchSettle | src/store/models/ParProductSlice.ts:95-113 | corrected: the batch is fulfilled exactly when the unwrapped requests all resolve |
| Batch.BatchSettleReportsFailure | src/store/models/ParMedicaoSlice.ts:173-193 | corrected: fulfilled exactly when every request succeeded, else rejected with the first failed request's message (or the fallback) |
| Batch.ProductCreatedNotice | src/sections/user/view/user-view.tsx:80-87 | success notice when the parameter creates succeeded, the parameter-error notice otherwise |
| Batch.FailedParamsAnnounced | src/sections/user/view/user-view.tsx:75-97 | whenever some parameter create fails, the product is announced as created successfully as written, and the error notice shows when corrected |
| Options.OrDefault | src/store/models/ProductSlice.ts:151 | `payload \|\| fallback`: the value unless it is missing or empty |
| Lists.ReplaceFirst | src/store/models/ProductSlice.ts:176-180 | same length; the first item with the key is replaced; with no such item the list is unchanged |
| Lists.ReplaceAll | src/store/models/ParMedicaoSlice.ts:293-295 | same length; every item with the key is replaced and every other item unchanged |
| Lists.RemoveKey | src/store/models/AmostraSlice.ts:180 | exactly the items with other keys remain |
| Lists.RemoveKeyAppend | src/store/models/MedicaoSlice.ts:167 | filtering keeps the survivors in order: it distributes over concatenation |
| Lists.Dedup | src/sections/user/user-table-row.tsx:102-110 | `[...new Set(xs)]`: no duplicates, the same values, in order of first occurrence |
| Lists.DedupSnoc | src/sections/user/user-table-row.tsx:102-110 | one more value: kept out when already present, appended at the end otherwise |
| Lists.FlatMapAppend | src/sections/user/user-table-row.tsx:94-100 | mapping and flattening a concatenation is the concatenation of the results |
| Text.Trim | src/sections/productSpecification/view/productSpecification-view.tsx:206-208 | the string without surrounding white space |
| Text.Lower | src/sections/productSpecification/view/productSpecification-view.tsx:355 | same length, each ASCII letter lower-cased |
| Text.ReplaceFirstChar | src/sections/productSpecification/view/productSpecification-view.tsx:213 | only the first comma becomes a dot |
| Text.Join | src/sections/user/user-table-row.tsx:112 | nothing joins to the empty string; otherwise the text starts with the first piece, followed by the separator when there are more |
| Text.JoinSnoc | src/sections/user/user-table-row.tsx:112 | joining one more piece adds the separator and that piece at the end |
| Text.JoinLength | src/sections/user/user-table-row.tsx:112 | the joined text is as long as the pieces plus one separator between each pair of neighbours |

## Left out

- HTTP I/O in `src/services/Api.ts`: every backend call is an abstract outcome (`Reply`, `Rejection`, a payload).
- Promise timing and request interleaving: a fan-out is the list of requests it issues plus the outcome it reports, and `Batch.All` takes the first refusal in list order rather than in time order.
- The effect that fetches samples and measurements when a tab changes (`productSpecification-view.tsx:423-497`): it is asynchronous orchestration over several requests with no state rule of its own beyond the slice reducers modelled here.
- Snackbars, the backdrop, `setTimeout` navigation, JSX layout and date formatting (`toLocaleString`, `toLocaleDateString`).
- `handleSubmit`, `handleDeleteProduct` and `handleEdit` in `user-view.tsx`: only the notice chosen from the parameter batch is modelled (`Batch.ProductCreatedNotice`); the rest is request dispatch and UI.
- The project form handlers of the specification screen: they are request dispatch and modal toggling.
- `Number()`, `parseInt` and `converterNumeroComVirgula`: the number parser is a parameter, and `src/utils/format-number` is not part of this model.
- `applyFilter`, `getComparator` and `emptyRows`: their source is not part of this model, so `UserTable.PageRows` takes the filtered list as given.
- `GenericForm`, `Modal` and the tab widget: thin component wrappers.
- The product-parameter slice's `selected` field: no reducer sets it, and `ParProductSlice.Reduce` proves that it never changes.
- `SpecEdit.DeleteMeasurement`: does not model the `deletarAmostra` flag, because it only suppresses a notice and the dialog close.
- `SpecEdit.DeleteMeasurement`: takes the outcome of the parameter delete as an input `paramsDeleteFails`. As written that batch never fails (Finding 2), so the flag is false for the code as it stands.
- `SpecTabs.Close`: the close button's handler is a closure built when `handleAbrirAbaProjeto` made the tab's label (`productSpecification-view.tsx:685-690`), so the history, pending, active and selected tabs it reads are those of that moment, while the history it filters is the current one; after later opens or closes they differ (captured history [A, B], current [B, A]). The model reads the current values throughout.
- `SpecRows.ProductRowsRoundTrip`: holds only for backend parameter names without surrounding white space. The row builder matches `nome.toLowerCase()` against the key, while the save matches the trimmed name, so a name such as " potencia" ahead of "potencia" makes the row show the second parameter's value and the save send it under the first one's id (`SpecRows.UntrimmedNameSavesOtherId`).
- `SpecRows.StepsOfProductRows`: requires the same untrimmed-free backend names, for the same reason.
- `SpecRows.ProductRowStep`: requires the same untrimmed-free backend names, for the same reason.
- `SpecEdit.ToggleTwiceResubmits`: requires the same untrimmed-free backend names, because it rests on `SpecRows.ProductRowsRoundTrip`.
- `SpecEdit.ToggleEdit`: the snackbars and the redirect flag around the save are UI and are not modelled; the re-fetch of the product and the return to tab `'1'` are.
- `Text.Join`: its contract gives the pieces' order through `Text.JoinSnoc` and the length through `Text.JoinLength`, rather than as one closed formula.
- `Text.Lower`: lower-cases ASCII letters only, because Unicode case mapping is not modelled. The catalogue keys are ASCII.
- `Text.Trim`: strips a fixed set of white-space characters rather than every Unicode white-space character.
- `Batch.All`: reports the first refusal in list order, whereas `Promise.all` rejects with the first one in time.

## Findings

| source | as written | input that shows it | evidently intended | confidence | as-written member | corrected member |
|---|---|---|---|---|---|---|
| src/sections/productSpecification/view/productSpecification-view.tsx:611-633 | a new sample goes to the active tab when the tab bar reported the project list, and to the reported tab otherwise | the tab bar reported the specification tab `'1'` while a project tab is active: the sample is created under project `'1'` | the same project the delete-sample and create-measurement actions use: the active tab whenever the report is either fixed tab | not executed; high | SpecSelection.CreateSampleAsWritten, SpecSelection.CreateSampleWrongProject | SpecSelection.CreateSample, SpecSelection.CreateSampleTargetsProject |
| src/store/models/ParProductSlice.ts:51-69 | the product-parameter fan-out awaits `Promise.all` over plain `dispatch(thunk)` calls, and a dispatched thunk always resolves with its final action, so the `catch` is unreachable and the batch is always fulfilled; the measurement-parameter fan-outs in `ParMedicaoSlice.ts` are written the same way | one of the eleven parameter creates of a new product fails with "Network Error": the batch is fulfilled, so the products list (`user-view.tsx`, `handleSubmit`) announces the product as created successfully; the measurement screen shows its success notice without reading the batch at all | each request unwrapped, so that a failed request rejects the batch with its message | not executed; high | Batch.BatchAsWritten, Batch.BatchAlwaysFulfilled | Batch.BatchSettle, Batch.BatchSettleReportsFailure |
| src/store/models/AmostraSlice.ts:129-132 | the rejected reducer stores `action.error.message ?? fallback`, but the thunk rejects through `rejectWithValue`, for which the toolkit sets that message to "Rejected" | the server answers "Amostra não encontrada": the stored error is "Rejected", and the fallback "Erro ao buscar amostras" is never stored either; `getMedicoes` in `MedicaoSlice.ts:147-150` does the same | the rejection value (`action.payload`), with the fallback when it is empty | not executed; medium | SampleSlice.NextStatus, MeasurementSlice.Reduce, SliceStatus.RejectionErrorAsWritten, SliceStatus.ValueRejectionHidden, SampleSlice.ValueFailureShown, MeasurementSlice.FetchFailureShown | SampleSlice.NextStatusCorrected, MeasurementSlice.ReduceCorrected, SliceStatus.RejectionError, SliceStatus.RejectionErrorShowsCause |

=== FILE: batch.dfy ===
/**
 * The fan-out requests: the parameters created for every new product and
 * every new measurement, and how the outcome of a batch of dispatched
 * requests is reported.
 */
module Batch {
  import opened Options
  import opened Lists
  import opened Text
  import opened Entities
  import opened Catalog
  import opened SpecTable
  import opened SpecRows

  /** The body of one parameter create request. */
  datatype NewParam = NewParam(nome: string, valor: real, unidade: string)

  /** One create per catalogue entry: named by the entry's key, valued at the sentinel, in the entry's unit. */
  function CatalogOf(entries: seq<Entry>): (r: seq<NewParam>)
    ensures |r| == |entries|
    ensures forall i :: 0 <= i < |entries| ==> r[i] == NewParam(entries[i].key, Sentinel, entries[i].unidade)
  {
    seq(|entries|, i requires 0 <= i < |entries| => NewParam(entries[i].key, Sentinel, entries[i].unidade))
  }

  /** The creates issued for a new product or a new measurement: eleven, one per catalogue entry. */
  function CatalogParams(): (r: seq<NewParam>)
    ensures |r| == 11
    ensures forall i :: 0 <= i < 11 ==> r[i].nome == Entries[i].key && r[i].valor == Sentinel && r[i].unidade == Entries[i].unidade
  {
    CatalogOf(Entries)
  }

  /** The parameters the server holds after the creates, under the ids it assigned. */
  function Stored(ids: seq<string>, news: seq<NewParam>): (r: seq<Param>)
    requires |ids| == |news|
    ensures |r| == |news|
    ensures forall i :: 0 <= i < |news| ==> r[i] == Param(ids[i], news[i].nome, news[i].valor, Some(news[i].unidade))
  {
    seq(|news|, i requires 0 <= i < |news| => Param(ids[i], news[i].nome, news[i].valor, Some(news[i].unidade)))
  }

  /** With lower-case, pairwise distinct keys, each entry finds exactly its own created parameter. */
  lemma FreshRow(entries: seq<Entry>, ids: seq<string>, i: nat)
    requires |ids| == |entries| && i < |entries|
    requires forall a :: 0 <= a < |entries| ==> NormalKey(entries[a].key)
    requires forall a, b :: 0 <= a < b < |entries| ==> entries[a].key != entries[b].key
    ensures var ps := Stored(ids, CatalogOf(entries));
            Get(MeasurementRow(entries[i], ps), ValueKey) == Num(Sentinel) &&
            Get(MeasurementRow(entries[i], ps), IdKey) == Text(ids[i]) &&
            Get(ProductRow(entries[i], ps), ValueKey) == Text("-")
  {
    var ps := Stored(ids, CatalogOf(entries));
    forall a | 0 <= a < |ps| ensures LowerName(ps[a]) == entries[a].key {
      NormalKeyFixed(entries[a].key);
    }
    forall a | 0 <= a < |ps| && a != i ensures LowerName(ps[a]) != entries[i].key {
      if a < i {
        assert entries[a].key != entries[i].key;
      } else {
        assert entries[i].key != entries[a].key;
      }
    }
    assert LowerName(ps[i]) == entries[i].key;
    FindOnly(ps, i, entries[i].key, LowerName);
  }

  /**
   * A freshly created product or measurement shows every catalogue value as
   * `-`, and each measurement row carries the id of its own parameter.
   */
  lemma FreshShowsDashes(ids: seq<string>)
    requires |ids| == 11
    ensures var ps := Stored(ids, CatalogParams());
            forall i :: 0 <= i < 11 ==>
              Display(MeasurementRows(ps)[i], ValueKey) == Dash &&
              Get(MeasurementRows(ps)[i], IdKey) == Text(ids[i]) &&
              Display(ProductRows(ps)[i], ValueKey) == Value(Text("-"))
  {
    var ps := Stored(ids, CatalogParams());
    forall i | 0 <= i < 11
      ensures Display(MeasurementRows(ps)[i], ValueKey) == Dash &&
              Get(MeasurementRows(ps)[i], IdKey) == Text(ids[i]) &&
              Display(ProductRows(ps)[i], ValueKey) == Value(Text("-"))
    {
      FreshRowAt(ids, i);
    }
  }

  /** Row `i` of a freshly created product or measurement. */
  lemma FreshRowAt(ids: seq<string>, i: nat)
    requires |ids| == 11 && i < 11
    ensures var ps := Stored(ids, CatalogParams());
            Display(MeasurementRows(ps)[i], ValueKey) == Dash &&
            Get(MeasurementRows(ps)[i], IdKey) == Text(ids[i]) &&
            Display(ProductRows(ps)[i], ValueKey) == Value(Text("-"))
  {
    var ps := Stored(ids, CatalogParams());
    AllKeysNormal();
    AllKeysDistinct();
    FreshRow(Entries, ids, i);
    assert MeasurementRows(ps)[i] == MeasurementRow(Entries[i], ps);
    assert ProductRows(ps)[i] == ProductRow(Entries[i], ps);
  }

  /** How one dispatched request ended. */
  datatype Reply = Ok | Err(message: string)

  /** A settled promise. */
  datatype Settled<T> = Resolved(value: T) | Refused(reason: string)

  /** `dispatch(thunk)`: the toolkit's promise resolves with the final action, whether the request succeeded or not. */
  function Dispatched(r: Reply): (p: Settled<Reply>)
    ensures p == Resolved(r)
  {
    Resolved(r)
  }

  /** `dispatch(thunk).unwrap()`: resolves when the request succeeded and rejects with its message otherwise. */
  function Unwrapped(r: Reply): (p: Settled<Reply>)
    ensures p.Resolved? <==> r.Ok?
    ensures r.Err? ==> p == Refused(r.message)
  {
    match r
    case Ok => Resolved(Ok)
    case Err(m) => Refused(m)
  }

  /**
   * `Promise.all`: rejects when some promise rejects (with the first such
   * reason in list order; the timing of the requests is not modelled), and
   * otherwise resolves with every value.
   */
  function All<T>(ps: seq<Settled<T>>): (r: Settled<seq<T>>)
    ensures r.Refused? <==> exists i :: 0 <= i < |ps| && ps[i].Refused?
    ensures r.Refused? ==> exists i :: 0 <= i < |ps| && ps[i] == Refused(r.reason) &&
                                       forall j :: 0 <= j < i ==> ps[j].Resolved?
    ensures r.Resolved? ==> |r.value| == |ps| && forall i :: 0 <= i < |ps| ==> ps[i] == Resolved(r.value[i])
  {
    if |ps| == 0 then Resolved([])
    else
      match ps[0]
      case Refused(m) => Refused(m)
      case Resolved(v) =>
        match All(ps[1..])
        case Refused(m) =>
          var k :| 0 <= k < |ps[1..]| && ps[1..][k] == Refused(m) && forall j :: 0 <= j < k ==> ps[1..][j].Resolved?;
          assert ps[k + 1] == Refused(m);
          Refused(m)
        case Resolved(vs) => Resolved([v] + vs)
  }

  /** The outcome of a fan-out thunk. */
  datatype BatchResult = Fulfilled | BatchRejected(message: string)

  function Settle<T>(p: Settled<T>, fallback: string): (r: BatchResult)
    ensures r.Fulfilled? <==> p.Resolved?
    ensures p.Refused? ==> r.message == OrDefault(Some(p.reason), fallback)
  {
    match p
    case Resolved(_) => Fulfilled
    case Refused(m) => BatchRejected(OrDefault(Some(m), fallback))
  }

  /**
   * A fan-out thunk as written: it awaits `Promise.all` over the dispatched
   * requests and rejects from its `catch`.
   */
  function BatchAsWritten(replies: seq<Reply>, fallback: string): (r: BatchResult)
    ensures r.Fulfilled? <==> All(Map(replies, Dispatched)).Resolved?
  {
    Settle(All(Map(replies, Dispatched)), fallback)
  }

  /** As written, the batch always succeeds: the `catch` is unreachable, whatever the requests did. */
  lemma BatchAlwaysFulfilled(replies: seq<Reply>, fallback: string)
    ensures BatchAsWritten(replies, fallback) == Fulfilled
    ensures BatchAsWritten([Ok, Err("Network Error")], fallback) == Fulfilled
  {
    var ps := Map(replies, Dispatched);
    assert forall i :: 0 <= i < |ps| ==> ps[i].Resolved?;
    var two := Map([Ok, Err("Network Error")], Dispatched);
    assert two[1].Resolved?;
  }

  /** The fan-out thunk with each request unwrapped, so that a failed request rejects the batch. */
  function BatchSettle(replies: seq<Reply>, fallback: string): (r: BatchResult)
    ensures r.Fulfilled? <==> All(Map(replies, Unwrapped)).Resolved?
  {
    Settle(All(Map(replies, Unwrapped)), fallback)
  }

  /**
   * With unwrapped requests the batch succeeds exactly when every request
   * did; otherwise it reports the message of the first failed request (the
   * fallback when that message is empty).
   */
  lemma BatchSettleReportsFailure(replies: seq<Reply>, fallback: string)
    ensures BatchSettle(replies, fallback) == Fulfilled <==> forall i :: 0 <= i < |replies| ==> replies[i] == Ok
    ensures BatchSettle(replies, fallback).BatchRejected? ==>
              exists i :: 0 <= i < |replies| && replies[i].Err? &&
                          BatchSettle(replies, fallback).message == OrDefault(Some(replies[i].message), fallback) &&
                          forall j :: 0 <= j < i ==> replies[j] == Ok
  {
    var ps := Map(replies, Unwrapped);
    assert forall i :: 0 <= i < |replies| ==> (ps[i].Resolved? <==> replies[i] == Ok);
    var r := All(ps);
    if r.Refused? {
      var i :| 0 <= i < |ps| && ps[i] == Refused(r.reason) && forall j :: 0 <= j < i ==> ps[j].Resolved?;
      assert replies[i].Err? && replies[i].message == r.reason;
    }
  }

  datatype Severity = Success | Failure

  /** The notice shown after creating a product: it depends on the outcome of the parameter creates. */
  function ProductCreatedNotice(params: BatchResult): (r: (string, Severity))
    ensures params.Fulfilled? ==> r == ("Produto criado com sucesso!", Success)
    ensures params.BatchRejected? ==> r == ("Produto criado, mas houve erro nos parâmetros.", Failure)
  {
    if params.Fulfilled? then ("Produto criado com sucesso!", Success)
    else ("Produto criado, mas houve erro nos parâmetros.", Failure)
  }

  /**
   * As written, a product whose parameter creates failed is announced as
   * created successfully, whichever request failed; with unwrapped requests
   * it is announced with the parameter error.
   */
  lemma FailedParamsAnnounced(replies: seq<Reply>, fallback: string)
    requires exists i :: 0 <= i < |replies| && replies[i].Err?
    ensures ProductCreatedNotice(BatchAsWritten(replies, fallback)).1 == Success
    ensures ProductCreatedNotice(BatchSettle(replies, fallback)).1 == Failure
  {
    BatchAlwaysFulfilled(replies, fallback);
    BatchSettleReportsFailure(replies, fallback);
  }
}

=== FILE: catalog.dfy ===
/**
 * The fixed catalogue of the eleven parameters every product and every
 * measurement carries (`parametrosProduto`), and the "not yet measured"
 * sentinel value.
 */
module Catalog {
  import opened Options
  import opened Lists
  import opened Text

  datatype Entry = Entry(title: string, key: string, unidade: string)

  /** The wire value meaning "not yet measured"; it is displayed as `-`. */
  const Sentinel: real := -999.0

  const Entries: seq<Entry> := [
    Entry("Potência", "potencia", "W"),
    Entry("Tensão", "tensao", "V"),
    Entry("Frequência", "frequencia", "Hz"),
    Entry("Corrente", "corrente", "A"),
    Entry("Fluxo luminoso", "fluxo", "lm"),
    Entry("Eficiência luminosa", "eficiencia", "lm/W"),
    Entry("Intensidade luminosa", "intensidade", "cd"),
    Entry("TCC (Temperatura de cor correlacionada)", "tcc", "K"),
    Entry("Ângulo de abertura", "angulo", "°"),
    Entry("IRC (ìndice de reprodução de cores)", "irc", ""),
    Entry("R9", "r9", "")
  ]

  function TitleOf(e: Entry): string { e.title }
  function KeyOf(e: Entry): string { e.key }

  /** `parametrosProduto.find((p) => p.label === title)`. */
  function LookupTitle(title: string): (r: Option<Entry>)
    ensures r.None? <==> forall i :: 0 <= i < |Entries| ==> Entries[i].title != title
    ensures r.Some? ==> r.value.title == title && exists i :: 0 <= i < |Entries| && Entries[i] == r.value
  {
    FindByKey(Entries, title, TitleOf)
  }

  /** A key `Lower` and `Trim` leave unchanged: non-empty, no upper-case letter, no white space. */
  predicate NormalKey(k: string) {
    |k| > 0 && forall j :: 0 <= j < |k| ==> 'a' <= k[j] <= 'z' || '0' <= k[j] <= '9'
  }

  /** Normalising a normal key is the identity. */
  lemma NormalKeyFixed(k: string)
    requires NormalKey(k)
    ensures Lower(Trim(k)) == k && Lower(k) == k
  {
    TrimFixed(k);
    LowerNormal(k);
  }

  /** Every key is already lower case and trimmed, so normalising it is the identity. */
  lemma KeysNormal(i: nat)
    requires i < |Entries|
    ensures Lower(Trim(Entries[i].key)) == Entries[i].key
    ensures Lower(Entries[i].key) == Entries[i].key
    ensures NormalKey(Entries[i].key)
  {
    assert NormalKey(Entries[i].key);
    NormalKeyFixed(Entries[i].key);
  }

  /** No two entries share a label (title) or a key. */
  lemma Distinct(i: nat, j: nat)
    requires i < j < |Entries|
    ensures Entries[i].title != Entries[j].title
    ensures Entries[i].key != Entries[j].key
  {
  }

  /** Looking an entry's own label up finds that entry. */
  lemma LookupOwnTitle(i: nat)
    requires i < |Entries|
    ensures LookupTitle(Entries[i].title) == Some(Entries[i])
  {
    forall a, b | 0 <= a < b < |Entries| ensures TitleOf(Entries[a]) != TitleOf(Entries[b]) {
      Distinct(a, b);
    }
    IndexOfOwnKey(Entries, i, TitleOf);
  }

  /** Every label looks up its own entry. */
  lemma AllTitlesFound()
    ensures forall a :: 0 <= a < |Entries| ==> LookupTitle(Entries[a].title) == Some(Entries[a])
  {
    forall a | 0 <= a < |Entries| ensures LookupTitle(Entries[a].title) == Some(Entries[a]) {
      LookupOwnTitle(a);
    }
  }

  /** Every key is normal. */
  lemma AllKeysNormal()
    ensures forall a :: 0 <= a < |Entries| ==> NormalKey(Entries[a].key)
  {
    forall a | 0 <= a < |Entries| ensures NormalKey(Entries[a].key) {
      KeysNormal(a);
    }
  }

  /** No key occurs twice. */
  lemma AllKeysDistinct()
    ensures forall a, b :: 0 <= a < b < |Entries| ==> Entries[a].key != Entries[b].key
  {
    forall a, b | 0 <= a < b < |Entries| ensures Entries[a].key != Entries[b].key {
      Distinct(a, b);
    }
  }
}

=== FILE: crud_slice.dfy ===
/**
 * The product store slice and the project store slice. Their reducers are
 * the same up to the item type: a list of items, a selected item and the
 * request status, driven by the pending, fulfilled and rejected actions of
 * five requests (create, delete, list, show, update) and a status reset.
 */
module CrudSlice {
  import opened Options
  import opened Lists
  import opened SliceStatus

  datatype State<T> = State(status: Status, items: seq<T>, selected: Option<T>)

  function Initial<T>(): (r: State<T>)
    ensures r.items == [] && r.selected.None? && r.status == Idle
  {
    State(Idle, [], None)
  }

  /** The requests that carry the request status; the list fetch is handled apart. */
  datatype Request = Create | Delete | Show | Update

  datatype Action<T> =
    | Pending(req: Request)
    | CreateDone
    | DeleteDone
    | ShowDone(item: T)
    | UpdateDone(item: T)
    | Rejected(req: Request, payload: Option<string>)
    | FetchPending
    | FetchDone(items: seq<T>)
    | FetchRejected(payload: Option<string>)
    | ResetCreate

  /** The fallback error of a failed list fetch (the same text in both slices). */
  const FetchError: string := "Erro ao carregar produtos"
  /** The fallback error of a failed show. */
  const ShowError: string := "Erro ao carregar o produto"

  /** After an in-place update the new item is listed exactly when some item had its id. */
  lemma UpdatedListed<T>(xs: seq<T>, x: T, id: T -> string)
    ensures x in ReplaceFirst(xs, x, id) <==> exists i :: 0 <= i < |xs| && id(xs[i]) == id(x)
  {
    var r := ReplaceFirst(xs, x, id);
    match IndexOfKey(xs, id(x), id)
    case Some(i) => assert r[i] == x;
    case None =>
      assert r == xs;
  }

  /**
   * One action. The list is replaced only by a fetch and changed in place
   * only by an update, which overwrites the first item with the same id; a
   * delete that succeeded leaves the deleted item listed. The selection
   * changes only when a show answers.
   */
  function Reduce<T>(st: State<T>, a: Action<T>, id: T -> string): (r: State<T>)
    ensures a.FetchDone? ==> r.items == a.items
    ensures a.UpdateDone? ==>
              |r.items| == |st.items| &&
              (forall i :: 0 <= i < |st.items| ==> r.items[i] == st.items[i] || r.items[i] == a.item) &&
              (a.item in r.items <==> exists i :: 0 <= i < |st.items| && id(st.items[i]) == id(a.item))
    ensures a.UpdateDone? && (forall i :: 0 <= i < |st.items| ==> id(st.items[i]) != id(a.item)) ==> r.items == st.items
    ensures a.UpdateDone? ==> forall i :: 0 <= i < |st.items| && id(st.items[i]) != id(a.item) ==> r.items[i] == st.items[i]
    ensures a.UpdateDone? && IndexOfKey(st.items, id(a.item), id).Some? ==>
              var i := IndexOfKey(st.items, id(a.item), id).value;
              r.items[i] == a.item && forall j :: 0 <= j < |st.items| && j != i ==> r.items[j] == st.items[j]
    ensures !a.FetchDone? && !a.UpdateDone? ==> r.items == st.items
    ensures a.ShowDone? ==> r.selected == Some(a.item)
    ensures !a.ShowDone? ==> r.selected == st.selected
    ensures a.Pending? ==> r.status.loading && !r.status.success && r.status.error.None?
    ensures a.CreateDone? || a.DeleteDone? || a.UpdateDone? ==> !r.status.loading && r.status.success && r.status.error.None?
    ensures a.Rejected? && a.req != Show ==> !r.status.loading && !r.status.success && r.status.error == a.payload
    ensures (a.Rejected? && a.req == Show) || a.FetchRejected? ==>
              !r.status.loading && r.status.success == st.status.success
    ensures a.Rejected? && a.req == Show ==>
              (a.payload.Some? && a.payload.value != "" ==> r.status.error == a.payload) &&
              (a.payload.None? || a.payload.value == "" ==> r.status.error == Some(ShowError))
    ensures a.FetchRejected? ==>
              (a.payload.Some? && a.payload.value != "" ==> r.status.error == a.payload) &&
              (a.payload.None? || a.payload.value == "" ==> r.status.error == Some(FetchError))
    ensures a.FetchPending? ==> r.status.loading && r.status.error.None? && r.status.success == st.status.success
    ensures a.FetchDone? || a.ShowDone? ==> !r.status.loading && r.status.success == st.status.success && r.status.error == st.status.error
    ensures a.ResetCreate? ==> r.status == Idle
    ensures Coherent(st.status) ==> Coherent(r.status)
  {
    match a
    case Pending(_) => st.(status := Started())
    case CreateDone => st.(status := Succeeded())
    case DeleteDone => st.(status := Succeeded())
    case ShowDone(x) => st.(status := Loaded(st.status), selected := Some(x))
    case UpdateDone(x) =>
      var items := ReplaceFirst(st.items, x, id);
      UpdatedListed(st.items, x, id);
      st.(status := Succeeded(), items := items)
    case Rejected(req, payload) =>
      if req == Show then st.(status := LoadFailed(st.status, payload, ShowError))
      else st.(status := Failed(payload))
    case FetchPending => st.(status := Fetching(st.status))
    case FetchDone(xs) => st.(status := Loaded(st.status), items := xs)
    case FetchRejected(payload) => st.(status := LoadFailed(st.status, payload, FetchError))
    case ResetCreate => st.(status := Idle)
  }

  /** The store after a sequence of actions. */
  function ReduceAll<T>(st: State<T>, actions: seq<Action<T>>, id: T -> string): State<T>
    decreases |actions|
  {
    if |actions| == 0 then st else ReduceAll(Reduce(st, actions[0], id), actions[1..], id)
  }

  /** An in-place update keeps the list of ids. */
  lemma UpdateKeepsIds<T>(xs: seq<T>, x: T, id: T -> string)
    ensures Map(ReplaceFirst(xs, x, id), id) == Map(xs, id)
  {
    var r := ReplaceFirst(xs, x, id);
    forall i | 0 <= i < |xs| ensures id(r[i]) == id(xs[i]) {
      if r[i] != xs[i] {
        assert IndexOfKey(xs, id(x), id) == Some(i);
      }
    }
  }

  /**
   * Without a list fetch the listed ids never change, whatever is created,
   * deleted or updated: only a new fetch shows a created item or drops a
   * deleted one.
   */
  lemma {:induction false} IdsChangeOnlyOnFetch<T>(st: State<T>, actions: seq<Action<T>>, id: T -> string)
    requires forall i :: 0 <= i < |actions| ==> !actions[i].FetchDone?
    ensures Map(ReduceAll(st, actions, id).items, id) == Map(st.items, id)
    decreases |actions|
  {
    if |actions| > 0 {
      var next := Reduce(st, actions[0], id);
      if actions[0].UpdateDone? {
        UpdateKeepsIds(st.items, actions[0].item, id);
      }
      IdsChangeOnlyOnFetch(next, actions[1..], id);
    }
  }

  /** No sequence of actions leaves the slice busy while it shows an error. */
  lemma {:induction false} AlwaysCoherent<T>(st: State<T>, actions: seq<Action<T>>, id: T -> string)
    requires Coherent(st.status)
    ensures Coherent(ReduceAll(st, actions, id).status)
    decreases |actions|
  {
    if |actions| > 0 {
      AlwaysCoherent(Reduce(st, actions[0], id), actions[1..], id);
    }
  }
}

=== FILE: edit.dfy ===
/**
 * Editing and deleting on the product-specification screen: the product's
 * edit mode, the per-card edit flags of the measurement cards, what their
 * "Salvar" and "Deletar" buttons send, and how edited card rows survive a
 * re-derivation of the cards.
 */
module SpecEdit {
  import opened Options
  import opened Lists
  import opened Text
  import opened Entities
  import opened Catalog
  import opened SpecTable
  import opened SpecRows
  import opened SpecSelection

  /** `editModeMedicao`: card id to whether that card is in edit mode. */
  type Flags = map<string, bool>

  /** `editModeMedicao[id] || false`. */
  function Editing(flags: Flags, id: string): bool {
    id in flags && flags[id]
  }

  /** `algumEditando`: some card is in edit mode. */
  predicate AnyEditing(flags: Flags) {
    exists k :: k in flags && flags[k]
  }

  /** The card's "Editar"/"Salvar" button is disabled while another card is in edit mode. */
  function EditEnabled(flags: Flags, id: string): (b: bool)
    ensures b <==> Editing(flags, id) || forall k :: k in flags ==> !flags[k]
  {
    !(AnyEditing(flags) && !Editing(flags, id))
  }

  /** The invariant the disabled buttons keep: at most one card is in edit mode. */
  ghost predicate AtMostOneEditing(flags: Flags) {
    forall a, b :: a in flags && b in flags && flags[a] && flags[b] ==> a == b
  }

  /**
   * While at most one card is in edit mode, a card's button is enabled
   * exactly when no other card is in edit mode.
   */
  lemma EnabledWhenNoOtherEditing(flags: Flags, id: string)
    requires AtMostOneEditing(flags)
    ensures EditEnabled(flags, id) <==> forall k :: k in flags && k != id ==> !flags[k]
  {
  }

  /** A string cell's text; any other cell reads as empty. */
  function TextOf(c: Cell): string {
    if c.Text? then c.s else ""
  }

  /**
   * A card row read as a parameter; the save reads only `id` and `nome`.
   * Card rows always carry both as strings.
   */
  function AsParam(row: Row): (p: Param)
    ensures Get(row, IdKey).Text? ==> Get(row, IdKey) == Text(p.id)
    ensures Get(row, NameKey).Text? ==> Get(row, NameKey) == Text(p.nome)
  {
    Param(TextOf(Get(row, IdKey)), TextOf(Get(row, NameKey)), 0.0, None)
  }

  /** The card's own rows, which the measurement save searches for the original parameter. */
  function RowsAsParams(rows: seq<Row>): (r: seq<Param>)
    ensures |r| == |rows|
    ensures forall i :: 0 <= i < |rows| ==> r[i] == AsParam(rows[i])
  {
    seq(|rows|, i requires 0 <= i < |rows| => AsParam(rows[i]))
  }

  /** Typing into the value column keeps every id and name, so the backend the save searches is unchanged. */
  lemma ValueEditKeepsBackend(rows: seq<Row>, i: nat, v: Cell)
    requires i < |rows|
    ensures RowsAsParams(HandleChange(rows, i, ValueKey, v)) == RowsAsParams(rows)
  {
    var changed := HandleChange(rows, i, ValueKey, v);
    assert Get(changed[i], IdKey) == Get(rows[i], IdKey) && Get(changed[i], NameKey) == Get(rows[i], NameKey);
    assert AsParam(changed[i]) == AsParam(rows[i]);
  }

  /** An `updateMultipleParametros` request. */
  datatype UpdateMeasurementRequest = UpdateMeasurementRequest(
    produtoId: string, projetoId: string, amostraId: string, medicaoId: string, parametros: seq<ParamUpdate>)

  /** What a click on a card's "Editar"/"Salvar" button leaves: the flags, `editarMedicao`, and the request sent. */
  datatype EditResult = EditResult(flags: Flags, editarMedicao: bool, request: Option<UpdateMeasurementRequest>)

  /**
   * The chosen sample's id for a project, if it is set and non-empty
   * (`amostrasSelecionadas[projetoId]?.id`, tested for truthiness).
   */
  function ChosenSampleId(sel: Selection, projectId: string): (r: Option<string>)
    ensures r.Some? <==> projectId in sel && sel[projectId].id != ""
    ensures r.Some? ==> r.value == sel[projectId].id
  {
    if projectId in sel && sel[projectId].id != "" then Some(sel[projectId].id) else None
  }

  /**
   * `handleEditMedicao`. Entering edit mode only sets the card's flag.
   * Saving gives up, leaving the card in edit mode, when the card has no
   * project, its project has no chosen sample, there is no product, a row's
   * value is missing (the save throws) or no row yields an update; otherwise
   * it sends the batch read from the card's rows and leaves edit mode.
   */
  function EditMeasurement(flags: Flags, card: Card, sel: Selection, productId: Option<string>, parse: string -> Option<real>): (r: EditResult)
    ensures forall k :: k != card.id ==> (k in r.flags <==> k in flags) && (k in flags ==> r.flags[k] == flags[k])
    ensures !Editing(flags, card.id) ==> Editing(r.flags, card.id) && r.request.None? && r.editarMedicao
    ensures Editing(flags, card.id) ==> (r.request.Some? <==> !Editing(r.flags, card.id))
    ensures r.request.Some? <==> !r.editarMedicao
    ensures r.request.Some? <==>
              Editing(flags, card.id) && card.projetoId.Some? && card.projetoId.value != "" &&
              ChosenSampleId(sel, card.projetoId.value).Some? && productId.Some? &&
              var batch := Normalise(card.rows, RowsAsParams(card.rows), parse);
              batch.Some? && |batch.value| > 0
    ensures r.request.Some? ==>
              r.request.value == UpdateMeasurementRequest(
                productId.value, card.projetoId.value, sel[card.projetoId.value].id, card.id,
                Normalise(card.rows, RowsAsParams(card.rows), parse).value)
  {
    if !Editing(flags, card.id) then EditResult(flags[card.id := true], true, None)
    else if card.projetoId.None? || card.projetoId.value == "" then EditResult(flags, true, None)
    else
      var p := card.projetoId.value;
      match ChosenSampleId(sel, p)
      case None => EditResult(flags, true, None)
      case Some(amostraId) =>
        if productId.None? then EditResult(flags, true, None)
        else match Normalise(card.rows, RowsAsParams(card.rows), parse)
          case None => EditResult(flags, true, None)
          case Some(batch) =>
            if |batch| == 0 then EditResult(flags, true, None)
            else EditResult(flags[card.id := false], false,
                            Some(UpdateMeasurementRequest(productId.value, p, amostraId, card.id, batch)))
  }

  /** While the buttons of the other cards are disabled, no click puts a second card in edit mode. */
  lemma EditKeepsAtMostOne(flags: Flags, card: Card, sel: Selection, productId: Option<string>, parse: string -> Option<real>)
    requires AtMostOneEditing(flags) && EditEnabled(flags, card.id)
    ensures AtMostOneEditing(EditMeasurement(flags, card, sel, productId, parse).flags)
  {
    var r := EditMeasurement(flags, card, sel, productId, parse);
    forall a, b | a in r.flags && b in r.flags && r.flags[a] && r.flags[b] ensures a == b {
      if a != card.id && b != card.id {
      } else if !Editing(flags, card.id) {
        assert forall k :: k in flags && k != card.id ==> !flags[k];
      } else {
        assert forall k :: k in flags && k != card.id ==> !flags[k];
      }
    }
  }

  /** Rows whose values are all present never make the save throw. */
  lemma NoThrowWithValues(rows: seq<Row>, backend: seq<Param>, parse: string -> Option<real>)
    requires forall i :: 0 <= i < |rows| ==> Get(rows[i], ValueKey) != Null
    ensures Normalise(rows, backend, parse).Some?
  {
  }

  /**
   * What saving an unedited measurement card should send: for each entry, in
   * catalogue order, the parameter the card row was built from, with its
   * value (the sentinel included, since card rows carry numbers).
   */
  function CardResubmitted(entries: seq<Entry>, params: seq<Param>): seq<ParamUpdate> {
    if |entries| == 0 then []
    else
      var found := FindByKey(params, entries[0].key, LowerName);
      (if found.Some? then [ParamUpdate(found.value.id, found.value.valor)] else [])
      + CardResubmitted(entries[1..], params)
  }

  /** The expected outcome of one unedited card row. */
  function CardExpectedStep(e: Entry, params: seq<Param>): Outcome {
    var found := FindByKey(params, e.key, LowerName);
    if found.Some? then Keep(ParamUpdate(found.value.id, found.value.valor)) else Drop
  }

  function CardExpectedSteps(entries: seq<Entry>, params: seq<Param>): (r: seq<Outcome>)
    ensures |r| == |entries|
    ensures forall i :: 0 <= i < |entries| ==> r[i] == CardExpectedStep(entries[i], params)
  {
    if |entries| == 0 then [] else [CardExpectedStep(entries[0], params)] + CardExpectedSteps(entries[1..], params)
  }

  lemma {:induction false} CollectCardExpected(entries: seq<Entry>, params: seq<Param>)
    ensures Collect(CardExpectedSteps(entries, params)) == Some(CardResubmitted(entries, params))
  {
    if |entries| > 0 {
      var os := CardExpectedSteps(entries, params);
      assert os[1..] == CardExpectedSteps(entries[1..], params);
      CollectCardExpected(entries[1..], params);
      var rest := CardResubmitted(entries[1..], params);
      if os[0].Keep? {
        assert CardResubmitted(entries, params) == [os[0].u] + rest;
      } else {
        assert [] + rest == rest;
      }
    }
  }

  /** A name whose lower case is a normal key has no surrounding white space. */
  lemma LowerToKeyIsTrimmed(s: string, k: string)
    requires NormalKey(k) && Lower(s) == k
    ensures Trim(s) == s
  {
    assert !IsSpace(s[0]) by { assert Lower(s)[0] == LowerChar(s[0]) == k[0]; }
    assert !IsSpace(s[|s| - 1]) by { assert Lower(s)[|s| - 1] == LowerChar(s[|s| - 1]) == k[|k| - 1]; }
    TrimFixed(s);
  }

  /** The normal name a card row built for `e` carries: the entry's key when a parameter matched, else empty. */
  function CardName(e: Entry, params: seq<Param>): string {
    if FindByKey(params, e.key, LowerName).Some? then e.key else ""
  }

  /** The id a card row built for `e` carries: the matched parameter's, else empty. */
  function CardParamId(e: Entry, params: seq<Param>): string {
    var found := FindByKey(params, e.key, LowerName);
    if found.Some? then found.value.id else ""
  }

  /** A card row, read back as a parameter, carries the matched parameter's id and the entry's key as its normal name, or empty strings. */
  lemma CardRowName(e: Entry, params: seq<Param>)
    requires NormalKey(e.key)
    ensures NormName(AsParam(MeasurementRow(e, params))) == CardName(e, params)
    ensures AsParam(MeasurementRow(e, params)).id == CardParamId(e, params)
  {
    var found := FindByKey(params, e.key, LowerName);
    if found.Some? {
      LowerToKeyIsTrimmed(found.value.nome, e.key);
    } else {
      TrimFixed("");
    }
  }

  /** Every card row, read back as a parameter, carries its entry's card name and id. */
  lemma BackendNames(entries: seq<Entry>, params: seq<Param>)
    requires forall a :: 0 <= a < |entries| ==> NormalKey(entries[a].key)
    ensures var bs := RowsAsParams(BuildMeasurementRows(entries, params));
            |bs| == |entries| &&
            forall a :: 0 <= a < |entries| ==> NormName(bs[a]) == CardName(entries[a], params) && bs[a].id == CardParamId(entries[a], params)
  {
    var rows := BuildMeasurementRows(entries, params);
    forall a | 0 <= a < |entries|
      ensures NormName(RowsAsParams(rows)[a]) == CardName(entries[a], params)
      ensures RowsAsParams(rows)[a].id == CardParamId(entries[a], params)
    {
      assert RowsAsParams(rows)[a] == AsParam(MeasurementRow(entries[a], params));
      CardRowName(entries[a], params);
    }
  }

  /**
   * The save's search for `e`'s key in `backend` finds a parameter exactly
   * when the card row for `e` was matched, and then with the matched id.
   */
  ghost predicate Located(e: Entry, params: seq<Param>, backend: seq<Param>) {
    var found := FindByKey(params, e.key, LowerName);
    var look := FindByKey(backend, e.key, NormName);
    (found.None? ==> look.None?) && (found.Some? ==> look.Some? && look.value.id == found.value.id)
  }

  /** In a backend whose normal names are the card names of entries with distinct non-empty keys, every entry is located. */
  lemma LocatedByNames(entries: seq<Entry>, params: seq<Param>, bs: seq<Param>, i: nat)
    requires i < |entries| == |bs|
    requires forall a :: 0 <= a < |entries| ==> NormName(bs[a]) == CardName(entries[a], params) && bs[a].id == CardParamId(entries[a], params)
    requires forall a :: 0 <= a < |entries| ==> entries[a].key != ""
    requires forall a, b :: 0 <= a < b < |entries| ==> entries[a].key != entries[b].key
    ensures Located(entries[i], params, bs)
  {
    var k := entries[i].key;
    forall a | 0 <= a < |bs| && a != i ensures NormName(bs[a]) != k {
      if a < i {
        assert entries[a].key != k;
      } else {
        assert entries[i].key != entries[a].key;
      }
    }
    if FindByKey(params, k, LowerName).Some? {
      FindOnly(bs, i, k, NormName);
    }
  }

  /**
   * In rows built from entries with distinct normal keys, the save's search
   * for entry `i`'s key finds exactly row `i` when that row was matched, and
   * nothing otherwise.
   */
  lemma CardBackendLookup(entries: seq<Entry>, params: seq<Param>, i: nat)
    requires i < |entries|
    requires forall a :: 0 <= a < |entries| ==> NormalKey(entries[a].key)
    requires forall a, b :: 0 <= a < b < |entries| ==> entries[a].key != entries[b].key
    ensures Located(entries[i], params, RowsAsParams(BuildMeasurementRows(entries, params)))
  {
    BackendNames(entries, params);
    LocatedByNames(entries, params, RowsAsParams(BuildMeasurementRows(entries, params)), i);
  }

  /** One unedited card row, saved against rows in which its key is found exactly where it was built. */
  lemma CardRowStep(e: Entry, params: seq<Param>, backend: seq<Param>, parse: string -> Option<real>)
    requires LookupTitle(e.title) == Some(e) && Located(e, params, backend)
    ensures Step(MeasurementRow(e, params), backend, parse) == CardExpectedStep(e, params)
  {
    var row := MeasurementRow(e, params);
    assert RowEntry(row) == Some(e);
    KeyNormalised(e);
  }

  /** Unedited card rows have exactly the expected outcomes. */
  lemma StepsOfCardRows(entries: seq<Entry>, params: seq<Param>, parse: string -> Option<real>)
    requires forall a :: 0 <= a < |entries| ==> LookupTitle(entries[a].title) == Some(entries[a])
    requires forall a :: 0 <= a < |entries| ==> NormalKey(entries[a].key)
    requires forall a, b :: 0 <= a < b < |entries| ==> entries[a].key != entries[b].key
    ensures var rows := BuildMeasurementRows(entries, params);
            Steps(rows, RowsAsParams(rows), parse) == CardExpectedSteps(entries, params)
  {
    var rows := BuildMeasurementRows(entries, params);
    var ss, es := Steps(rows, RowsAsParams(rows), parse), CardExpectedSteps(entries, params);
    forall i | 0 <= i < |entries| ensures ss[i] == es[i] {
      CardRowStepAt(entries, params, parse, i);
    }
  }

  /** Row `i` of unedited card rows, saved against the card's own rows. */
  lemma CardRowStepAt(entries: seq<Entry>, params: seq<Param>, parse: string -> Option<real>, i: nat)
    requires i < |entries|
    requires LookupTitle(entries[i].title) == Some(entries[i])
    requires forall a :: 0 <= a < |entries| ==> NormalKey(entries[a].key)
    requires forall a, b :: 0 <= a < b < |entries| ==> entries[a].key != entries[b].key
    ensures var rows := BuildMeasurementRows(entries, params);
            Step(rows[i], RowsAsParams(rows), parse) == CardExpectedStep(entries[i], params)
  {
    CardBackendLookup(entries, params, i);
    CardRowStep(entries[i], params, RowsAsParams(BuildMeasurementRows(entries, params)), parse);
  }

  /**
   * Saving an unedited measurement card re-submits every parameter the card
   * shows, with its own id and value, in catalogue order, whatever the names
   * look like: a card row's name matched its key when the row was built.
   */
  lemma CardRowsRoundTrip(params: seq<Param>, parse: string -> Option<real>)
    ensures var rows := MeasurementRows(params);
            Normalise(rows, RowsAsParams(rows), parse) == Some(CardResubmitted(Entries, params))
  {
    AllTitlesFound();
    AllKeysNormal();
    AllKeysDistinct();
    StepsOfCardRows(Entries, params, parse);
    CollectCardExpected(Entries, params);
  }

  /** A card row whose value was replaced by a string that reads as a number saves that number under its parameter's id. */
  lemma EditedRowStep(e: Entry, params: seq<Param>, backend: seq<Param>, typed: string, v: real, parse: string -> Option<real>)
    requires LookupTitle(e.title) == Some(e) && Located(e, params, backend)
    requires FindByKey(params, e.key, LowerName).Some?
    requires parse(ReplaceFirstChar(typed, ',', '.')) == Some(v)
    ensures Step(MeasurementRow(e, params)[ValueKey := Text(typed)], backend, parse)
            == Keep(ParamUpdate(FindByKey(params, e.key, LowerName).value.id, v))
  {
    var row := MeasurementRow(e, params)[ValueKey := Text(typed)];
    assert Get(row, LabelKey) == Text(e.title);
    assert Get(row, ValueKey) == Text(typed);
    var p := FindByKey(backend, e.key, NormName).value;
    StepKeeps(row, backend, parse, e, p, v);
  }

  /** Typing into one value box leaves every value of freshly built card rows present. */
  lemma EditedCardValuesPresent(params: seq<Param>, i: nat, typed: string)
    requires i < |Entries|
    ensures var rows := HandleChange(MeasurementRows(params), i, ValueKey, Text(typed));
            forall k :: 0 <= k < |rows| ==> Get(rows[k], ValueKey) != Null
  {
    var built := MeasurementRows(params);
    var rows := HandleChange(built, i, ValueKey, Text(typed));
    forall k | 0 <= k < |rows| ensures Get(rows[k], ValueKey) != Null {
      if k == i {
        assert rows[k] == built[i][ValueKey := Text(typed)];
      } else {
        assert rows[k] == built[k] == MeasurementRow(Entries[k], params);
      }
    }
  }

  /**
   * A value typed into a matched card row and readable as a number reaches
   * the batch: the batch holds the row's parameter id with the typed value.
   */
  lemma TypedValueSaved(params: seq<Param>, i: nat, typed: string, v: real, parse: string -> Option<real>)
    requires i < |Entries|
    requires FindByKey(params, Entries[i].key, LowerName).Some?
    requires parse(ReplaceFirstChar(typed, ',', '.')) == Some(v)
    ensures var rows := HandleChange(MeasurementRows(params), i, ValueKey, Text(typed));
            var batch := Normalise(rows, RowsAsParams(rows), parse);
            batch.Some? && ParamUpdate(FindByKey(params, Entries[i].key, LowerName).value.id, v) in batch.value
  {
    var built := MeasurementRows(params);
    var rows := HandleChange(built, i, ValueKey, Text(typed));
    ValueEditKeepsBackend(built, i, Text(typed));
    var bs := RowsAsParams(rows);
    AllTitlesFound();
    AllKeysNormal();
    AllKeysDistinct();
    CardBackendLookup(Entries, params, i);
    assert rows[i] == MeasurementRow(Entries[i], params)[ValueKey := Text(typed)];
    EditedRowStep(Entries[i], params, bs, typed, v, parse);
    EditedCardValuesPresent(params, i, typed);
    NoThrowWithValues(rows, bs, parse);
  }

  /**
   * Entering edit mode on a card and saving it unedited sends the card's
   * values back, provided its project, chosen sample and product are known
   * and the card shows at least one parameter.
   */
  lemma EditThenSaveResubmits(flags: Flags, card: Card, params: seq<Param>, sel: Selection, productId: string, parse: string -> Option<real>)
    requires card.rows == MeasurementRows(params) && !Editing(flags, card.id)
    requires card.projetoId.Some? && ChosenSampleId(sel, card.projetoId.value).Some? && card.projetoId.value != ""
    requires |CardResubmitted(Entries, params)| > 0
    ensures var once := EditMeasurement(flags, card, sel, Some(productId), parse);
            var twice := EditMeasurement(once.flags, card, sel, Some(productId), parse);
            once.request.None? && twice.request.Some? &&
            twice.request.value.parametros == CardResubmitted(Entries, params) &&
            !Editing(twice.flags, card.id)
  {
    CardRowsRoundTrip(params, parse);
  }

  /** An `updateMultipleParProduct` request. */
  datatype UpdateProductRequest = UpdateProductRequest(produtoId: string, parametros: seq<ParamUpdate>)

  /**
   * What `handleToggleEdit`'s `.finally` does once the update request has
   * settled, whatever its outcome: the product is fetched again and the
   * tab bar is told to start from tab `'1'`.
   */
  datatype AfterSettle = AfterSettle(showProduct: string, initialTab: string)

  /** The result of one toggle: the new mode, the request sent, and what follows once it settles. */
  datatype Toggle = Toggle(editMode: bool, request: Option<UpdateProductRequest>, afterSettle: Option<AfterSettle>)

  /**
   * `handleToggleEdit`: leaving edit mode on a product whose project list is
   * loaded sends the batch read from the product rows, even an empty one,
   * and once that request settles re-fetches the product and resets the tab
   * to `'1'`; a missing value makes the save throw and the mode stays. In
   * every other case the mode just flips.
   */
  function ToggleEdit(editMode: bool, product: Option<Product>, rows: seq<Row>, parse: string -> Option<real>): (r: Toggle)
    ensures r.request.Some? <==> editMode && product.Some? && product.value.projetos.Some? &&
                                 Normalise(rows, product.value.parametros, parse).Some?
    ensures r.request.Some? ==> r.request.value == UpdateProductRequest(product.value.id, Normalise(rows, product.value.parametros, parse).value)
    ensures r.afterSettle.Some? <==> r.request.Some?
    ensures r.afterSettle.Some? ==> r.afterSettle.value == AfterSettle(product.value.id, "1")
    ensures r.editMode == editMode <==> editMode && product.Some? && product.value.projetos.Some? &&
                                        Normalise(rows, product.value.parametros, parse).None?
  {
    if editMode && product.Some? && product.value.projetos.Some? then
      match Normalise(rows, product.value.parametros, parse)
      case None => Toggle(editMode, None, None)
      case Some(batch) =>
        Toggle(false, Some(UpdateProductRequest(product.value.id, batch)), Some(AfterSettle(product.value.id, "1")))
    else Toggle(!editMode, None, None)
  }

  /**
   * Entering edit mode and leaving it without typing re-submits exactly the
   * product's measured parameters, with their own values, and then reloads
   * the product.
   */
  lemma ToggleTwiceResubmits(product: Product, parse: string -> Option<real>)
    requires product.projetos.Some?
    requires Trimmed(product.parametros) && parse("-").None?
    ensures var enter := ToggleEdit(false, Some(product), ProductRows(product.parametros), parse);
            var leave := ToggleEdit(enter.editMode, Some(product), ProductRows(product.parametros), parse);
            enter == Toggle(true, None, None) && !leave.editMode &&
            leave.request == Some(UpdateProductRequest(product.id, Resubmitted(Entries, product.parametros))) &&
            leave.afterSettle == Some(AfterSettle(product.id, "1"))
  {
    var rows := ProductRows(product.parametros);
    ProductRowsRoundTrip(product.parametros, parse);
    LeaveEditSends(product, rows, Resubmitted(Entries, product.parametros), parse);
  }

  /** Leaving edit mode with rows that read as a batch sends that batch. */
  lemma LeaveEditSends(product: Product, rows: seq<Row>, batch: seq<ParamUpdate>, parse: string -> Option<real>)
    requires product.projetos.Some? && Normalise(rows, product.parametros, parse) == Some(batch)
    ensures ToggleEdit(false, Some(product), rows, parse) == Toggle(true, None, None)
    ensures ToggleEdit(true, Some(product), rows, parse) ==
            Toggle(false, Some(UpdateProductRequest(product.id, batch)), Some(AfterSettle(product.id, "1")))
  {
  }

  /**
   * The id one row contributes to `handleDeleteMedicao`'s list: that of the
   * first backend parameter whose normal name is the key of the row's label
   * (`original?.id ?? null`), none when the label or the parameter is unknown.
   */
  function RowId(row: Row, backend: seq<Param>): (r: Option<string>)
    ensures r.Some? <==> RowEntry(row).Some? && FindByKey(backend, RowEntry(row).value.key, NormName).Some?
    ensures r.Some? ==> r.value == FindByKey(backend, RowEntry(row).value.key, NormName).value.id
  {
    match RowEntry(row)
    case None => None
    case Some(e) =>
      KeyNormalised(e);
      match FindByKey(backend, Lower(Trim(e.key)), NormName)
      case None => None
      case Some(p) => Some(p.id)
  }

  /** The id each row contributes, in row order. */
  function RowIds(rows: seq<Row>, backend: seq<Param>): (r: seq<Option<string>>)
    ensures |r| == |rows|
    ensures forall i :: 0 <= i < |rows| ==> r[i] == RowId(rows[i], backend)
  {
    seq(|rows|, i requires 0 <= i < |rows| => RowId(rows[i], backend))
  }

  /** The ids `handleDeleteMedicao` collects (`map` then `filter`), in row order. */
  function MatchedIds(rows: seq<Row>, backend: seq<Param>): (r: seq<string>)
    ensures |r| <= |rows|
    ensures forall id :: id in r <==> exists i :: 0 <= i < |rows| && RowId(rows[i], backend) == Some(id)
  {
    Somes(RowIds(rows, backend))
  }

  /** The id the card row of an entry contributes when it is left unedited. */
  function CardIdOf(e: Entry, params: seq<Param>): Option<string> {
    var found := FindByKey(params, e.key, LowerName);
    if found.Some? then Some(found.value.id) else None
  }

  function CardIdsOf(entries: seq<Entry>, params: seq<Param>): (r: seq<Option<string>>)
    ensures |r| == |entries|
    ensures forall i :: 0 <= i < |entries| ==> r[i] == CardIdOf(entries[i], params)
  {
    if |entries| == 0 then [] else [CardIdOf(entries[0], params)] + CardIdsOf(entries[1..], params)
  }

  /** The ids of the parameters an unedited card shows, in catalogue order. */
  function CardIds(entries: seq<Entry>, params: seq<Param>): seq<string> {
    if |entries| == 0 then []
    else
      var found := FindByKey(params, entries[0].key, LowerName);
      (if found.Some? then [found.value.id] else []) + CardIds(entries[1..], params)
  }

  lemma {:induction false} SomesCardIds(entries: seq<Entry>, params: seq<Param>)
    ensures Somes(CardIdsOf(entries, params)) == CardIds(entries, params)
  {
    if |entries| > 0 {
      var os := CardIdsOf(entries, params);
      assert os[1..] == CardIdsOf(entries[1..], params);
      SomesCardIds(entries[1..], params);
      if os[0].None? {
        assert [] + CardIds(entries[1..], params) == CardIds(entries[1..], params);
      }
    }
  }

  /** Unedited card rows contribute exactly their matched parameters' ids. */
  lemma RowIdsOfCardRows(entries: seq<Entry>, params: seq<Param>, backend: seq<Param>)
    requires forall a :: 0 <= a < |entries| ==> LookupTitle(entries[a].title) == Some(entries[a])
    requires forall a :: 0 <= a < |entries| ==> Located(entries[a], params, backend)
    ensures RowIds(BuildMeasurementRows(entries, params), backend) == CardIdsOf(entries, params)
  {
    var rows := BuildMeasurementRows(entries, params);
    forall a | 0 <= a < |entries| ensures RowIds(rows, backend)[a] == CardIdsOf(entries, params)[a] {
      CardRowId(entries[a], params, backend);
    }
  }

  /** One unedited card row contributes its matched parameter's id. */
  lemma CardRowId(e: Entry, params: seq<Param>, backend: seq<Param>)
    requires LookupTitle(e.title) == Some(e) && Located(e, params, backend)
    ensures RowId(MeasurementRow(e, params), backend) == CardIdOf(e, params)
  {
    assert RowEntry(MeasurementRow(e, params)) == Some(e);
    KeyNormalised(e);
  }

  /** Deleting an unedited card collects exactly the ids of the parameters it shows, in catalogue order. */
  lemma CardIdsDeleted(params: seq<Param>)
    ensures var rows := MeasurementRows(params);
            MatchedIds(rows, RowsAsParams(rows)) == CardIds(Entries, params)
  {
    var rows := MeasurementRows(params);
    AllTitlesFound();
    AllKeysNormal();
    AllKeysDistinct();
    forall a | 0 <= a < |Entries| ensures Located(Entries[a], params, RowsAsParams(rows)) {
      CardBackendLookup(Entries, params, a);
    }
    RowIdsOfCardRows(Entries, params, RowsAsParams(rows));
    SomesCardIds(Entries, params);
  }

  /** The requests `handleDeleteMedicao` sends. */
  datatype DeleteRequest =
    | DeleteParams(produtoId: string, projetoId: string, amostraId: string, medicaoId: string, ids: seq<string>)
    | DeleteMeasurementOnly(produtoId: string, projetoId: string, amostraId: string, medicaoId: string)

  /**
   * `handleDeleteMedicao`: nothing without a project or a product id; else
   * the card's parameters are deleted first when there are any, and the
   * measurement itself only when that step did not fail.
   */
  function DeleteMeasurement(card: Card, productId: Option<string>, paramsDeleteFails: bool): (r: seq<DeleteRequest>)
    ensures |r| == 0 <==> card.projetoId.None? || card.projetoId.value == "" || productId.None? || productId.value == ""
    ensures |r| > 0 ==>
              var ids := MatchedIds(card.rows, RowsAsParams(card.rows));
              var p := card.projetoId.value;
              var last := DeleteMeasurementOnly(productId.value, p, card.amostraId, card.id);
              (|ids| == 0 ==> r == [last]) &&
              (|ids| > 0 ==> r[0] == DeleteParams(productId.value, p, card.amostraId, card.id, ids) &&
                             (r == [r[0]] <==> paramsDeleteFails) &&
                             (!paramsDeleteFails ==> r == [r[0], last]))
  {
    if card.projetoId.None? || card.projetoId.value == "" || productId.None? || productId.value == "" then []
    else
      var p := card.projetoId.value;
      var ids := MatchedIds(card.rows, RowsAsParams(card.rows));
      var last := DeleteMeasurementOnly(productId.value, p, card.amostraId, card.id);
      if |ids| == 0 then [last]
      else if paramsDeleteFails then [DeleteParams(productId.value, p, card.amostraId, card.id, ids)]
      else [DeleteParams(productId.value, p, card.amostraId, card.id, ids), last]
  }

  function CardId(c: Card): string { c.id }

  /** The `onChange` of a card's table: every card with that id takes the new rows. */
  function ChangeCardRows(cards: seq<Card>, id: string, rows: seq<Row>): (r: seq<Card>)
    ensures |r| == |cards|
    ensures forall i :: 0 <= i < |cards| && cards[i].id == id ==> r[i] == cards[i].(rows := rows)
    ensures forall i :: 0 <= i < |cards| && cards[i].id != id ==> r[i] == cards[i]
  {
    Map(cards, (c: Card) => if c.id == id then c.(rows := rows) else c)
  }

  /**
   * The card list kept in state is replaced by the freshly derived one only
   * when the id lists differ, so edits in progress survive re-derivations
   * that keep the same measurements.
   */
  function SyncCards(kept: seq<Card>, prevIds: seq<string>, derived: seq<Card>): (r: (seq<Card>, seq<string>))
    ensures Map(derived, CardId) == prevIds ==> r == (kept, prevIds)
    ensures Map(derived, CardId) != prevIds ==> r == (derived, Map(derived, CardId))
  {
    if Map(derived, CardId) == prevIds then (kept, prevIds) else (derived, Map(derived, CardId))
  }

  /** Typing into a card and then re-deriving the same measurements keeps what was typed. */
  lemma EditSurvivesSync(cards: seq<Card>, derived: seq<Card>, id: string, rows: seq<Row>)
    requires Map(derived, CardId) == Map(cards, CardId)
    ensures var edited := ChangeCardRows(cards, id, rows);
            SyncCards(edited, Map(cards, CardId), derived).0 == edited
    ensures Map(ChangeCardRows(cards, id, rows), CardId) == Map(cards, CardId)
  {
    var edited := ChangeCardRows(cards, id, rows);
    assert Map(edited, CardId) == Map(cards, CardId);
  }
}

=== FILE: entities.dfy ===
/**
 * The records the console holds copies of. Dates are left out; every field
 * the source reads with `?.` is an Option.
 */
module Entities {
  import opened Options

  /** A product or measurement parameter (`ParametroProduto`, `ParProductProps`). */
  datatype Param = Param(id: string, nome: string, valor: real, unidade: Option<string>)

  /** A measurement (`Medicao`); `projetoId` is only present on the view's copy. */
  datatype Measurement = Measurement(
    id: string,
    tipoMedicao: string,
    amostraId: string,
    projetoId: Option<string>,
    parametros: seq<Param>)

  /** A sample (`Amostra`). */
  datatype Sample = Sample(id: string, codigo: string, projetoId: string, medicoes: Option<seq<Measurement>>)

  /** A project (`Projeto`, `ProjectProps`). */
  datatype Project = Project(id: string, numero: string, amostras: Option<seq<Sample>>)

  /** A product (`ProductProps`). */
  datatype Product = Product(
    id: string,
    nome: string,
    tipo: string,
    referencia: string,
    parametros: seq<Param>,
    projetos: Option<seq<Project>>)

  /** One entry of a parameter update batch: `{ id, valor }`. */
  datatype ParamUpdate = ParamUpdate(id: string, valor: real)

  function ParamId(p: Param): string { p.id }
  function MeasurementId(m: Measurement): string { m.id }
  function SampleId(a: Sample): string { a.id }
  function ProjectId(p: Project): string { p.id }
  function ProductId(p: Product): string { p.id }
}

=== FILE: lists.dfy ===
/**
 * Sequence operations the console applies to its lists: JavaScript's
 * `findIndex`, `find`, `filter`, `map` with a replacing arrow, `flatMap`, and
 * `[...new Set(xs)]`. Each is stated by what it keeps and what it changes.
 */
module Lists {
  import opened Options

  ghost predicate NoDup<T>(xs: seq<T>) {
    forall i, j :: 0 <= i < j < |xs| ==> xs[i] != xs[j]
  }

  /** The identity, used as the key of a list of plain values. */
  function Id<T>(x: T): T { x }

  function Count<T(==)>(xs: seq<T>, x: T): nat {
    if |xs| == 0 then 0 else (if xs[0] == x then 1 else 0) + Count(xs[1..], x)
  }

  /** Index of the first element whose key is `k` (`findIndex`), or None (`-1`). */
  function IndexOfKey<T, K(==)>(xs: seq<T>, k: K, key: T -> K): (r: Option<nat>)
    ensures r.None? <==> forall i :: 0 <= i < |xs| ==> key(xs[i]) != k
    ensures r.Some? ==> r.value < |xs| && key(xs[r.value]) == k
    ensures r.Some? ==> forall j :: 0 <= j < r.value ==> key(xs[j]) != k
  {
    if |xs| == 0 then None
    else if key(xs[0]) == k then Some(0)
    else
      match IndexOfKey(xs[1..], k, key)
      case None => None
      case Some(i) => Some(i + 1)
  }

  /** In a list whose keys are pairwise distinct, the lookup of an element's own key finds that element. */
  lemma {:induction false} IndexOfOwnKey<T, K>(xs: seq<T>, i: nat, key: T -> K)
    requires i < |xs|
    requires forall a, b :: 0 <= a < b < |xs| ==> key(xs[a]) != key(xs[b])
    ensures IndexOfKey(xs, key(xs[i]), key) == Some(i)
  {
    assert forall a :: 0 <= a < i ==> key(xs[a]) != key(xs[i]);
  }

  /** Two key functions that agree on every element find the same first index. */
  lemma {:induction false} IndexOfKeyCongruent<T, K>(xs: seq<T>, k: K, f: T -> K, g: T -> K)
    requires forall i :: 0 <= i < |xs| ==> f(xs[i]) == g(xs[i])
    ensures IndexOfKey(xs, k, f) == IndexOfKey(xs, k, g)
  {
    if |xs| > 0 && f(xs[0]) != k {
      IndexOfKeyCongruent(xs[1..], k, f, g);
    }
  }

  /** The first element whose key is `k` (`find`). */
  function FindByKey<T, K(==)>(xs: seq<T>, k: K, key: T -> K): (r: Option<T>)
    ensures r.None? <==> forall i :: 0 <= i < |xs| ==> key(xs[i]) != k
    ensures r.Some? ==> exists i :: 0 <= i < |xs| && xs[i] == r.value && key(xs[i]) == k &&
                                     forall j :: 0 <= j < i ==> key(xs[j]) != k
  {
    match IndexOfKey(xs, k, key)
    case None => None
    case Some(i) => Some(xs[i])
  }

  /** When exactly one element has key `k`, `find` returns that element. */
  lemma FindOnly<T, K>(xs: seq<T>, i: nat, k: K, key: T -> K)
    requires i < |xs| && key(xs[i]) == k
    requires forall a :: 0 <= a < |xs| && a != i ==> key(xs[a]) != k
    ensures FindByKey(xs, k, key) == Some(xs[i])
  {
    assert IndexOfKey(xs, k, key) == Some(i);
  }

  /**
   * Overwrites the first element whose key equals the key of `x` with `x`
   * (`const i = xs.findIndex(..); if (i !== -1) xs[i] = x`).
   */
  function ReplaceFirst<T, K(==)>(xs: seq<T>, x: T, key: T -> K): (r: seq<T>)
    ensures |r| == |xs|
    ensures IndexOfKey(xs, key(x), key).None? ==> r == xs
    ensures IndexOfKey(xs, key(x), key).Some? ==>
              var i := IndexOfKey(xs, key(x), key).value;
              r[i] == x && forall j :: 0 <= j < |xs| && j != i ==> r[j] == xs[j]
  {
    if |xs| == 0 then []
    else if key(xs[0]) == key(x) then [x] + xs[1..]
    else [xs[0]] + ReplaceFirst(xs[1..], x, key)
  }

  /** Overwrites every element whose key equals the key of `x` (`xs.map(e => same ? x : e)`). */
  function ReplaceAll<T, K(==)>(xs: seq<T>, x: T, key: T -> K): (r: seq<T>)
    ensures |r| == |xs|
    ensures forall i :: 0 <= i < |xs| && key(xs[i]) == key(x) ==> r[i] == x
    ensures forall i :: 0 <= i < |xs| && key(xs[i]) != key(x) ==> r[i] == xs[i]
  {
    if |xs| == 0 then []
    else [if key(xs[0]) == key(x) then x else xs[0]] + ReplaceAll(xs[1..], x, key)
  }

  /** Drops every element whose key is `k` (`xs.filter(e => key(e) !== k)`). */
  function RemoveKey<T(!new), K(==)>(xs: seq<T>, k: K, key: T -> K): (r: seq<T>)
    ensures |r| <= |xs|
    ensures forall y :: y in r <==> y in xs && key(y) != k
    ensures (forall i :: 0 <= i < |xs| ==> key(xs[i]) != k) ==> r == xs
  {
    if |xs| == 0 then []
    else if key(xs[0]) == k then RemoveKey(xs[1..], k, key)
    else [xs[0]] + RemoveKey(xs[1..], k, key)
  }

  /** Filtering distributes over concatenation: the survivors keep their relative order. */
  lemma {:induction false} RemoveKeyAppend<T(!new), K>(xs: seq<T>, ys: seq<T>, k: K, key: T -> K)
    ensures RemoveKey(xs + ys, k, key) == RemoveKey(xs, k, key) + RemoveKey(ys, k, key)
  {
    if |xs| == 0 {
      assert xs + ys == ys;
    } else {
      assert (xs + ys)[1..] == xs[1..] + ys;
      RemoveKeyAppend(xs[1..], ys, k, key);
    }
  }

  /** Filtering a duplicate-free list leaves it duplicate-free. */
  lemma {:induction false} RemoveKeyNoDup<T(!new), K>(xs: seq<T>, k: K, key: T -> K)
    requires NoDup(xs)
    ensures NoDup(RemoveKey(xs, k, key))
  {
    if |xs| > 0 {
      assert NoDup(xs[1..]) by {
        forall i, j | 0 <= i < j < |xs[1..]| ensures xs[1..][i] != xs[1..][j] {
          assert xs[1..][i] == xs[i + 1] && xs[1..][j] == xs[j + 1];
        }
      }
      RemoveKeyNoDup(xs[1..], k, key);
      var rest := RemoveKey(xs[1..], k, key);
      if key(xs[0]) != k {
        assert xs[0] !in xs[1..];
        assert xs[0] !in rest;
        var r := [xs[0]] + rest;
        forall i, j | 0 <= i < j < |r| ensures r[i] != r[j] {
          if i == 0 {
            assert r[j] == rest[j - 1];
          } else {
            assert r[i] == rest[i - 1] && r[j] == rest[j - 1];
          }
        }
      }
    }
  }

  /** Removing every occurrence of a value counts it away entirely. */
  lemma {:induction false} RemoveKeyCount<T(!new)>(xs: seq<T>, x: T)
    ensures Count(RemoveKey(xs, x, Id), x) == 0
    ensures forall y :: y != x ==> Count(RemoveKey(xs, x, Id), y) == Count(xs, y)
  {
    if |xs| > 0 {
      RemoveKeyCount(xs[1..], x);
      if xs[0] != x {
        var rest := RemoveKey(xs[1..], x, Id);
        assert ([xs[0]] + rest)[1..] == rest;
      }
    }
  }

  lemma {:induction false} CountAppend<T>(xs: seq<T>, ys: seq<T>, x: T)
    ensures Count(xs + ys, x) == Count(xs, x) + Count(ys, x)
  {
    if |xs| == 0 {
      assert xs + ys == ys;
    } else {
      assert (xs + ys)[1..] == xs[1..] + ys;
      CountAppend(xs[1..], ys, x);
    }
  }

  /** `xs.map(f)`. */
  function Map<T, U>(xs: seq<T>, f: T -> U): (r: seq<U>)
    ensures |r| == |xs|
    ensures forall i :: 0 <= i < |xs| ==> r[i] == f(xs[i])
  {
    seq(|xs|, i requires 0 <= i < |xs| => f(xs[i]))
  }

  /** `xs.filter((x) => x !== null)` on a list of optional values. */
  function Somes<T(!new)>(xs: seq<Option<T>>): (r: seq<T>)
    ensures |r| <= |xs|
    ensures forall y :: y in r <==> exists i :: 0 <= i < |xs| && xs[i] == Some(y)
  {
    if |xs| == 0 then []
    else
      var rest := Somes(xs[1..]);
      assert forall i :: 1 <= i < |xs| ==> xs[1..][i - 1] == xs[i];
      match xs[0]
      case None => rest
      case Some(y) => [y] + rest
  }

  /** `xs.flatMap(f)`. */
  function FlatMap<T, U(!new)>(xs: seq<T>, f: T -> seq<U>): (r: seq<U>)
    ensures forall y :: y in r <==> exists i :: 0 <= i < |xs| && y in f(xs[i])
    ensures |r| == 0 <==> forall i :: 0 <= i < |xs| ==> |f(xs[i])| == 0
  {
    if |xs| == 0 then []
    else
      var rest := FlatMap(xs[1..], f);
      assert forall y :: y in rest <==> exists i :: 1 <= i < |xs| && y in f(xs[i]) by {
        forall y | y in rest ensures exists i :: 1 <= i < |xs| && y in f(xs[i]) {
          var i :| 0 <= i < |xs[1..]| && y in f(xs[1..][i]);
          assert xs[1..][i] == xs[i + 1];
        }
        forall y | exists i :: 1 <= i < |xs| && y in f(xs[i]) ensures y in rest {
          var i :| 1 <= i < |xs| && y in f(xs[i]);
          assert xs[1..][i - 1] == xs[i];
        }
      }
      f(xs[0]) + rest
  }

  /** `flatMap` over two lists is the concatenation of the two results, in order. */
  lemma {:induction false} FlatMapAppend<T, U(!new)>(xs: seq<T>, ys: seq<T>, f: T -> seq<U>)
    ensures FlatMap(xs + ys, f) == FlatMap(xs, f) + FlatMap(ys, f)
  {
    if |xs| == 0 {
      assert xs + ys == ys;
    } else {
      assert (xs + ys)[1..] == xs[1..] + ys;
      FlatMapAppend(xs[1..], ys, f);
    }
  }

  /** `flatMap` over one element is that element's list. */
  lemma FlatMapOne<T, U(!new)>(x: T, f: T -> seq<U>)
    ensures FlatMap([x], f) == f(x)
  {
    assert [x][1..] == [];
  }

  /** Position of the first occurrence of `x` in `xs`. */
  function FirstIndex<T(==)>(xs: seq<T>, x: T): (r: nat)
    requires x in xs
    ensures r < |xs| && xs[r] == x && x !in xs[..r]
  {
    if xs[0] == x then 0 else 1 + FirstIndex(xs[1..], x)
  }

  lemma {:induction false} FirstIndexPrefix<T>(xs: seq<T>, ys: seq<T>, x: T)
    requires x in xs
    ensures FirstIndex(xs + ys, x) == FirstIndex(xs, x)
  {
    if xs[0] != x {
      assert (xs + ys)[1..] == xs[1..] + ys;
      FirstIndexPrefix(xs[1..], ys, x);
    }
  }

  /** `[...new Set(xs)]`: distinct values in order of first occurrence. */
  function Dedup<T(==,!new)>(xs: seq<T>): (r: seq<T>)
    ensures NoDup(r)
    ensures forall x :: x in r <==> x in xs
    ensures forall i, j :: 0 <= i < j < |r| ==> FirstIndex(xs, r[i]) < FirstIndex(xs, r[j])
    decreases |xs|
  {
    if |xs| == 0 then []
    else
      var init := xs[..|xs| - 1];
      var last := xs[|xs| - 1];
      assert xs == init + [last];
      var d := Dedup(init);
      forall y | y in init ensures FirstIndex(xs, y) == FirstIndex(init, y) {
        FirstIndexPrefix(init, [last], y);
      }
      if last in d then d
      else
        assert FirstIndex(xs, last) == |init| by {
          assert last !in init;
          assert last !in xs[..|init|] by { assert xs[..|init|] == init; }
        }
        d + [last]
  }

  /** One more value is appended to the de-duplicated list exactly when it is new. */
  lemma DedupSnoc<T(!new)>(xs: seq<T>, x: T)
    ensures Dedup(xs + [x]) == if x in xs then Dedup(xs) else Dedup(xs) + [x]
  {
    assert (xs + [x])[..|xs|] == xs;
  }

  /** Appending values that already occur changes nothing after de-duplication. */
  lemma {:induction false} DedupAbsorbs<T(!new)>(xs: seq<T>, ys: seq<T>)
    requires forall i :: 0 <= i < |ys| ==> ys[i] in xs
    ensures Dedup(xs + ys) == Dedup(xs)
    decreases |ys|
  {
    if |ys| == 0 {
      assert xs + ys == xs;
    } else {
      var init := ys[..|ys| - 1];
      var last := ys[|ys| - 1];
      assert xs + ys == (xs + init) + [last];
      assert (xs + ys)[..|xs + ys| - 1] == xs + init;
      DedupAbsorbs(xs, init);
      assert last in Dedup(xs + init);
    }
  }

  /** Index of the last element of `xs` that lies in `valid`. */
  function LastIndexIn<T>(xs: seq<T>, valid: set<T>): (r: Option<nat>)
    ensures r.None? <==> forall i :: 0 <= i < |xs| ==> xs[i] !in valid
    ensures r.Some? ==> r.value < |xs| && xs[r.value] in valid
    ensures r.Some? ==> forall j :: r.value < j < |xs| ==> xs[j] !in valid
    decreases |xs|
  {
    if |xs| == 0 then None
    else if xs[|xs| - 1] in valid then Some(|xs| - 1)
    else LastIndexIn(xs[..|xs| - 1], valid)
  }
}

=== FILE: measurement_slice.dfy ===
/**
 * The measurement store slice: the measurements of one sample and the
 * request status. Only the list request drives the status; a create,
 * update or delete that succeeded changes the list and nothing else.
 */
module MeasurementSlice {
  import opened Options
  import opened Lists
  import opened SliceStatus

  /** A measurement as the list request returns it. */
  datatype Record = Record(id: string, tipoMedicao: string, amostraId: string, criadoEm: string)

  function RecordId(m: Record): string { m.id }

  datatype State = State(status: Status, data: seq<Record>)

  const Initial: State := State(Idle, [])

  datatype Action =
    | FetchPending
    | FetchDone(records: seq<Record>)
    | FetchFailed(rej: Rejection)
    | CreateDone(record: Record)
    | UpdateDone(record: Record)
    | DeleteDone(id: string)
    | Reset

  const FetchError: string := "Erro ao buscar medições"

  /**
   * One action. A created measurement is appended, an update overwrites the
   * first measurement with the same id and a delete drops every measurement
   * with that id. A failed fetch stores `action.error.message ?? fallback`.
   */
  function Reduce(st: State, a: Action): (r: State)
    ensures a.FetchDone? ==> r.data == a.records
    ensures a.CreateDone? ==> r.data == st.data + [a.record]
    ensures a.UpdateDone? ==>
              |r.data| == |st.data| &&
              (forall i :: 0 <= i < |st.data| && st.data[i].id != a.record.id ==> r.data[i] == st.data[i]) &&
              (forall i :: 0 <= i < |st.data| ==> r.data[i] == st.data[i] || r.data[i] == a.record)
    ensures a.UpdateDone? && IndexOfKey(st.data, a.record.id, RecordId).Some? ==>
              var i := IndexOfKey(st.data, a.record.id, RecordId).value;
              r.data[i] == a.record && forall j :: 0 <= j < |st.data| && j != i ==> r.data[j] == st.data[j]
    ensures a.UpdateDone? && IndexOfKey(st.data, a.record.id, RecordId).None? ==> r.data == st.data
    ensures a.DeleteDone? ==> forall x :: x in r.data <==> x in st.data && x.id != a.id
    ensures a.FetchPending? || a.Reset? ==> r.data == st.data
    ensures a.FetchPending? ==> r.status.loading && r.status.error.None? && r.status.success == st.status.success
    ensures a.FetchDone? ==> !r.status.loading && r.status.success == st.status.success && r.status.error == st.status.error
    ensures a.FetchFailed? ==> r.data == st.data && !r.status.loading && r.status.success == st.status.success &&
                               r.status.error == Some(RejectionErrorAsWritten(a.rej, FetchError))
    ensures a.CreateDone? || a.UpdateDone? || a.DeleteDone? ==> r.status == st.status
    ensures a.Reset? ==> r.status == Idle
  {
    match a
    case FetchPending => st.(status := Fetching(st.status))
    case FetchDone(xs) => State(Loaded(st.status), xs)
    case FetchFailed(rej) => st.(status := FetchFailedAsWritten(st.status, rej, FetchError))
    case CreateDone(m) => st.(data := st.data + [m])
    case UpdateDone(m) => st.(data := ReplaceFirst(st.data, m, RecordId))
    case DeleteDone(id) => st.(data := RemoveKey(st.data, id, RecordId))
    case Reset => st.(status := Idle)
  }

  /**
   * Corrected: one action when a failed fetch is read from where the request
   * put it; every other action has the effect of `Reduce`.
   */
  function ReduceCorrected(st: State, a: Action): (r: State)
    ensures a.FetchFailed? ==> r.data == st.data && !r.status.loading && r.status.success == st.status.success &&
                               r.status.error == Some(RejectionError(a.rej, FetchError))
    ensures !a.FetchFailed? ==> r == Reduce(st, a)
  {
    match a
    case FetchFailed(rej) => st.(status := FetchRejected(st.status, rej, FetchError))
    case _ => Reduce(st, a)
  }

  /**
   * The list request rejects with the server's answer as the value: as
   * written the slice shows "Rejected"; corrected, it shows the server's
   * text, or the fallback when that is empty.
   */
  lemma FetchFailureShown(st: State, payload: Option<string>)
    ensures Reduce(st, FetchFailed(WithValue(payload))).status.error == Some("Rejected")
    ensures ReduceCorrected(st, FetchFailed(WithValue(payload))).status.error == Some(OrDefault(payload, FetchError))
  {
  }

  /** Deleting a measurement just created under a fresh id gives back the list as it was. */
  lemma CreateThenDelete(st: State, m: Record)
    requires forall i :: 0 <= i < |st.data| ==> st.data[i].id != m.id
    ensures Reduce(Reduce(st, CreateDone(m)), DeleteDone(m.id)) == st
  {
    RemoveKeyAppend(st.data, [m], m.id, RecordId);
    assert RemoveKey([m], m.id, RecordId) == [];
    assert RemoveKey(st.data + [m], m.id, RecordId) == st.data + [];
  }
}

=== FILE: options.dfy ===
/** The optional value used wherever the source has `T | null | undefined`. */
module Options {

  datatype Option<+T> = None | Some(value: T) {

    /** The wrapped value, or `default` when there is none (JavaScript's `??`). */
    function GetOr(default: T): T {
      match this
      case Some(v) => v
      case None => default
    }
  }

  /** JavaScript's `s || default` on an optional string: the empty string is falsy too. */
  function OrDefault(s: Option<string>, default: string): (r: string)
    ensures s.Some? && s.value != "" ==> r == s.value
    ensures s.None? || s.value == "" ==> r == default
  {
    if s.Some? && s.value != "" then s.value else default
  }
}

=== FILE: par_measurement_slice.dfy ===
/**
 * The measurement-parameter store slice and its fan-out requests: the
 * parameters of one measurement, a busy flag and an error, and the batch
 * create, update and delete that issue one request per parameter.
 */
module ParMeasurementSlice {
  import opened Options
  import opened Lists
  import opened Entities
  import opened Catalog
  import opened SpecTable
  import opened SpecRows
  import opened Batch

  datatype State = State(parametros: seq<Param>, loading: bool, error: Option<string>)

  const Initial: State := State([], false, None)

  datatype Action =
    | FetchPending
    | FetchDone(params: seq<Param>)
    | FetchFailed
    | CreateDone(param: Param)
    | UpdateDone(param: Param)
    | DeleteDone(id: string)
    | Reset

  const FetchError: string := "Erro ao buscar parâmetros"

  /**
   * One action. A created parameter is appended, an update overwrites every
   * parameter with the same id, a delete drops every parameter with that
   * id, and the reset empties the list as well as the status. A failed
   * fetch always stores the same text.
   */
  function Reduce(st: State, a: Action): (r: State)
    ensures a.FetchPending? ==> r == st.(loading := true, error := None)
    ensures a.FetchDone? ==> r.parametros == a.params && !r.loading && r.error == st.error
    ensures a.FetchFailed? ==> r == st.(loading := false, error := Some(FetchError))
    ensures a.CreateDone? ==> r.parametros == st.parametros + [a.param] && r.loading == st.loading && r.error == st.error
    ensures a.UpdateDone? ==>
              |r.parametros| == |st.parametros| && r.loading == st.loading && r.error == st.error &&
              forall i :: 0 <= i < |st.parametros| ==>
                r.parametros[i] == (if st.parametros[i].id == a.param.id then a.param else st.parametros[i])
    ensures a.DeleteDone? ==> (forall p :: p in r.parametros <==> p in st.parametros && p.id != a.id) &&
                              r.loading == st.loading && r.error == st.error
    ensures a.Reset? ==> r == Initial
  {
    match a
    case FetchPending => st.(loading := true, error := None)
    case FetchDone(ps) => st.(loading := false, parametros := ps)
    case FetchFailed => st.(loading := false, error := Some(FetchError))
    case CreateDone(p) => st.(parametros := st.parametros + [p])
    case UpdateDone(p) => st.(parametros := ReplaceAll(st.parametros, p, ParamId))
    case DeleteDone(id) => st.(parametros := RemoveKey(st.parametros, id, ParamId))
    case Reset => Initial
  }

  /** Applying the same update twice is applying it once. */
  lemma UpdateIdempotent(st: State, p: Param)
    ensures Reduce(Reduce(st, UpdateDone(p)), UpdateDone(p)) == Reduce(st, UpdateDone(p))
  {
  }

  /** Deleting a parameter just created under a fresh id gives back the slice as it was. */
  lemma CreateThenDelete(st: State, p: Param)
    requires forall i :: 0 <= i < |st.parametros| ==> st.parametros[i].id != p.id
    ensures Reduce(Reduce(st, CreateDone(p)), DeleteDone(p.id)) == st
  {
    RemoveKeyAppend(st.parametros, [p], p.id, ParamId);
    assert RemoveKey([p], p.id, ParamId) == [];
    assert RemoveKey(st.parametros + [p], p.id, ParamId) == st.parametros + [];
  }

  /** The route of a measurement: product, project, sample, measurement. */
  datatype MeasurementPath = MeasurementPath(produtoId: string, projetoId: string, amostraId: string, medicaoId: string)

  datatype CreateRequest = CreateRequest(path: MeasurementPath, body: NewParam)
  datatype UpdateRequest = UpdateRequest(path: MeasurementPath, id: string, valor: real)
  datatype DeleteRequest = DeleteRequest(path: MeasurementPath, id: string)

  /** `createMultipleParametros`: eleven creates on the measurement's route, one per catalogue entry, valued at the sentinel. */
  function CreateMultiple(path: MeasurementPath): (r: seq<CreateRequest>)
    ensures |r| == |Entries|
    ensures forall i :: 0 <= i < |r| ==>
              r[i].path == path && r[i].body.nome == Entries[i].key &&
              r[i].body.valor == Sentinel && r[i].body.unidade == Entries[i].unidade
  {
    var news := CatalogParams();
    seq(|news|, i requires 0 <= i < |news| => CreateRequest(path, news[i]))
  }

  /** `updateMultipleParametros`: one update per item, in order, with the item's id and value. */
  function UpdateMultiple(path: MeasurementPath, items: seq<ParamUpdate>): (r: seq<UpdateRequest>)
    ensures |r| == |items|
    ensures forall i :: 0 <= i < |r| ==> r[i].path == path && r[i].id == items[i].id && r[i].valor == items[i].valor
  {
    seq(|items|, i requires 0 <= i < |items| => UpdateRequest(path, items[i].id, items[i].valor))
  }

  /** `deleteMultipleParametros`: one delete per id, in order. */
  function DeleteMultiple(path: MeasurementPath, ids: seq<string>): (r: seq<DeleteRequest>)
    ensures |r| == |ids|
    ensures forall i :: 0 <= i < |r| ==> r[i] == DeleteRequest(path, ids[i])
  {
    seq(|ids|, i requires 0 <= i < |ids| => DeleteRequest(path, ids[i]))
  }

  /** The slice after each delete of a batch has answered. */
  function ApplyDeletes(st: State, reqs: seq<DeleteRequest>): State
    decreases |reqs|
  {
    if |reqs| == 0 then st else ApplyDeletes(Reduce(st, DeleteDone(reqs[0].id)), reqs[1..])
  }

  /** Once a batch delete has fully answered, exactly the parameters with other ids remain. */
  lemma {:induction false} BatchDeleteRemovesIds(st: State, path: MeasurementPath, ids: seq<string>)
    ensures forall p :: p in ApplyDeletes(st, DeleteMultiple(path, ids)).parametros <==>
                          p in st.parametros && p.id !in ids
    decreases |ids|
  {
    var reqs := DeleteMultiple(path, ids);
    if |ids| > 0 {
      var next := Reduce(st, DeleteDone(ids[0]));
      assert reqs[1..] == DeleteMultiple(path, ids[1..]);
      BatchDeleteRemovesIds(next, path, ids[1..]);
      assert forall x :: x in ids <==> x == ids[0] || x in ids[1..];
    }
  }

  /** Every update of a measurement save is addressed to a parameter the measurement holds. */
  lemma SaveUpdatesBackendParams(path: MeasurementPath, rows: seq<Row>, backend: seq<Param>, parse: string -> Option<real>)
    requires Normalise(rows, backend, parse).Some?
    ensures forall q :: q in UpdateMultiple(path, Normalise(rows, backend, parse).value) ==>
              exists j :: 0 <= j < |backend| && backend[j].id == q.id
  {
    var us := Normalise(rows, backend, parse).value;
    NormaliseIdsFromBackend(rows, backend, parse);
    forall q | q in UpdateMultiple(path, us) ensures exists j :: 0 <= j < |backend| && backend[j].id == q.id {
      var k :| 0 <= k < |us| && UpdateMultiple(path, us)[k] == q;
      assert us[k] in us;
    }
  }
}

=== FILE: par_product_slice.dfy ===
/**
 * The product-parameter store slice and its fan-out requests: the
 * parameters of one product and the request status, and the batch create
 * and update that issue one request per parameter.
 */
module ParProductSlice {
  import opened Options
  import opened Lists
  import opened Entities
  import opened Catalog
  import opened SliceStatus
  import opened Batch

  datatype State = State(status: Status, items: seq<Param>, selected: Option<Param>)

  const Initial: State := State(Idle, [], None)

  datatype Action =
    | CreatePending
    | CreateDone(param: Param)
    | CreateFailed(payload: Option<string>)
    | UpdateDone(param: Param)
    | ResetCreate

  /**
   * One action. A created parameter is appended and an update overwrites
   * the first parameter with the same id, both with a success status; a
   * pending or failed update changes nothing, since the slice does not
   * handle them. The selection is never set.
   */
  function Reduce(st: State, a: Action): (r: State)
    ensures r.selected == st.selected
    ensures a.CreatePending? ==> r.items == st.items && r.status.loading && !r.status.success && r.status.error.None?
    ensures a.CreateDone? ==> r.items == st.items + [a.param] && r.status == Status(false, true, None)
    ensures a.CreateFailed? ==> r.items == st.items && !r.status.loading && !r.status.success && r.status.error == a.payload
    ensures a.UpdateDone? ==>
              |r.items| == |st.items| && r.status == Status(false, true, None) &&
              (forall i :: 0 <= i < |st.items| && st.items[i].id != a.param.id ==> r.items[i] == st.items[i]) &&
              (forall i :: 0 <= i < |st.items| ==> r.items[i] == st.items[i] || r.items[i] == a.param)
    ensures a.UpdateDone? && IndexOfKey(st.items, a.param.id, ParamId).Some? ==>
              var i := IndexOfKey(st.items, a.param.id, ParamId).value;
              r.items[i] == a.param && forall j :: 0 <= j < |st.items| && j != i ==> r.items[j] == st.items[j]
    ensures a.UpdateDone? && IndexOfKey(st.items, a.param.id, ParamId).None? ==> r.items == st.items
    ensures a.ResetCreate? ==> r.items == st.items && r.status == Idle
  {
    match a
    case CreatePending => st.(status := Started())
    case CreateDone(p) => st.(status := Succeeded(), items := st.items + [p])
    case CreateFailed(payload) => st.(status := Failed(payload))
    case UpdateDone(p) => st.(status := Succeeded(), items := ReplaceFirst(st.items, p, ParamId))
    case ResetCreate => st.(status := Idle)
  }

  datatype CreateRequest = CreateRequest(productId: string, body: NewParam)
  datatype UpdateRequest = UpdateRequest(produtoId: string, parametroId: string, valor: real)

  /** `createMultipleParProduct`: eleven creates for the product, one per catalogue entry, valued at the sentinel. */
  function CreateMultiple(productId: string): (r: seq<CreateRequest>)
    ensures |r| == |Entries|
    ensures forall i :: 0 <= i < |r| ==>
              r[i].productId == productId && r[i].body.nome == Entries[i].key &&
              r[i].body.valor == Sentinel && r[i].body.unidade == Entries[i].unidade
  {
    var news := CatalogParams();
    seq(|news|, i requires 0 <= i < |news| => CreateRequest(productId, news[i]))
  }

  /** `updateMultipleParProduct`: one update per item, in order, with the item's id and value. */
  function UpdateMultiple(produtoId: string, items: seq<ParamUpdate>): (r: seq<UpdateRequest>)
    ensures |r| == |items|
    ensures forall i :: 0 <= i < |r| ==> r[i] == UpdateRequest(produtoId, items[i].id, items[i].valor)
  {
    seq(|items|, i requires 0 <= i < |items| => UpdateRequest(produtoId, items[i].id, items[i].valor))
  }

  /** The slice after each create of a batch has answered, in order. */
  function ApplyCreates(st: State, created: seq<Param>): State
    decreases |created|
  {
    if |created| == 0 then st else ApplyCreates(Reduce(st, CreateDone(created[0])), created[1..])
  }

  /**
   * Once the creates of a new product have answered, the slice lists the
   * stored parameters after the ones it held, and reports success when there
   * was at least one.
   */
  lemma {:induction false} BatchCreateAppends(st: State, created: seq<Param>)
    ensures ApplyCreates(st, created).items == st.items + created
    ensures |created| > 0 ==> ApplyCreates(st, created).status == Status(false, true, None)
    ensures ApplyCreates(st, created).selected == st.selected
    decreases |created|
  {
    if |created| > 0 {
      var next := Reduce(st, CreateDone(created[0]));
      BatchCreateAppends(next, created[1..]);
      assert st.items + [created[0]] + created[1..] == st.items + created;
    }
  }
}

=== FILE: sample_slice.dfy ===
/**
 * The sample store slice: the samples of one project and the request
 * status, driven by the list, create, update and delete requests.
 */
module SampleSlice {
  import opened Options
  import opened Lists
  import opened Entities
  import opened SliceStatus

  datatype State = State(status: Status, data: seq<Sample>)

  const Initial: State := State(Idle, [])

  datatype Action =
    | FetchPending
    | FetchDone(samples: seq<Sample>)
    | FetchFailed(rej: Rejection)
    | CreatePending
    | CreateDone
    | CreateFailed(payload: Option<string>)
    | UpdatePending
    | UpdateDone(sample: Sample)
    | UpdateFailed(rej: Rejection)
    | DeletePending
    | DeleteDone(id: string)
    | DeleteFailed(rej: Rejection)
    | ResetCreate

  const FetchError: string := "Erro ao buscar amostras"
  const UpdateError: string := "Erro ao atualizar amostra"
  const DeleteError: string := "Erro ao deletar amostra"

  /**
   * The list after one action: replaced by a fetch, changed in place by an
   * update (the first sample with the same id) and filtered by a delete
   * (every sample with that id). A created sample is not added; the screen
   * fetches again.
   */
  function NextData(data: seq<Sample>, a: Action): (r: seq<Sample>)
    ensures a.FetchDone? ==> r == a.samples
    ensures a.UpdateDone? ==>
              |r| == |data| &&
              (forall i :: 0 <= i < |data| ==> r[i] == data[i] || (r[i] == a.sample && data[i].id == a.sample.id)) &&
              (forall i :: 0 <= i < |data| && data[i].id != a.sample.id ==> r[i] == data[i])
    ensures a.UpdateDone? && IndexOfKey(data, a.sample.id, SampleId).Some? ==>
              var i := IndexOfKey(data, a.sample.id, SampleId).value;
              r[i] == a.sample && forall j :: 0 <= j < |data| && j != i ==> r[j] == data[j]
    ensures a.UpdateDone? && IndexOfKey(data, a.sample.id, SampleId).None? ==> r == data
    ensures a.DeleteDone? ==> forall x :: x in r <==> x in data && x.id != a.id
    ensures a.DeleteDone? && (forall i :: 0 <= i < |data| ==> data[i].id != a.id) ==> r == data
    ensures !a.FetchDone? && !a.UpdateDone? && !a.DeleteDone? ==> r == data
  {
    match a
    case FetchDone(xs) => xs
    case UpdateDone(x) => ReplaceFirst(data, x, SampleId)
    case DeleteDone(id) => RemoveKey(data, id, SampleId)
    case _ => data
  }

  /**
   * The status after one action. An update or delete that succeeded leaves
   * the error as it was; a failed fetch keeps an earlier success. A failed
   * fetch, update or delete stores `action.error.message ?? fallback`,
   * which for the value rejections of the list and delete requests is the
   * toolkit's "Rejected".
   */
  function NextStatus(s: Status, a: Action): (r: Status)
    ensures a.FetchPending? || a.CreatePending? || a.UpdatePending? || a.DeletePending? ==>
              r.loading && !r.success && r.error.None?
    ensures a.FetchDone? ==> !r.loading && r.success == s.success && r.error == s.error
    ensures a.CreateDone? ==> r == Status(false, true, None)
    ensures a.UpdateDone? || a.DeleteDone? ==> !r.loading && r.success && r.error == s.error
    ensures a.CreateFailed? ==> !r.loading && !r.success && r.error == a.payload
    ensures a.FetchFailed? ==> !r.loading && r.success == s.success && r.error == Some(RejectionErrorAsWritten(a.rej, FetchError))
    ensures a.UpdateFailed? ==> !r.loading && !r.success && r.error == Some(RejectionErrorAsWritten(a.rej, UpdateError))
    ensures a.DeleteFailed? ==> !r.loading && !r.success && r.error == Some(RejectionErrorAsWritten(a.rej, DeleteError))
    ensures a.ResetCreate? ==> r == Idle
  {
    match a
    case FetchPending => Started()
    case FetchDone(_) => Loaded(s)
    case FetchFailed(rej) => FetchFailedAsWritten(s, rej, FetchError)
    case CreatePending => Started()
    case CreateDone => Succeeded()
    case CreateFailed(payload) => Failed(payload)
    case UpdatePending => Started()
    case UpdateDone(_) => SucceededKeepingError(s)
    case UpdateFailed(rej) => FailedAsWritten(rej, UpdateError)
    case DeletePending => Started()
    case DeleteDone(_) => SucceededKeepingError(s)
    case DeleteFailed(rej) => FailedAsWritten(rej, DeleteError)
    case ResetCreate => Idle
  }

  /**
   * Corrected: the status after one action when a failure is read from
   * where the request put it (`action.payload` for a value rejection).
   * Every other action has the effect of `NextStatus`.
   */
  function NextStatusCorrected(s: Status, a: Action): (r: Status)
    ensures a.FetchFailed? ==> !r.loading && r.success == s.success && r.error == Some(RejectionError(a.rej, FetchError))
    ensures a.UpdateFailed? ==> !r.loading && !r.success && r.error == Some(RejectionError(a.rej, UpdateError))
    ensures a.DeleteFailed? ==> !r.loading && !r.success && r.error == Some(RejectionError(a.rej, DeleteError))
    ensures !a.FetchFailed? && !a.UpdateFailed? && !a.DeleteFailed? ==> r == NextStatus(s, a)
  {
    match a
    case FetchFailed(rej) => FetchRejected(s, rej, FetchError)
    case UpdateFailed(rej) => Rejected(rej, UpdateError)
    case DeleteFailed(rej) => Rejected(rej, DeleteError)
    case _ => NextStatus(s, a)
  }

  /**
   * The list and delete requests reject with the server's answer as the
   * value. As written the slice then shows "Rejected", whatever the server
   * said; corrected, it shows the server's text, or the fallback when that
   * is empty.
   */
  lemma ValueFailureShown(s: Status, payload: Option<string>)
    ensures NextStatus(s, FetchFailed(WithValue(payload))).error == Some("Rejected")
    ensures NextStatus(s, DeleteFailed(WithValue(payload))).error == Some("Rejected")
    ensures payload.Some? && payload.value != "" ==>
              NextStatusCorrected(s, FetchFailed(WithValue(payload))).error == payload &&
              NextStatusCorrected(s, DeleteFailed(WithValue(payload))).error == payload
    ensures payload.None? || payload.value == "" ==>
              NextStatusCorrected(s, FetchFailed(WithValue(payload))).error == Some(FetchError) &&
              NextStatusCorrected(s, DeleteFailed(WithValue(payload))).error == Some(DeleteError)
  {
  }

  /** The update request throws instead, and both readings store the thrown message, or the fallback without one. */
  lemma ThrownFailureSame(s: Status, message: Option<string>)
    ensures NextStatus(s, UpdateFailed(Thrown(message))) == NextStatusCorrected(s, UpdateFailed(Thrown(message)))
    ensures NextStatus(s, UpdateFailed(Thrown(message))).error == Some(message.GetOr(UpdateError))
  {
  }

  /**
   * One action of the slice: the list changes only when a fetch, update or
   * delete answers, and the slice is never left busy while it shows an error.
   */
  function Reduce(st: State, a: Action): (r: State)
    ensures !a.FetchDone? && !a.UpdateDone? && !a.DeleteDone? ==> r.data == st.data
    ensures a.FetchDone? ==> r.data == a.samples && !r.status.loading
    ensures a.UpdateDone? ==>
              |r.data| == |st.data| &&
              forall i :: 0 <= i < |st.data| && st.data[i].id != a.sample.id ==> r.data[i] == st.data[i]
    ensures a.DeleteDone? ==> forall x :: x in r.data <==> x in st.data && x.id != a.id
    ensures a.ResetCreate? ==> r == State(Idle, st.data)
    ensures Coherent(st.status) ==> Coherent(r.status)
  {
    State(NextStatus(st.status, a), NextData(st.data, a))
  }

  /** Deleting a sample twice is deleting it once. */
  lemma {:induction false} DeleteIdempotent(st: State, id: string)
    ensures Reduce(Reduce(st, DeleteDone(id)), DeleteDone(id)).data == Reduce(st, DeleteDone(id)).data
  {
    var once := RemoveKey(st.data, id, SampleId);
    assert forall i :: 0 <= i < |once| ==> once[i].id != id by {
      forall i | 0 <= i < |once| ensures once[i].id != id {
        assert once[i] in once;
      }
    }
  }

  /** A delete keeps the surviving samples in their order: it filters each part of the list separately. */
  lemma DeleteKeepsOrder(st: State, before: seq<Sample>, after: seq<Sample>, id: string)
    requires st.data == before + after
    ensures Reduce(st, DeleteDone(id)).data == RemoveKey(before, id, SampleId) + RemoveKey(after, id, SampleId)
  {
    RemoveKeyAppend(before, after, id, SampleId);
  }
}

=== FILE: selection.dfy ===
/**
 * The per-project sample selection of the product-specification screen and
 * the project a sample or measurement action is aimed at.
 */
module SpecSelection {
  import opened Options
  import opened Lists
  import opened Entities
  import opened SpecTable
  import opened SpecRows
  import opened SpecTabs

  /**
   * What a chip click stores for a project: the sample's id, code and
   * measurement list as it is (absent stays absent), without its project id.
   */
  datatype Chosen = Chosen(id: string, codigo: string, medicoes: Option<seq<Measurement>>)

  /** `amostrasSelecionadas`: project id to the sample chosen in that project's tab. */
  type Selection = map<string, Chosen>

  /**
   * The project an action on the current tab is aimed at: the active tab when
   * the tab bar last reported one of the fixed tabs, else that report.
   */
  function CurrentProjectId(active: string, pending: string): (r: string)
    ensures pending != SpecTab && pending != ProjectsTab ==> r == pending
    ensures (pending == SpecTab || pending == ProjectsTab) ==> r == active
  {
    if pending == SpecTab || pending == ProjectsTab then active else pending
  }

  /** Clicking a sample chip: that project now has this sample chosen; every other project keeps its choice. */
  function SelectSample(sel: Selection, projectId: string, a: Sample): (r: Selection)
    ensures projectId in r && r[projectId] == Chosen(a.id, a.codigo, a.medicoes)
    ensures forall p :: p != projectId ==> (p in r <==> p in sel) && (p in sel ==> r[p] == sel[p])
  {
    sel[projectId := Chosen(a.id, a.codigo, a.medicoes)]
  }

  /** A chip is highlighted when the chosen sample of its project has the same code. */
  function ChipHighlighted(sel: Selection, projectId: string, a: Sample): (b: bool)
    ensures b <==> projectId in sel && sel[projectId].codigo == a.codigo
  {
    projectId in sel && sel[projectId].codigo == a.codigo
  }

  /** After a chip click, that chip is highlighted, and so is any chip of the same project with the same code. */
  lemma SelectHighlights(sel: Selection, projectId: string, a: Sample, b: Sample, other: string)
    requires other != projectId
    ensures ChipHighlighted(SelectSample(sel, projectId, a), projectId, b) <==> b.codigo == a.codigo
    ensures ChipHighlighted(SelectSample(sel, projectId, a), other, b) == ChipHighlighted(sel, other, b)
  {
  }

  /** "Del amostra" and "Add Medição" are enabled when the project has a chosen sample with a non-empty id. */
  function SampleActionsEnabled(sel: Selection, projectId: string): (b: bool)
    ensures b <==> projectId in sel && sel[projectId].id != ""
  {
    projectId in sel && sel[projectId].id != ""
  }

  /** A `deleteAmostra` request. */
  datatype DeleteSampleRequest = DeleteSampleRequest(produtoId: string, projetoId: string, amostraId: string)

  /**
   * `handleDeleteAmostra`: with no sample chosen for the current project,
   * nothing is sent and the selection stays; otherwise that sample's delete is
   * sent and the project's choice is forgotten, whatever the outcome.
   */
  function DeleteSample(sel: Selection, productId: string, active: string, pending: string): (r: (Selection, Option<DeleteSampleRequest>))
    ensures var p := CurrentProjectId(active, pending);
            (p !in sel ==> r == (sel, None)) &&
            (p in sel ==> r.1 == Some(DeleteSampleRequest(productId, p, sel[p].id)) &&
                          r.0.Keys == sel.Keys - {p} &&
                          forall q :: q in r.0 ==> r.0[q] == sel[q])
  {
    var p := CurrentProjectId(active, pending);
    if p !in sel then (sel, None)
    else (map q | q in sel && q != p :: sel[q], Some(DeleteSampleRequest(productId, p, sel[p].id)))
  }

  /** A `createMedicao` request as the measurement form builds it. */
  datatype CreateMeasurementRequest = CreateMeasurementRequest(produtoId: string, projetoId: string, amostraId: string, tipoMedicao: string)

  /** The measurement form: the current project, and its chosen sample's id or the empty string. */
  function CreateMeasurement(sel: Selection, productId: string, active: string, pending: string, tipo: string): (r: CreateMeasurementRequest)
    ensures r.projetoId == CurrentProjectId(active, pending)
    ensures r.amostraId == if r.projetoId in sel then sel[r.projetoId].id else ""
    ensures r.produtoId == productId && r.tipoMedicao == tipo
  {
    var p := CurrentProjectId(active, pending);
    CreateMeasurementRequest(productId, p, if p in sel then sel[p].id else "", tipo)
  }

  /** A `createAmostra` request. */
  datatype CreateSampleRequest = CreateSampleRequest(produtoId: string, projetoId: string, codigo: string)

  /**
   * `handleCreateAmostra` as written: the project is the active tab only when
   * the tab bar last reported the project list, and the tab bar's report
   * otherwise, even when that report is the specification tab. Nothing is
   * sent when the product id, the active tab or the report is empty.
   */
  function CreateSampleAsWritten(productId: string, active: string, pending: string, codigo: string): (r: Option<CreateSampleRequest>)
    ensures r.None? <==> productId == "" || active == "" || pending == ""
    ensures r.Some? ==> r.value.projetoId == (if pending == ProjectsTab then active else pending)
  {
    if productId == "" || active == "" || pending == "" then None
    else Some(CreateSampleRequest(productId, if pending == ProjectsTab then active else pending, codigo))
  }

  /**
   * On a project tab opened while the tab bar last reported the specification
   * tab, the sample is created for a project whose id is `1`.
   */
  lemma CreateSampleWrongProject()
    ensures CreateSampleAsWritten("prod", "proj", SpecTab, "A1") == Some(CreateSampleRequest("prod", SpecTab, "A1"))
    ensures CurrentProjectId("proj", SpecTab) == "proj"
  {
  }

  /** `handleCreateAmostra` with the same project rule as the other sample and measurement actions. */
  function CreateSample(productId: string, active: string, pending: string, codigo: string): (r: Option<CreateSampleRequest>)
    ensures r.None? <==> productId == "" || active == "" || pending == ""
    ensures r.Some? ==> r.value == CreateSampleRequest(productId, CurrentProjectId(active, pending), codigo)
  {
    if productId == "" || active == "" || pending == "" then None
    else Some(CreateSampleRequest(productId, CurrentProjectId(active, pending), codigo))
  }

  /**
   * With the shared rule a sample is never created for a fixed tab when the
   * active tab is a project, and it goes to the same project the measurement
   * form and the sample delete use.
   */
  lemma CreateSampleTargetsProject(sel: Selection, productId: string, active: string, pending: string, codigo: string, tipo: string)
    requires productId != "" && active != "" && pending != ""
    requires active != SpecTab && active != ProjectsTab
    requires pending == SpecTab || pending == ProjectsTab || pending == active
    ensures var r := CreateSample(productId, active, pending, codigo);
            r.Some? && r.value.projetoId == active &&
            r.value.projetoId == CreateMeasurement(sel, productId, active, pending, tipo).projetoId
  {
  }

  /** A measurement card: a measurement of a chosen sample with its catalogue rows. */
  datatype Card = Card(id: string, tipoMedicao: string, amostraId: string, projetoId: Option<string>, rows: seq<Row>)

  /** The sample is the one chosen in some project's tab. */
  predicate IsChosen(a: Sample, sel: Selection) {
    exists p :: p in sel && sel[p].id == a.id
  }

  /** The samples that are chosen in some project, in store order. */
  function ChosenSamples(amostras: seq<Sample>, sel: Selection): (r: seq<Sample>)
    ensures |r| <= |amostras|
    ensures forall a :: a in r <==> a in amostras && IsChosen(a, sel)
    ensures (forall i :: 0 <= i < |amostras| ==> IsChosen(amostras[i], sel)) ==> r == amostras
  {
    if |amostras| == 0 then []
    else
      var rest := ChosenSamples(amostras[1..], sel);
      assert forall a :: a in amostras <==> a == amostras[0] || a in amostras[1..];
      if IsChosen(amostras[0], sel) then [amostras[0]] + rest else rest
  }

  /**
   * The filter decides sample by sample: a list in two parts keeps the chosen
   * samples of each part, in order, and one sample is kept exactly when it is
   * chosen.
   */
  lemma {:induction false} ChosenSamplesAppend(xs: seq<Sample>, ys: seq<Sample>, a: Sample, sel: Selection)
    ensures ChosenSamples(xs + ys, sel) == ChosenSamples(xs, sel) + ChosenSamples(ys, sel)
    ensures ChosenSamples([a], sel) == if IsChosen(a, sel) then [a] else []
    decreases |xs|
  {
    if |xs| == 0 {
      assert xs + ys == ys;
    } else {
      assert (xs + ys)[1..] == xs[1..] + ys;
      ChosenSamplesAppend(xs[1..], ys, a, sel);
    }
    assert [a][1..] == [];
  }

  function CardOf(a: Sample, m: Measurement): Card {
    Card(m.id, m.tipoMedicao, a.id, Some(a.projetoId), MeasurementRows(m.parametros))
  }

  /** The cards of one sample, one per measurement in order; None when it carries no measurement list. */
  function SampleCards(a: Sample): (r: Option<seq<Card>>)
    ensures r.None? <==> a.medicoes.None?
    ensures r.Some? ==> |r.value| == |a.medicoes.value| &&
                        forall j :: 0 <= j < |r.value| ==> r.value[j] == CardOf(a, a.medicoes.value[j])
  {
    match a.medicoes
    case None => None
    case Some(ms) => Some(seq(|ms|, j requires 0 <= j < |ms| => CardOf(a, ms[j])))
  }

  /** Two card lists one after the other; None when either is missing. */
  function ThenCards(x: Option<seq<Card>>, y: Option<seq<Card>>): Option<seq<Card>> {
    if x.Some? && y.Some? then Some(x.value + y.value) else None
  }

  /**
   * The cards of the chosen samples, sample by sample, measurement by
   * measurement; None when a chosen sample carries no measurement list
   * (reading its `map` throws).
   */
  function Cards(chosen: seq<Sample>): (r: Option<seq<Card>>)
    ensures r.None? <==> exists i :: 0 <= i < |chosen| && chosen[i].medicoes.None?
    ensures r.Some? ==> forall c :: c in r.value ==>
              exists i, j :: 0 <= i < |chosen| && 0 <= j < |chosen[i].medicoes.value| &&
                             c == CardOf(chosen[i], chosen[i].medicoes.value[j])
  {
    if |chosen| == 0 then Some([])
    else
      var a := chosen[0];
      var rest := Cards(chosen[1..]);
      assert forall i :: 1 <= i < |chosen| ==> chosen[1..][i - 1] == chosen[i];
      var here := SampleCards(a);
      if here.None? || rest.None? then None
      else Some(here.value + rest.value)
  }

  /**
   * The cards are built sample by sample: a list of chosen samples in two
   * parts gives the first part's cards followed by the second's (None when
   * either part has a sample without measurements), and a single sample
   * gives its own cards.
   */
  lemma {:induction false} CardsAppend(xs: seq<Sample>, ys: seq<Sample>, a: Sample)
    ensures Cards(xs + ys) == ThenCards(Cards(xs), Cards(ys))
    ensures Cards([a]) == SampleCards(a)
    decreases |xs|
  {
    if |xs| == 0 {
      assert xs + ys == ys;
      if Cards(ys).Some? {
        assert [] + Cards(ys).value == Cards(ys).value;
      }
    } else {
      assert (xs + ys)[1..] == xs[1..] + ys;
      assert (xs + ys)[0] == xs[0];
      CardsAppend(xs[1..], ys, a);
      var here := SampleCards(xs[0]);
      if here.Some? && Cards(xs[1..]).Some? && Cards(ys).Some? {
        assert here.value + (Cards(xs[1..]).value + Cards(ys).value) ==
               (here.value + Cards(xs[1..]).value) + Cards(ys).value;
      }
    }
    assert [a][1..] == [];
    if SampleCards(a).Some? {
      assert SampleCards(a).value + [] == SampleCards(a).value;
    }
  }

  /** Every card carries the project of its sample and exactly one row per catalogue entry. */
  lemma {:induction false} CardsShape(chosen: seq<Sample>)
    requires Cards(chosen).Some?
    ensures forall c :: c in Cards(chosen).value ==>
              c.projetoId.Some? && |c.rows| == 11 &&
              exists i :: 0 <= i < |chosen| && c.amostraId == chosen[i].id && c.projetoId == Some(chosen[i].projetoId)
  {
    forall c | c in Cards(chosen).value
      ensures c.projetoId.Some? && |c.rows| == 11 &&
              exists i :: 0 <= i < |chosen| && c.amostraId == chosen[i].id && c.projetoId == Some(chosen[i].projetoId)
    {
      var i, j :| 0 <= i < |chosen| && 0 <= j < |chosen[i].medicoes.value| &&
                  c == CardOf(chosen[i], chosen[i].medicoes.value[j]);
    }
  }

  /** A card's heading: the two instrument types by their full names, any other type as stored. */
  function CardTitle(tipo: string): (r: string)
    ensures tipo == "ESFERA_INTEGRADORA" ==> r == "Esfera Integradora"
    ensures tipo == "GONIOFOTOMETRO" ==> r == "Goniofotômetro"
    ensures r == tipo <==> tipo != "ESFERA_INTEGRADORA" && tipo != "GONIOFOTOMETRO"
  {
    if tipo == "ESFERA_INTEGRADORA" then "Esfera Integradora"
    else if tipo == "GONIOFOTOMETRO" then "Goniofotômetro"
    else tipo
  }

  /** What the measurement area of a project tab shows. */
  datatype Panel = ShowCards(cards: seq<Card>) | PickSample | NoMeasurements

  /** The cards when there are any; otherwise a prompt to choose a sample when none is chosen anywhere, else a note that there are no measurements. */
  function MeasurementPanel(cards: seq<Card>, sel: Selection): (r: Panel)
    ensures r.ShowCards? <==> |cards| > 0
    ensures r.ShowCards? ==> r.cards == cards
    ensures r == PickSample <==> |cards| == 0 && |sel| == 0
    ensures r == NoMeasurements <==> |cards| == 0 && |sel| > 0
  {
    if |cards| > 0 then ShowCards(cards)
    else if |sel| == 0 then PickSample
    else NoMeasurements
  }

  /** With no sample chosen there is no card to show, so the tab asks for a sample. */
  lemma NoChoiceAsksForSample(amostras: seq<Sample>)
    ensures ChosenSamples(amostras, map[]) == []
    ensures Cards(ChosenSamples(amostras, map[])) == Some([])
    ensures MeasurementPanel(Cards(ChosenSamples(amostras, map[])).value, map[]) == PickSample
  {
  }
}

=== FILE: spec_rows.dfy ===
/**
 * The parameter rows of the product-specification screen: the product rows
 * and the measurement rows built from the catalogue, and the normalisation
 * that turns edited rows back into an `{id, valor}` update batch.
 */
module SpecRows {
  import opened Options
  import opened Lists
  import opened Text
  import opened Entities
  import opened Catalog
  import opened SpecTable

  /** Field names of a parameter row. */
  const LabelKey: string := "parametro"
  const UnitKey: string := "unidade"
  const IdKey: string := "id"
  const NameKey: string := "nome"

  /** `p.nome.toLowerCase()`, the match used when the rows are built. */
  function LowerName(p: Param): string { Lower(p.nome) }

  /**
   * `p.nome.toLowerCase().trim()`, the match used when the rows are saved,
   * trimmed first; `NormNameAsWritten` shows the order does not matter.
   */
  function NormName(p: Param): string { Lower(Trim(p.nome)) }

  /** The saved match read in the source's order: lower-cased, then trimmed. */
  lemma NormNameAsWritten(p: Param)
    ensures NormName(p) == Trim(Lower(p.nome))
  {
    LowerTrimCommute(p.nome);
  }

  /** The unit of a parameter that may be missing. */
  function FoundUnit(found: Option<Param>): Option<string> {
    match found
    case Some(p) => p.unidade
    case None => None
  }

  /**
   * The product row of one catalogue entry: its label; the value of the first
   * parameter whose lower-cased name is the key, or `-` when there is none or
   * it is the sentinel; the unit, or `-` when it is missing or empty.
   */
  function ProductRow(e: Entry, params: seq<Param>): (r: Row)
    ensures Get(r, LabelKey) == Text(e.title)
    ensures var found := FindByKey(params, e.key, LowerName);
            Get(r, ValueKey) == Text("-") <==> found.None? || found.value.valor == Sentinel
    ensures var found := FindByKey(params, e.key, LowerName);
            found.Some? && found.value.valor != Sentinel ==> Get(r, ValueKey) == Num(found.value.valor)
    ensures var found := FindByKey(params, e.key, LowerName);
            Get(r, UnitKey) == Text("-") <==> FoundUnit(found) in {None, Some(""), Some("-")}
    ensures var found := FindByKey(params, e.key, LowerName);
            FoundUnit(found).Some? && FoundUnit(found).value != "" ==> Get(r, UnitKey) == Text(FoundUnit(found).value)
  {
    var found := FindByKey(params, e.key, LowerName);
    var valor := if found.Some? && found.value.valor != Sentinel then Num(found.value.valor) else Text("-");
    map[LabelKey := Text(e.title), ValueKey := valor, UnitKey := Text(OrDefault(FoundUnit(found), "-"))]
  }

  function BuildProductRows(entries: seq<Entry>, params: seq<Param>): (r: seq<Row>)
    ensures |r| == |entries|
    ensures forall i :: 0 <= i < |entries| ==> r[i] == ProductRow(entries[i], params)
  {
    if |entries| == 0 then [] else [ProductRow(entries[0], params)] + BuildProductRows(entries[1..], params)
  }

  /** The product effect: exactly one row per catalogue entry, in catalogue order. */
  function ProductRows(params: seq<Param>): (r: seq<Row>)
    ensures |r| == |Entries|
    ensures forall i :: 0 <= i < |Entries| ==> r[i] == ProductRow(Entries[i], params)
  {
    BuildProductRows(Entries, params)
  }

  /**
   * The measurement row of one catalogue entry: label, the matched parameter's
   * id and name (empty when unmatched), its value (0 when unmatched) and its
   * unit, falling back to the catalogue unit and then to `-`.
   */
  function MeasurementRow(e: Entry, params: seq<Param>): (r: Row)
    ensures Get(r, LabelKey) == Text(e.title)
    ensures var found := FindByKey(params, e.key, LowerName);
            Get(r, IdKey) == Text(if found.Some? then found.value.id else "") &&
            Get(r, NameKey) == Text(if found.Some? then found.value.nome else "") &&
            Get(r, ValueKey) == Num(if found.Some? then found.value.valor else 0.0)
    ensures var found := FindByKey(params, e.key, LowerName);
            var u := Get(r, UnitKey);
            u.Text? && u.s != "" &&
            (FoundUnit(found).Some? && FoundUnit(found).value != "" ==> u.s == FoundUnit(found).value)
    ensures var found := FindByKey(params, e.key, LowerName);
            FoundUnit(found).None? || FoundUnit(found).value == "" ==>
              Get(r, UnitKey) == Text(if e.unidade != "" then e.unidade else "-")
  {
    var found := FindByKey(params, e.key, LowerName);
    map[LabelKey := Text(e.title),
        IdKey := Text(if found.Some? then found.value.id else ""),
        NameKey := Text(if found.Some? then found.value.nome else ""),
        ValueKey := Num(if found.Some? then found.value.valor else 0.0),
        UnitKey := Text(OrDefault(FoundUnit(found), OrDefault(Some(e.unidade), "-")))]
  }

  function BuildMeasurementRows(entries: seq<Entry>, params: seq<Param>): (r: seq<Row>)
    ensures |r| == |entries|
    ensures forall i :: 0 <= i < |entries| ==> r[i] == MeasurementRow(entries[i], params)
  {
    if |entries| == 0 then [] else [MeasurementRow(entries[0], params)] + BuildMeasurementRows(entries[1..], params)
  }

  /** The rows of one measurement card: one per catalogue entry, in catalogue order. */
  function MeasurementRows(params: seq<Param>): (r: seq<Row>)
    ensures |r| == |Entries|
    ensures forall i :: 0 <= i < |Entries| ==> r[i] == MeasurementRow(Entries[i], params)
  {
    BuildMeasurementRows(Entries, params)
  }

  /** What normalising one row gives: nothing, one update, or a thrown error. */
  datatype Outcome = Drop | Keep(u: ParamUpdate) | Throw

  /** The catalogue entry whose label is the row's `parametro`, if it is a string naming one. */
  function RowEntry(row: Row): Option<Entry> {
    match Get(row, LabelKey)
    case Text(t) => LookupTitle(t)
    case _ => None
  }

  /**
   * The value as the save reads it: a number as it is, a string with its first
   * comma turned into a dot and then parsed by `parse` (None for NaN); reading
   * a missing value throws.
   */
  function ReadValue(c: Cell, parse: string -> Option<real>): Option<real> {
    match c
    case Num(n) => Some(n)
    case Text(s) => parse(ReplaceFirstChar(s, ',', '.'))
    case Null => None
  }

  /**
   * One row of the save: drop it when its label is unknown, when no backend
   * parameter's trimmed lower-cased name is the entry's key, or when its value
   * does not parse; otherwise the matched parameter's id with the parsed value.
   */
  function Step(row: Row, backend: seq<Param>, parse: string -> Option<real>): (r: Outcome)
    ensures RowEntry(row).None? ==> r == Drop
    ensures RowEntry(row).Some? && FindByKey(backend, RowEntry(row).value.key, NormName).None? ==> r == Drop
    ensures r.Throw? <==> RowEntry(row).Some? && FindByKey(backend, RowEntry(row).value.key, NormName).Some? &&
                          Get(row, ValueKey) == Null
    ensures r.Keep? ==> exists i, j :: 0 <= i < |Entries| && 0 <= j < |backend| &&
                                      Get(row, LabelKey) == Text(Entries[i].title) &&
                                      backend[j].id == r.u.id && NormName(backend[j]) == Entries[i].key
    ensures r.Keep? ==> ReadValue(Get(row, ValueKey), parse) == Some(r.u.valor)
    ensures r.Drop? && RowEntry(row).Some? && FindByKey(backend, RowEntry(row).value.key, NormName).Some? ==>
              ReadValue(Get(row, ValueKey), parse).None? && Get(row, ValueKey) != Null
  {
    match RowEntry(row)
    case None => Drop
    case Some(e) =>
      KeyNormalised(e);
      match FindByKey(backend, Lower(Trim(e.key)), NormName)
      case None => Drop
      case Some(p) =>
        if Get(row, ValueKey) == Null then Throw
        else match ReadValue(Get(row, ValueKey), parse)
          case None => Drop
          case Some(v) =>
            KeepWitness(row, backend, e, p);
            Keep(ParamUpdate(p.id, v))
  }

  /** The catalogue entry and the backend parameter behind a kept row. */
  lemma KeepWitness(row: Row, backend: seq<Param>, e: Entry, p: Param)
    requires RowEntry(row) == Some(e) && FindByKey(backend, e.key, NormName) == Some(p)
    ensures exists i, j :: 0 <= i < |Entries| && 0 <= j < |backend| &&
                           Get(row, LabelKey) == Text(Entries[i].title) &&
                           backend[j].id == p.id && NormName(backend[j]) == Entries[i].key
  {
    var i :| 0 <= i < |Entries| && Entries[i] == e;
    var j :| 0 <= j < |backend| && backend[j] == p && NormName(backend[j]) == e.key;
  }

  /** A row with a known label, a matching backend parameter and a readable value keeps that parameter's id with the value read. */
  lemma StepKeeps(row: Row, backend: seq<Param>, parse: string -> Option<real>, e: Entry, p: Param, v: real)
    requires RowEntry(row) == Some(e) && FindByKey(backend, e.key, NormName) == Some(p)
    requires Get(row, ValueKey) != Null && ReadValue(Get(row, ValueKey), parse) == Some(v)
    ensures Step(row, backend, parse) == Keep(ParamUpdate(p.id, v))
  {
    KeyNormalised(e);
  }

  /** The key of a catalogue entry is its own normal form. */
  lemma KeyNormalised(e: Entry)
    requires LookupTitle(e.title) == Some(e)
    ensures Lower(Trim(e.key)) == e.key
  {
    var i :| 0 <= i < |Entries| && Entries[i] == e && Entries[i].title == e.title;
    KeysNormal(i);
  }

  /** Outcomes in row order: None as soon as one throws, else the kept updates in order. */
  function Collect(os: seq<Outcome>): (r: Option<seq<ParamUpdate>>)
    ensures r.None? <==> Throw in os
    ensures r.Some? ==> |r.value| <= |os|
    ensures r.Some? ==> forall u :: u in r.value <==> Keep(u) in os
  {
    if |os| == 0 then Some([])
    else
      var rest := Collect(os[1..]);
      assert os == [os[0]] + os[1..];
      match os[0]
      case Throw => None
      case Drop => rest
      case Keep(u) => if rest.None? then None else Some([u] + rest.value)
  }

  /** Joins two partial results: None when either side threw. */
  function Both(a: Option<seq<ParamUpdate>>, b: Option<seq<ParamUpdate>>): Option<seq<ParamUpdate>> {
    if a.Some? && b.Some? then Some(a.value + b.value) else None
  }

  /** Outcomes are collected one at a time, so the batch of a concatenation is the concatenation of the batches. */
  lemma {:induction false} CollectAppend(xs: seq<Outcome>, ys: seq<Outcome>)
    ensures Collect(xs + ys) == Both(Collect(xs), Collect(ys))
  {
    if |xs| == 0 {
      assert xs + ys == ys;
      if Collect(ys).Some? {
        assert [] + Collect(ys).value == Collect(ys).value;
      }
    } else {
      assert (xs + ys)[1..] == xs[1..] + ys;
      CollectAppend(xs[1..], ys);
      if xs[0].Keep? && Collect(xs[1..]).Some? && Collect(ys).Some? {
        assert [xs[0].u] + (Collect(xs[1..]).value + Collect(ys).value)
            == ([xs[0].u] + Collect(xs[1..]).value) + Collect(ys).value;
      }
    }
  }

  /** The outcome of every row, in row order. */
  function Steps(rows: seq<Row>, backend: seq<Param>, parse: string -> Option<real>): (r: seq<Outcome>)
    ensures |r| == |rows|
    ensures forall i :: 0 <= i < |rows| ==> r[i] == Step(rows[i], backend, parse)
  {
    seq(|rows|, i requires 0 <= i < |rows| => Step(rows[i], backend, parse))
  }

  /**
   * The save's `map` then `filter`: the updates of the kept rows, in row
   * order; None when some row throws.
   */
  function Normalise(rows: seq<Row>, backend: seq<Param>, parse: string -> Option<real>): (r: Option<seq<ParamUpdate>>)
    ensures r.None? <==> exists i :: 0 <= i < |rows| && Step(rows[i], backend, parse).Throw?
    ensures r.Some? ==> |r.value| <= |rows|
    ensures r.Some? ==> forall u :: u in r.value <==> exists i :: 0 <= i < |rows| && Step(rows[i], backend, parse) == Keep(u)
  {
    Collect(Steps(rows, backend, parse))
  }

  /** Every update names a backend parameter whose normalised name is the key of a row's catalogue label. */
  lemma NormaliseIdsFromBackend(rows: seq<Row>, backend: seq<Param>, parse: string -> Option<real>)
    requires Normalise(rows, backend, parse).Some?
    ensures forall u :: u in Normalise(rows, backend, parse).value ==>
              exists j, i :: 0 <= j < |backend| && 0 <= i < |Entries| &&
                             backend[j].id == u.id && NormName(backend[j]) == Entries[i].key
  {
    var us := Normalise(rows, backend, parse).value;
    forall u | u in us
      ensures exists j, i :: 0 <= j < |backend| && 0 <= i < |Entries| &&
                             backend[j].id == u.id && NormName(backend[j]) == Entries[i].key
    {
      var k :| 0 <= k < |rows| && Step(rows[k], backend, parse) == Keep(u);
    }
  }

  /** The save handles rows one at a time, so the batch of a concatenation is the concatenation of the batches. */
  lemma NormaliseAppend(xs: seq<Row>, ys: seq<Row>, backend: seq<Param>, parse: string -> Option<real>)
    ensures Normalise(xs + ys, backend, parse) == Both(Normalise(xs, backend, parse), Normalise(ys, backend, parse))
  {
    var a, b := Steps(xs, backend, parse), Steps(ys, backend, parse);
    forall i | 0 <= i < |xs + ys| ensures Steps(xs + ys, backend, parse)[i] == (a + b)[i] {
      if i < |xs| {
        assert (xs + ys)[i] == xs[i];
      } else {
        assert (xs + ys)[i] == ys[i - |xs|];
      }
    }
    assert Steps(xs + ys, backend, parse) == a + b;
    CollectAppend(Steps(xs, backend, parse), Steps(ys, backend, parse));
  }

  /**
   * What saving unedited product rows re-submits: for each entry, in catalogue
   * order, the matched parameter with its value, unless that value is the
   * sentinel.
   */
  function Resubmitted(entries: seq<Entry>, params: seq<Param>): seq<ParamUpdate> {
    if |entries| == 0 then []
    else
      var found := FindByKey(params, entries[0].key, LowerName);
      (if found.Some? && found.value.valor != Sentinel then [ParamUpdate(found.value.id, found.value.valor)] else [])
      + Resubmitted(entries[1..], params)
  }

  /** A backend whose names carry no surrounding white space. */
  ghost predicate Trimmed(params: seq<Param>) {
    forall j :: 0 <= j < |params| ==> Trim(params[j].nome) == params[j].nome
  }

  /** On trimmed names, the match used to save is the match used to build. */
  lemma TrimmedMatch(params: seq<Param>, key: string)
    requires Trimmed(params)
    ensures FindByKey(params, key, NormName) == FindByKey(params, key, LowerName)
  {
    IndexOfKeyCongruent(params, key, NormName, LowerName);
  }

  /**
   * Without trimmed names the two matches can part: with " potencia" stored
   * before "potencia", the row builder skips the first (its lower-cased name
   * is not the key) and shows the second's value, while the save trims, finds
   * the first, and sends that value under the first's id.
   */
  lemma UntrimmedNameSavesOtherId(parse: string -> Option<real>)
    ensures var params := [Param("a", " potencia", 1.0, None), Param("b", "potencia", 7.0, None)];
            Get(ProductRow(Entries[0], params), ValueKey) == Num(7.0) &&
            Step(ProductRow(Entries[0], params), params, parse) == Keep(ParamUpdate("a", 7.0))
  {
    var params := [Param("a", " potencia", 1.0, None), Param("b", "potencia", 7.0, None)];
    var e := Entries[0];
    assert e.key == "potencia";
    UntrimmedMatches(params, e.key);
    var row := ProductRow(e, params);
    assert Get(row, ValueKey) == Num(7.0);
    LookupOwnTitle(0);
    assert RowEntry(row) == Some(e);
    StepKeeps(row, params, parse, e, params[0], 7.0);
  }

  /** The two matches on the backend of `UntrimmedNameSavesOtherId`. */
  lemma UntrimmedMatches(params: seq<Param>, key: string)
    requires params == [Param("a", " potencia", 1.0, None), Param("b", "potencia", 7.0, None)]
    requires key == "potencia"
    ensures FindByKey(params, key, LowerName) == Some(params[1])
    ensures FindByKey(params, key, NormName) == Some(params[0])
  {
    UntrimmedNames(params[0], params[1]);
    assert params[1..] == [params[1]];
    assert IndexOfKey(params[1..], key, LowerName) == Some(0);
    assert IndexOfKey(params, key, LowerName) == Some(1);
    assert IndexOfKey(params, key, NormName) == Some(0);
  }

  /** The names of that backend under the two matches. */
  lemma UntrimmedNames(p: Param, q: Param)
    requires p.nome == " potencia" && q.nome == "potencia"
    ensures LowerName(p) != "potencia" && LowerName(q) == "potencia" && NormName(p) == "potencia"
  {
    assert |Lower(p.nome)| == 9 && |"potencia"| == 8;
    LowerNormal("potencia");
    assert Lower(q.nome) == "potencia";
    LeadingSpaceTrimmed();
    assert Trim(p.nome) == "potencia";
  }

  /** `" potencia".trim()` is the key. */
  lemma LeadingSpaceTrimmed()
    ensures Trim(" potencia") == "potencia"
  {
    TrimCuts(" potencia");
    assert LeadingSpace(" potencia") == 1 by {
      assert " potencia"[1..] == "potencia";
      assert !IsSpace("potencia"[0]);
    }
    assert " potencia"[1..] == "potencia";
    assert TrailingSpace("potencia") == 8 by {
      assert !IsSpace("potencia"[7]);
    }
  }

  /** A dash contains no comma, so the save reads it unchanged. */
  lemma DashUnchanged()
    ensures ReplaceFirstChar("-", ',', '.') == "-"
  {
    assert IndexOfKey("-", ',', Id).None?;
  }

  /** One product row, saved unedited. */
  lemma ProductRowStep(e: Entry, params: seq<Param>, parse: string -> Option<real>)
    requires LookupTitle(e.title) == Some(e)
    requires Trimmed(params) && parse("-").None?
    ensures var found := FindByKey(params, e.key, LowerName);
            Step(ProductRow(e, params), params, parse) == ExpectedStep(e, params)
  {
    var row := ProductRow(e, params);
    var found := FindByKey(params, e.key, LowerName);
    assert RowEntry(row) == Some(e);
    KeyNormalised(e);
    TrimmedMatch(params, e.key);
    if found.Some? {
      if found.value.valor == Sentinel {
        DashUnchanged();
        assert ReadValue(Get(row, ValueKey), parse).None?;
      } else {
        assert ReadValue(Get(row, ValueKey), parse) == Some(found.value.valor);
      }
    }
  }

  /** What saving an unedited product row should give. */
  function ExpectedStep(e: Entry, params: seq<Param>): Outcome {
    var found := FindByKey(params, e.key, LowerName);
    if found.Some? && found.value.valor != Sentinel then Keep(ParamUpdate(found.value.id, found.value.valor)) else Drop
  }

  /** The expected outcome of every entry, in catalogue order. */
  function ExpectedSteps(entries: seq<Entry>, params: seq<Param>): (r: seq<Outcome>)
    ensures |r| == |entries|
    ensures forall i :: 0 <= i < |entries| ==> r[i] == ExpectedStep(entries[i], params)
  {
    if |entries| == 0 then [] else [ExpectedStep(entries[0], params)] + ExpectedSteps(entries[1..], params)
  }

  lemma {:induction false} CollectExpected(entries: seq<Entry>, params: seq<Param>)
    ensures Collect(ExpectedSteps(entries, params)) == Some(Resubmitted(entries, params))
  {
    if |entries| > 0 {
      var os := ExpectedSteps(entries, params);
      assert os[1..] == ExpectedSteps(entries[1..], params);
      CollectExpected(entries[1..], params);
      var rest := Resubmitted(entries[1..], params);
      if os[0].Keep? {
        assert Resubmitted(entries, params) == [os[0].u] + rest;
      } else {
        assert [] + rest == rest;
      }
    }
  }

  /** Unedited product rows have exactly the expected outcomes. */
  lemma StepsOfProductRows(entries: seq<Entry>, params: seq<Param>, parse: string -> Option<real>)
    requires forall i :: 0 <= i < |entries| ==> LookupTitle(entries[i].title) == Some(entries[i])
    requires Trimmed(params) && parse("-").None?
    ensures Steps(BuildProductRows(entries, params), params, parse) == ExpectedSteps(entries, params)
  {
    forall i | 0 <= i < |entries|
      ensures Steps(BuildProductRows(entries, params), params, parse)[i] == ExpectedSteps(entries, params)[i]
    {
      ProductRowStep(entries[i], params, parse);
    }
  }

  /**
   * Saving the product rows unedited re-submits exactly the parameters that
   * have a value, with that value, in catalogue order: the `-` rows are
   * dropped because `-` does not parse.
   */
  lemma ProductRowsRoundTrip(params: seq<Param>, parse: string -> Option<real>)
    requires Trimmed(params) && parse("-").None?
    ensures Normalise(ProductRows(params), params, parse) == Some(Resubmitted(Entries, params))
  {
    forall i | 0 <= i < |Entries| ensures LookupTitle(Entries[i].title) == Some(Entries[i]) {
      LookupOwnTitle(i);
    }
    StepsOfProductRows(Entries, params, parse);
    CollectExpected(Entries, params);
  }
}

=== FILE: status.dfy ===
/**
 * The request status every store slice keeps (`loading`, `success`,
 * `error`) and the transitions its reducers apply to it, shared by all the
 * slices.
 */
module SliceStatus {
  import opened Options

  datatype Status = Status(loading: bool, success: bool, error: Option<string>)

  /** The status of a fresh store, and the one every reset reducer goes back to. */
  const Idle: Status := Status(false, false, None)

  /** A create, delete, show or update request is on its way: busy, no success yet, no error. */
  function Started(): (r: Status)
    ensures r.loading && !r.success && r.error.None?
  {
    Status(true, false, None)
  }

  /** A list fetch is on its way: busy and no error, but an earlier success stays. */
  function Fetching(s: Status): (r: Status)
    ensures r.loading && r.error.None? && r.success == s.success
  {
    s.(loading := true, error := None)
  }

  /** A create, delete or update succeeded: not busy, success, no error. */
  function Succeeded(): (r: Status)
    ensures !r.loading && r.success && r.error.None?
  {
    Status(false, true, None)
  }

  /** An update or delete succeeded, by a reducer that does not clear the error: not busy, success, error kept. */
  function SucceededKeepingError(s: Status): (r: Status)
    ensures !r.loading && r.success && r.error == s.error
  {
    s.(loading := false, success := true)
  }

  /** A create, delete or update failed: not busy, no success, the rejection payload as the error. */
  function Failed(payload: Option<string>): (r: Status)
    ensures !r.loading && !r.success && r.error == payload
  {
    Status(false, false, payload)
  }

  /** A fetch answered: not busy; success and error stay. */
  function Loaded(s: Status): (r: Status)
    ensures !r.loading && r.success == s.success && r.error == s.error
  {
    s.(loading := false)
  }

  /**
   * A fetch failed (`payload || fallback`): not busy, the payload as the
   * error unless it is missing or empty, then the fallback; success stays.
   */
  function LoadFailed(s: Status, payload: Option<string>, fallback: string): (r: Status)
    requires fallback != ""
    ensures !r.loading && r.success == s.success
    ensures r.error.Some? && r.error.value != ""
    ensures payload.Some? && payload.value != "" ==> r.error == payload
    ensures payload.None? || payload.value == "" ==> r.error == Some(fallback)
  {
    s.(loading := false, error := Some(OrDefault(payload, fallback)))
  }

  /** No status transition leaves a busy slice showing an error. */
  ghost predicate Coherent(s: Status) {
    s.loading ==> s.error.None?
  }

  /**
   * Every transition keeps `Coherent`, but a success and an error can be
   * shown together: a list fetch that fails after a successful create keeps
   * the success flag.
   */
  lemma TransitionsCoherent(s: Status, payload: Option<string>, fallback: string)
    requires Coherent(s) && fallback != ""
    ensures Coherent(Started()) && Coherent(Fetching(s)) && Coherent(Succeeded())
    ensures Coherent(Failed(payload)) && Coherent(Loaded(s)) && Coherent(LoadFailed(s, payload, fallback))
    ensures Coherent(Idle)
    ensures var after := LoadFailed(Fetching(Succeeded()), payload, fallback);
            after.success && after.error.Some?
  {
  }

  /**
   * How a request thunk rejected: through `rejectWithValue(payload)`, or by
   * throwing an error that may carry a message.
   */
  datatype Rejection = WithValue(payload: Option<string>) | Thrown(message: Option<string>)

  /** The `error.message` the toolkit puts on a rejected action: the fixed text "Rejected" for a value rejection. */
  function ErrorMessage(rej: Rejection): (r: Option<string>)
    ensures rej.WithValue? ==> r == Some("Rejected")
    ensures rej.Thrown? ==> r == rej.message
  {
    match rej
    case WithValue(_) => Some("Rejected")
    case Thrown(m) => m
  }

  /** The error text a reducer that reads `action.error.message ?? fallback` stores. */
  function RejectionErrorAsWritten(rej: Rejection, fallback: string): (r: string)
    ensures ErrorMessage(rej).Some? ==> r == ErrorMessage(rej).value
    ensures ErrorMessage(rej).None? ==> r == fallback
  {
    ErrorMessage(rej).GetOr(fallback)
  }

  /**
   * For a thunk that rejects with a value, the stored error is always
   * "Rejected": neither the server's message nor the fallback text ever
   * reaches the state.
   */
  lemma ValueRejectionHidden(payload: Option<string>, fallback: string)
    ensures RejectionErrorAsWritten(WithValue(payload), fallback) == "Rejected"
    ensures RejectionErrorAsWritten(WithValue(Some("Amostra não encontrada")), "Erro ao buscar amostras") != "Amostra não encontrada"
    ensures RejectionErrorAsWritten(WithValue(None), "Erro ao buscar amostras") != "Erro ao buscar amostras"
  {
  }

  /** A failed request whose reducer stores `action.error.message ?? fallback`: not busy, no success, that text. */
  function FailedAsWritten(rej: Rejection, fallback: string): (r: Status)
    ensures !r.loading && !r.success && r.error == Some(RejectionErrorAsWritten(rej, fallback))
    ensures rej.WithValue? ==> r.error == Some("Rejected")
  {
    Status(false, false, Some(RejectionErrorAsWritten(rej, fallback)))
  }

  /** A failed fetch whose reducer stores `action.error.message ?? fallback`: not busy, success kept, that text. */
  function FetchFailedAsWritten(s: Status, rej: Rejection, fallback: string): (r: Status)
    ensures !r.loading && r.success == s.success && r.error == Some(RejectionErrorAsWritten(rej, fallback))
    ensures rej.WithValue? ==> r.error == Some("Rejected")
  {
    s.(loading := false, error := Some(RejectionErrorAsWritten(rej, fallback)))
  }

  /**
   * The error text of a rejection read from where the thunk put it: the
   * rejection value unless it is missing or empty, the thrown error's
   * message when there is one, else the fallback.
   */
  function RejectionError(rej: Rejection, fallback: string): (r: string)
    requires fallback != ""
    ensures rej.WithValue? && rej.payload.Some? && rej.payload.value != "" ==> r == rej.payload.value
    ensures rej.WithValue? && (rej.payload.None? || rej.payload.value == "") ==> r == fallback
    ensures rej.Thrown? && rej.message.Some? ==> r == rej.message.value
    ensures rej.Thrown? && rej.message.None? ==> r == fallback
  {
    match rej
    case WithValue(p) => OrDefault(p, fallback)
    case Thrown(m) => m.GetOr(fallback)
  }

  /**
   * Read from where the thunk put it, a value rejection shows its value or
   * the fallback, and "Rejected" only when that is literally the value; a
   * thrown error reads the same either way.
   */
  lemma RejectionErrorShowsCause(rej: Rejection, fallback: string)
    requires fallback != "" && fallback != "Rejected"
    ensures rej.WithValue? && rej.payload != Some("Rejected") ==> RejectionError(rej, fallback) != "Rejected"
    ensures rej.Thrown? ==> RejectionError(rej, fallback) == RejectionErrorAsWritten(rej, fallback)
  {
  }

  /** Corrected: a failed request whose error is read from the rejection: not busy, no success, the rejection's text. */
  function Rejected(rej: Rejection, fallback: string): (r: Status)
    requires fallback != ""
    ensures !r.loading && !r.success && r.error == Some(RejectionError(rej, fallback))
  {
    Status(false, false, Some(RejectionError(rej, fallback)))
  }

  /** Corrected: a failed fetch whose error is read from the rejection: not busy, success kept, the rejection's text. */
  function FetchRejected(s: Status, rej: Rejection, fallback: string): (r: Status)
    requires fallback != ""
    ensures !r.loading && r.success == s.success && r.error == Some(RejectionError(rej, fallback))
  {
    s.(loading := false, error := Some(RejectionError(rej, fallback)))
  }
}

=== FILE: summary.dfy ===
/**
 * The measurement-type summary shown for a project (projects table) and for
 * a product (products list): the measurement types found under it, renamed
 * for display, without repetitions, joined with ` / `, or `-` when there is
 * none.
 */
module Summary {
  import opened Options
  import opened Lists
  import opened Text
  import opened Entities

  const Separator: string := " / "

  /** The display name of a measurement type; unknown types are shown as they are. */
  function DisplayName(tipo: string): (r: string)
    ensures tipo == "ESFERA_INTEGRADORA" ==> r == "Esfera"
    ensures tipo == "GONIOFOTOMETRO" ==> r == "Gônio"
    ensures tipo != "ESFERA_INTEGRADORA" && tipo != "GONIOFOTOMETRO" ==> r == tipo
  {
    if tipo == "ESFERA_INTEGRADORA" then "Esfera"
    else if tipo == "GONIOFOTOMETRO" then "Gônio"
    else tipo
  }

  function MeasurementType(m: Measurement): string { m.tipoMedicao }

  /** `amostra.medicoes?.map((m) => m.tipoMedicao) || []`. */
  function SampleTypes(a: Sample): (r: seq<string>)
    ensures |r| == 0 <==> a.medicoes.None? || |a.medicoes.value| == 0
    ensures a.medicoes.Some? ==> |r| == |a.medicoes.value| &&
                                 forall k :: 0 <= k < |r| ==> r[k] == a.medicoes.value[k].tipoMedicao
  {
    Map(a.medicoes.GetOr([]), MeasurementType)
  }

  /** The types under one project, sample by sample. */
  function ProjectTypes(p: Project): (r: seq<string>)
    ensures |r| == 0 <==> forall j :: 0 <= j < |p.amostras.GetOr([])| ==> |SampleTypes(p.amostras.GetOr([])[j])| == 0
  {
    FlatMap(p.amostras.GetOr([]), SampleTypes)
  }

  /** The types under a product's projects, project by project. */
  function ProductTypes(projetos: Option<seq<Project>>): (r: seq<string>)
    ensures |r| == 0 <==> forall i :: 0 <= i < |projetos.GetOr([])| ==> |ProjectTypes(projetos.GetOr([])[i])| == 0
  {
    FlatMap(projetos.GetOr([]), ProjectTypes)
  }

  /**
   * The types are gathered project by project and, inside a project, sample
   * by sample: a list of projects in two parts gives the first part's types
   * followed by the second's, and a single project gives its own; the same
   * holds for the samples of a project.
   */
  lemma TypesInOrder(ps: seq<Project>, qs: seq<Project>, p: Project, xs: seq<Sample>, ys: seq<Sample>)
    ensures ProductTypes(Some(ps + qs)) == ProductTypes(Some(ps)) + ProductTypes(Some(qs))
    ensures ProductTypes(Some([p])) == ProjectTypes(p)
    ensures ProductTypes(None) == []
    ensures ProjectTypes(p.(amostras := Some(xs + ys))) == ProjectTypes(p.(amostras := Some(xs))) + ProjectTypes(p.(amostras := Some(ys)))
    ensures ProjectTypes(p.(amostras := None)) == []
  {
    FlatMapAppend(ps, qs, ProjectTypes);
    FlatMapOne(p, ProjectTypes);
    FlatMapAppend(xs, ys, SampleTypes);
  }

  /**
   * `[...new Set(types.map(rename))]`: every displayed name once, in the
   * order of its first occurrence.
   */
  function Names(types: seq<string>): (r: seq<string>)
    ensures NoDup(r)
    ensures forall n :: n in r <==> exists i :: 0 <= i < |types| && DisplayName(types[i]) == n
    ensures |r| == 0 <==> |types| == 0
    ensures forall i :: 0 <= i < |r| ==> r[i] in Map(types, DisplayName)
    ensures forall i, j :: 0 <= i < j < |r| ==>
              FirstIndex(Map(types, DisplayName), r[i]) < FirstIndex(Map(types, DisplayName), r[j])
  {
    var shown := Map(types, DisplayName);
    assert |types| > 0 ==> shown[0] in Dedup(shown);
    Dedup(shown)
  }

  /**
   * The summary text: `-` exactly when there is no type at all or the only
   * name is itself `-`; otherwise it starts with the first name.
   */
  function Summarise(types: seq<string>): (r: string)
    ensures r == "-" <==> |types| == 0 || Names(types) == ["-"]
    ensures |types| > 0 ==> |Names(types)[0]| <= |r| && r[..|Names(types)[0]|] == Names(types)[0]
  {
    var names := Names(types);
    if |names| > 0 then
      assert |names| > 1 ==> |Join(names, Separator)| >= |Separator|;
      Join(names, Separator)
    else "-"
  }

  /**
   * One more measurement type: a display name not shown yet is appended
   * after " / "; one already shown leaves the summary as it was. With
   * `SummaryOfOne` this builds every summary from its types.
   */
  lemma SummariseSnoc(types: seq<string>, tipo: string)
    requires |types| > 0
    ensures DisplayName(tipo) in Names(types) ==> Summarise(types + [tipo]) == Summarise(types)
    ensures DisplayName(tipo) !in Names(types) ==>
              Summarise(types + [tipo]) == Summarise(types) + Separator + DisplayName(tipo)
  {
    var shown := Map(types, DisplayName);
    assert Map(types + [tipo], DisplayName) == shown + [DisplayName(tipo)];
    DedupSnoc(shown, DisplayName(tipo));
    if DisplayName(tipo) !in Names(types) {
      JoinSnoc(Names(types), DisplayName(tipo), Separator);
    }
  }

  /**
   * The projects table's `medicao` column: `-` exactly when none of the
   * project's samples holds a measurement, or the only name is `-` itself.
   */
  function ProjectSummary(p: Project): (r: string)
    ensures r == "-" <==>
              (forall j :: 0 <= j < |p.amostras.GetOr([])| ==> |p.amostras.GetOr([])[j].medicoes.GetOr([])| == 0) ||
              Names(ProjectTypes(p)) == ["-"]
  {
    var xs := p.amostras.GetOr([]);
    assert forall j :: 0 <= j < |xs| ==> (|SampleTypes(xs[j])| == 0 <==> |xs[j].medicoes.GetOr([])| == 0);
    Summarise(ProjectTypes(p))
  }

  /** A project whose one sample holds one measurement is summarised by that measurement's display name. */
  lemma ProjectOfOneMeasurement(p: Project, a: Sample, m: Measurement)
    requires p.amostras == Some([a]) && a.medicoes == Some([m])
    ensures ProjectSummary(p) == DisplayName(m.tipoMedicao)
  {
    FlatMapOne(a, SampleTypes);
    assert SampleTypes(a) == [m.tipoMedicao];
    SummaryOfOne(m.tipoMedicao);
  }

  /**
   * The products list's measurement column: `-` for a product without
   * projects, and for a product with one project the same text as that
   * project's row in the projects table.
   */
  function ProductSummary(product: Product): (r: string)
    ensures |product.projetos.GetOr([])| == 0 ==> r == "-"
    ensures product.projetos.Some? && |product.projetos.value| == 1 ==> r == ProjectSummary(product.projetos.value[0])
  {
    var ps := product.projetos.GetOr([]);
    if |ps| == 1 then
      assert ps == [ps[0]];
      FlatMapOne(ps[0], ProjectTypes);
      Summarise(ProductTypes(product.projetos))
    else Summarise(ProductTypes(product.projetos))
  }

  /** Some project of the list has a sample with at least one measurement. */
  ghost predicate HasMeasurement(projetos: Option<seq<Project>>) {
    exists i, j :: 0 <= i < |projetos.GetOr([])| && 0 <= j < |projetos.GetOr([])[i].amostras.GetOr([])| &&
                   |projetos.GetOr([])[i].amostras.GetOr([])[j].medicoes.GetOr([])| > 0
  }

  /**
   * A product's summary is `-` when no project holds a sample with a
   * measurement; and when one does, it is not `-` unless the only type
   * there is literally `-`.
   */
  lemma ProductSummaryDash(product: Product)
    ensures !HasMeasurement(product.projetos) ==> ProductSummary(product) == "-"
    ensures HasMeasurement(product.projetos) && "-" !in ProductTypes(product.projetos) ==> ProductSummary(product) != "-"
  {
    var ps := product.projetos.GetOr([]);
    var types := ProductTypes(product.projetos);
    if HasMeasurement(product.projetos) {
      var i, j :| 0 <= i < |ps| && 0 <= j < |ps[i].amostras.GetOr([])| &&
                  |ps[i].amostras.GetOr([])[j].medicoes.GetOr([])| > 0;
      assert |SampleTypes(ps[i].amostras.GetOr([])[j])| > 0;
      assert |types| > 0;
    } else {
      forall i | 0 <= i < |ps| ensures |ProjectTypes(ps[i])| == 0 {
        forall j | 0 <= j < |ps[i].amostras.GetOr([])| ensures |SampleTypes(ps[i].amostras.GetOr([])[j])| == 0 {
        }
      }
    }
  }

  /** Repeating the same measurements (say, a project listed twice) leaves the summary unchanged. */
  lemma SummaryRepeat(types: seq<string>)
    ensures Summarise(types + types) == Summarise(types)
  {
    var shown := Map(types, DisplayName);
    assert Map(types + types, DisplayName) == shown + shown;
    DedupAbsorbs(shown, shown);
  }

  /** A single measurement is summarised by its display name. */
  lemma SummaryOfOne(tipo: string)
    ensures Summarise([tipo]) == DisplayName(tipo)
  {
    var shown := Map([tipo], DisplayName);
    assert shown == [DisplayName(tipo)];
    assert Dedup(shown) == Dedup(shown[..0]) + [DisplayName(tipo)];
  }
}

=== FILE: table.dfy ===
/**
 * The generic editable table of the product-specification screen: rows are
 * string-keyed records, the `valor` column is an input box, the value -999
 * is shown as `-`, and a row is deleted through a popover and a confirm dialog.
 */
module SpecTable {
  import opened Options
  import opened Catalog

  /** A table cell: a number, a string, or null/undefined. */
  datatype Cell = Num(n: real) | Text(s: string) | Null

  /** `Record<string, any>`: a missing key reads as undefined. */
  type Row = map<string, Cell>

  datatype Column = Column(title: string, key: string)

  /** The column whose cells are input boxes. */
  const ValueKey: string := "valor"

  /** Reads `row[key]`; a missing key is undefined, i.e. `Null`. */
  function Get(row: Row, key: string): Cell {
    if key in row then row[key] else Null
  }

  /**
   * `handleChange`: a copy of `rows` in which only field `key` of row
   * `rowIdx` holds the new value. The callers are the rendered rows, so the
   * index is always that of an existing row.
   */
  function HandleChange(rows: seq<Row>, rowIdx: nat, key: string, value: Cell): (r: seq<Row>)
    requires rowIdx < |rows|
    ensures |r| == |rows|
    ensures forall i :: 0 <= i < |rows| && i != rowIdx ==> r[i] == rows[i]
    ensures key in r[rowIdx] && r[rowIdx][key] == value
    ensures forall k :: k != key ==> (k in r[rowIdx] <==> k in rows[rowIdx])
    ensures forall k :: k != key && k in rows[rowIdx] ==> r[rowIdx][k] == rows[rowIdx][k]
  {
    rows[rowIdx := rows[rowIdx][key := value]]
  }

  /** Writing a field back to its old value undoes an edit. */
  lemma ChangeUndo(rows: seq<Row>, rowIdx: nat, key: string, value: Cell)
    requires rowIdx < |rows| && key in rows[rowIdx]
    ensures HandleChange(HandleChange(rows, rowIdx, key, value), rowIdx, key, rows[rowIdx][key]) == rows
  {
    var once := HandleChange(rows, rowIdx, key, value);
    var twice := HandleChange(once, rowIdx, key, rows[rowIdx][key]);
    assert twice[rowIdx] == rows[rowIdx];
  }

  /** Of two edits of the same field, the later one wins. */
  lemma ChangeLastWins(rows: seq<Row>, rowIdx: nat, key: string, v: Cell, w: Cell)
    requires rowIdx < |rows|
    ensures HandleChange(HandleChange(rows, rowIdx, key, v), rowIdx, key, w) == HandleChange(rows, rowIdx, key, w)
  {
    var a := HandleChange(HandleChange(rows, rowIdx, key, v), rowIdx, key, w);
    var b := HandleChange(rows, rowIdx, key, w);
    assert a[rowIdx] == b[rowIdx];
  }

  /** What a cell shows: a dash, nothing, or the value itself. */
  datatype Shown = Dash | Blank | Value(c: Cell)

  /**
   * The display rule: -999 (strictly the number) shows as `-`; a null or
   * missing value shows as nothing in the value column and as `-` elsewhere;
   * anything else is shown as it is.
   */
  function Display(row: Row, key: string): (d: Shown)
    ensures d == Dash <==> Get(row, key) == Num(Sentinel) || (key != ValueKey && Get(row, key) == Null)
    ensures d == Blank <==> key == ValueKey && Get(row, key) == Null
    ensures d.Value? <==> Get(row, key) != Num(Sentinel) && Get(row, key) != Null
    ensures d.Value? ==> d.c == Get(row, key)
  {
    match Get(row, key)
    case Num(n) => if n == Sentinel then Dash else Value(Num(n))
    case Text(s) => Value(Text(s))
    case Null => if key == ValueKey then Blank else Dash
  }

  /** A rendered cell: an input box (enabled or not) or plain text. */
  datatype CellView = Input(shown: Shown, enabled: bool) | Plain(shown: Shown)

  /** Renders column `col` of `row`: only the value column is an input, and it is enabled exactly in edit mode. */
  function RenderCell(row: Row, col: Column, editMode: bool): (v: CellView)
    ensures v.Input? <==> col.key == ValueKey
    ensures v.Input? ==> (v.enabled <==> editMode)
    ensures v.shown == Display(row, col.key)
  {
    if col.key == ValueKey then Input(Display(row, col.key), editMode) else Plain(Display(row, col.key))
  }

  /** Typing into an input box shows exactly what was typed. */
  lemma TypedValueShown(rows: seq<Row>, rowIdx: nat, typed: string)
    requires rowIdx < |rows|
    ensures RenderCell(HandleChange(rows, rowIdx, ValueKey, Text(typed))[rowIdx], Column("Valor", ValueKey), true)
            == Input(Value(Text(typed)), true)
  {
  }

  /**
   * The body of the table: one row per data row, or, when there is none,
   * a single placeholder row whose cell spans `|columns| + 1` columns.
   */
  datatype Body = Rows(count: nat) | Placeholder(colSpan: nat)

  function RenderBody(rows: seq<Row>, columns: seq<Column>): (b: Body)
    ensures b.Placeholder? <==> |rows| == 0
    ensures b.Placeholder? ==> b.colSpan == |columns| + 1
    ensures b.Rows? ==> b.count == |rows|
  {
    if |rows| == 0 then Placeholder(|columns| + 1) else Rows(|rows|)
  }

  /** Whatever the data, the body renders at least one row and the placeholder spans past every column. */
  lemma BodyNeverEmpty(rows: seq<Row>, columns: seq<Column>)
    ensures var b := RenderBody(rows, columns);
            (b.Rows? && b.count >= 1) || (b.Placeholder? && b.colSpan > |columns|)
  {
  }

  /**
   * The delete interaction: the row whose popover is open, the row awaiting
   * confirmation, and whether the confirm dialog is open.
   */
  datatype DeleteUi = DeleteUi(popoverRow: Option<nat>, pending: Option<Row>, confirmOpen: bool)

  const Idle: DeleteUi := DeleteUi(None, None, false)

  /** `handleOpenPopover`. */
  function OpenPopover(ui: DeleteUi, index: nat): (r: DeleteUi)
    ensures r.popoverRow == Some(index)
    ensures r.pending == ui.pending && r.confirmOpen == ui.confirmOpen
  {
    ui.(popoverRow := Some(index))
  }

  /**
   * `handleClickDelete`: remembers the row under the popover (none when no
   * row index is set, or the index is past the end and reads undefined),
   * closes the popover and opens the confirm dialog.
   */
  function ClickDelete(ui: DeleteUi, rows: seq<Row>): (r: DeleteUi)
    ensures r.popoverRow.None? && r.confirmOpen
    ensures ui.popoverRow.Some? && ui.popoverRow.value < |rows| ==> r.pending == Some(rows[ui.popoverRow.value])
    ensures ui.popoverRow.None? || ui.popoverRow.value >= |rows| ==> r.pending.None?
  {
    var captured := match ui.popoverRow
      case Some(i) => if i < |rows| then Some(rows[i]) else None
      case None => None;
    DeleteUi(None, captured, true)
  }

  /**
   * `handleConfirmDelete`: hands the pending row to `onDelete` only when
   * there is both a row and a callback; always closes the dialog and forgets
   * the row. Returns the new state and the row passed to `onDelete`.
   */
  function ConfirmDelete(ui: DeleteUi, hasOnDelete: bool): (r: (DeleteUi, Option<Row>))
    ensures r.0.confirmOpen == false && r.0.pending.None? && r.0.popoverRow == ui.popoverRow
    ensures r.1.Some? <==> ui.pending.Some? && hasOnDelete
    ensures r.1.Some? ==> r.1 == ui.pending
  {
    var deleted := if ui.pending.Some? && hasOnDelete then ui.pending else None;
    (ui.(confirmOpen := false, pending := None), deleted)
  }

  /** Closing the dialog without confirming: closed, nothing pending. */
  function CancelDelete(ui: DeleteUi): (r: DeleteUi)
    ensures !r.confirmOpen && r.pending.None? && r.popoverRow == ui.popoverRow
  {
    ui.(confirmOpen := false, pending := None)
  }

  /**
   * Whether "Editar" called `onEdit`, and with what: the row, or None for
   * the `undefined` that a stale index past the end reads.
   */
  datatype EditCall = NoEditCall | EditCalled(row: Option<Row>)

  /**
   * The "Editar" item: with a row index set, passes `rows[index]` to
   * `onEdit` when there is a callback (undefined when the index is past the
   * end) and closes the popover; with no row index set it does nothing at
   * all.
   */
  function ClickEdit(ui: DeleteUi, rows: seq<Row>, hasOnEdit: bool): (r: (DeleteUi, EditCall))
    ensures ui.popoverRow.None? ==> r == (ui, NoEditCall)
    ensures ui.popoverRow.Some? ==> r.0 == ui.(popoverRow := None)
    ensures r.1.EditCalled? <==> ui.popoverRow.Some? && hasOnEdit
    ensures r.1.EditCalled? ==> (r.1.row.Some? <==> ui.popoverRow.value < |rows|)
    ensures r.1.EditCalled? && ui.popoverRow.value < |rows| ==> r.1.row == Some(rows[ui.popoverRow.value])
  {
    match ui.popoverRow
    case None => (ui, NoEditCall)
    case Some(i) =>
      var arg := if i < |rows| then Some(rows[i]) else None;
      (ui.(popoverRow := None), if hasOnEdit then EditCalled(arg) else NoEditCall)
  }

  /**
   * Opening the popover on a row and clicking "Editar" hands exactly that row
   * to `onEdit` and returns the table to its idle state; on an index past the
   * end `onEdit` still runs, with undefined.
   */
  lemma EditFlowEditsClickedRow(rows: seq<Row>, index: nat)
    ensures index < |rows| ==> ClickEdit(OpenPopover(Idle, index), rows, true) == (Idle, EditCalled(Some(rows[index])))
    ensures index >= |rows| ==> ClickEdit(OpenPopover(Idle, index), rows, true) == (Idle, EditCalled(None))
  {
  }

  /**
   * Opening the popover on a row, clicking delete and confirming deletes
   * exactly that row and returns the table to its idle state.
   */
  lemma DeleteFlowDeletesClickedRow(rows: seq<Row>, index: nat)
    requires index < |rows|
    ensures var ui := ClickDelete(OpenPopover(Idle, index), rows);
            ConfirmDelete(ui, true) == (Idle, Some(rows[index]))
  {
  }

  /** Cancelling after clicking delete also returns to the idle state, and nothing is deleted. */
  lemma DeleteFlowCancelled(rows: seq<Row>, index: nat)
    ensures CancelDelete(ClickDelete(OpenPopover(Idle, index), rows)) == Idle
  {
  }
}

=== FILE: tabs.dfy ===
/**
 * The project tabs of the product-specification screen: the open project
 * tabs, the history of opened tab ids, the active tab, the tab the tab bar
 * last reported (`pending`), and the selected project.
 *
 * Tab `1` is the specification tab and tab `2` the project list; they are
 * always present and never closed.
 */
module SpecTabs {
  import opened Options
  import opened Lists
  import opened Entities

  const SpecTab: string := "1"
  const ProjectsTab: string := "2"

  /** An open project tab: its value is the project id. */
  datatype Tab = Tab(value: string, numero: string, amostras: seq<Sample>)

  datatype TabState = TabState(
    tabs: seq<Tab>,
    history: seq<string>,
    active: string,
    pending: string,
    selected: Option<string>)

  function TabValue(t: Tab): string { t.value }

  function Values(tabs: seq<Tab>): (r: seq<string>)
    ensures |r| == |tabs|
    ensures forall i :: 0 <= i < |tabs| ==> r[i] == tabs[i].value
  {
    Map(tabs, TabValue)
  }

  /** Opening a tab: its value is in the open list and it is the last entry of the history. */
  function Open(st: TabState, t: Tab): (r: TabState)
    ensures IndexOfKey(st.tabs, t.value, TabValue).Some? ==> |r.tabs| == |st.tabs|
    ensures IndexOfKey(st.tabs, t.value, TabValue).None? ==> r.tabs == st.tabs + [t]
    ensures forall i :: 0 <= i < |st.tabs| && st.tabs[i].value == t.value ==> r.tabs[i] == t
    ensures forall i :: 0 <= i < |st.tabs| && st.tabs[i].value != t.value ==> r.tabs[i] == st.tabs[i]
    ensures |r.history| > 0 && r.history[|r.history| - 1] == t.value && Count(r.history, t.value) == 1
    ensures r.history[..|r.history| - 1] == RemoveKey(st.history, t.value, Id)
    ensures r.active == t.value && r.pending == st.pending && r.selected == st.selected
  {
    var tabs := if IndexOfKey(st.tabs, t.value, TabValue).Some? then ReplaceAll(st.tabs, t, TabValue) else st.tabs + [t];
    var others := RemoveKey(st.history, t.value, Id);
    var history := others + [t.value];
    RemoveKeyCount(st.history, t.value);
    CountAppend(others, [t.value], t.value);
    assert [t.value][1..] == [];
    assert history[..|history| - 1] == others;
    st.(tabs := tabs, history := history, active := t.value)
  }

  /**
   * Closing tab `v`: the tab and every history entry `v` go. If history
   * remains, its new last entry becomes active, pending and selected when the
   * tab bar's last report was the old last history entry or the active tab
   * is the selected project; otherwise both fall back to the project list.
   * With no history left, the selection is cleared too.
   */
  function Close(st: TabState, v: string): (r: TabState)
    ensures r.tabs == RemoveKey(st.tabs, v, TabValue)
    ensures r.history == RemoveKey(st.history, v, Id)
    ensures |r.history| == 0 ==> r.active == ProjectsTab && r.pending == ProjectsTab && r.selected.None?
    ensures |r.history| > 0 ==>
              var last := r.history[|r.history| - 1];
              var follow := (|st.history| > 0 && st.pending == st.history[|st.history| - 1]) || Some(st.active) == st.selected;
              (follow ==> r.active == last && r.pending == last && r.selected == Some(last)) &&
              (!follow ==> r.active == ProjectsTab && r.pending == ProjectsTab && r.selected == st.selected)
  {
    var tabs := RemoveKey(st.tabs, v, TabValue);
    var history := RemoveKey(st.history, v, Id);
    if |history| > 0 then
      var last := history[|history| - 1];
      if (|st.history| > 0 && st.pending == st.history[|st.history| - 1]) || Some(st.active) == st.selected then
        TabState(tabs, history, last, last, Some(last))
      else
        TabState(tabs, history, ProjectsTab, ProjectsTab, st.selected)
    else
      TabState(tabs, history, ProjectsTab, ProjectsTab, None)
  }

  /** Tab values the tab bar can show: the two fixed tabs and the open project tabs. */
  function ValidValues(tabs: seq<Tab>): (r: set<string>)
    ensures forall x :: x in r <==> x == SpecTab || x == ProjectsTab || x in Values(tabs)
  {
    {SpecTab, ProjectsTab} + set i | 0 <= i < |tabs| :: tabs[i].value
  }

  /**
   * The fallback effect: an active tab that is not a valid value is replaced
   * by the most recent history entry that is valid (an empty value counts as
   * none), or by the project list.
   */
  function Fallback(st: TabState): (r: TabState)
    ensures st.active in ValidValues(st.tabs) ==> r == st
    ensures r.active in ValidValues(r.tabs)
    ensures r.tabs == st.tabs && r.history == st.history && r.pending == st.pending && r.selected == st.selected
    ensures st.active !in ValidValues(st.tabs) ==>
              match LastIndexIn(st.history, ValidValues(st.tabs))
              case Some(i) => r.active == (if st.history[i] == "" then ProjectsTab else st.history[i])
              case None => r.active == ProjectsTab
  {
    var valid := ValidValues(st.tabs);
    if st.active in valid then st
    else
      var fallback := match LastIndexIn(st.history, valid)
        case Some(i) => OrDefault(Some(st.history[i]), ProjectsTab)
        case None => ProjectsTab;
      st.(active := fallback)
  }

  /** Running the fallback twice is running it once. */
  lemma FallbackIdempotent(st: TabState)
    ensures Fallback(Fallback(st)) == Fallback(st)
  {
  }

  /**
   * The bookkeeping invariant: no duplicate history entry, no two open tabs
   * with the same value, and the history holds exactly the open tab values.
   */
  ghost predicate Inv(st: TabState) {
    NoDup(st.history) && NoDup(Values(st.tabs)) &&
    forall x :: x in st.history <==> x in Values(st.tabs)
  }

  lemma {:induction false} RemoveKeyValues(tabs: seq<Tab>, v: string)
    ensures Values(RemoveKey(tabs, v, TabValue)) == RemoveKey(Values(tabs), v, Id)
  {
    if |tabs| > 0 {
      RemoveKeyValues(tabs[1..], v);
      assert Values(tabs)[1..] == Values(tabs[1..]);
      if tabs[0].value != v {
        assert Values([tabs[0]] + RemoveKey(tabs[1..], v, TabValue))
            == [tabs[0].value] + Values(RemoveKey(tabs[1..], v, TabValue));
      }
    }
  }

  /** Opening a tab keeps the invariant. */
  lemma OpenKeepsInv(st: TabState, t: Tab)
    requires Inv(st)
    ensures Inv(Open(st, t))
  {
    var r := Open(st, t);
    var others := RemoveKey(st.history, t.value, Id);
    RemoveKeyNoDup(st.history, t.value, Id);
    assert r.history == others + [t.value];
    assert t.value !in others;
    assert NoDup(r.history);
    if IndexOfKey(st.tabs, t.value, TabValue).Some? {
      assert Values(r.tabs) == Values(st.tabs);
    } else {
      assert Values(r.tabs) == Values(st.tabs) + [t.value];
      assert t.value !in Values(st.tabs);
    }
  }

  /** Closing a tab keeps the invariant. */
  lemma CloseKeepsInv(st: TabState, v: string)
    requires Inv(st)
    ensures Inv(Close(st, v))
  {
    RemoveKeyNoDup(st.history, v, Id);
    RemoveKeyValues(st.tabs, v);
    RemoveKeyNoDup(Values(st.tabs), v, Id);
  }

  /** Opening a tab makes it active, and it is one of the open tabs, so the fallback has nothing to do. */
  lemma NoFallbackAfterOpen(st: TabState, t: Tab)
    ensures Fallback(Open(st, t)) == Open(st, t)
  {
    var o := Open(st, t);
    assert t.value in Values(o.tabs) by {
      if IndexOfKey(st.tabs, t.value, TabValue).Some? {
        var i := IndexOfKey(st.tabs, t.value, TabValue).value;
        assert Values(o.tabs)[i] == t.value;
      } else {
        assert Values(o.tabs)[|st.tabs|] == t.value;
      }
    }
  }

  /** Under the invariant, closing a tab leaves a valid active tab, so the fallback has nothing to do. */
  lemma NoFallbackAfterClose(st: TabState, v: string)
    requires Inv(st)
    ensures Fallback(Close(st, v)) == Close(st, v)
  {
    var c := Close(st, v);
    CloseKeepsInv(st, v);
    if |c.history| > 0 {
      assert c.history[|c.history| - 1] in c.history;
    }
  }
}

=== FILE: text.dfy ===
/**
 * The string operations the console applies before comparing or sending
 * values: `toLowerCase`, `trim`, `replace(',', '.')` and `join`.
 */
module Text {
  import opened Lists

  /** The white-space characters `String.prototype.trim` strips that the model knows of. */
  predicate IsSpace(c: char) {
    c == ' ' || c == '\t' || c == '\n' || c == '\r' || c == '\U{000B}' || c == '\U{000C}' ||
    c == '\U{00A0}' || c == '\U{FEFF}' || c == '\U{2028}' || c == '\U{2029}'
  }

  ghost predicate AllSpace(s: string) {
    forall i :: 0 <= i < |s| ==> IsSpace(s[i])
  }

  /** Length of the white-space prefix of `s`. */
  function LeadingSpace(s: string): (k: nat)
    ensures k <= |s| && AllSpace(s[..k])
    ensures k == |s| || !IsSpace(s[k])
  {
    if |s| > 0 && IsSpace(s[0]) then
      var k := LeadingSpace(s[1..]);
      assert s[..k + 1] == [s[0]] + s[1..][..k];
      k + 1
    else 0
  }

  /** Start of the white-space suffix of `s`. */
  function TrailingSpace(s: string): (k: nat)
    ensures k <= |s| && AllSpace(s[k..])
    ensures k == 0 || !IsSpace(s[k - 1])
    decreases |s|
  {
    if |s| > 0 && IsSpace(s[|s| - 1]) then
      var k := TrailingSpace(s[..|s| - 1]);
      assert s[k..] == s[..|s| - 1][k..] + [s[|s| - 1]];
      k
    else |s|
  }

  /**
   * `s.trim()`: the result is `s` with a white-space prefix and suffix cut off,
   * and it neither starts nor ends with white space.
   */
  function Trim(s: string): (r: string)
    ensures exists i, j :: 0 <= i <= j <= |s| && r == s[i..j] && AllSpace(s[..i]) && AllSpace(s[j..])
    ensures r == [] || (!IsSpace(r[0]) && !IsSpace(r[|r| - 1]))
  {
    var i := LeadingSpace(s);
    var t := s[i..];
    var k := TrailingSpace(t);
    var j := i + k;
    assert s[j..] == t[k..];
    assert s[i..j] == t[..k];
    assert k > 0 ==> t[..k][0] == s[i] && t[..k][k - 1] == t[k - 1];
    s[i..j]
  }

  /** A string `Trim` leaves unchanged. */
  lemma TrimFixed(s: string)
    requires s == [] || (!IsSpace(s[0]) && !IsSpace(s[|s| - 1]))
    ensures Trim(s) == s
  {
  }

  function LowerChar(c: char): char {
    if 'A' <= c <= 'Z' then (c as int + 32) as char else c
  }

  /** `s.toLowerCase()` on the ASCII letters. */
  function Lower(s: string): (r: string)
    ensures |r| == |s|
    ensures forall i :: 0 <= i < |s| ==> r[i] == LowerChar(s[i])
  {
    if |s| == 0 then [] else [LowerChar(s[0])] + Lower(s[1..])
  }

  /** Lower-casing never turns a white-space character into another kind, or back. */
  lemma LowerKeepsSpace(c: char)
    ensures IsSpace(LowerChar(c)) <==> IsSpace(c)
  {
  }

  /** A slice of the lower case is the lower case of the slice. */
  lemma LowerSlice(s: string, i: nat, j: nat)
    requires i <= j <= |s|
    ensures Lower(s)[i..j] == Lower(s[i..j])
  {
  }

  /** Lower-casing keeps the white-space prefix. */
  lemma {:induction false} LeadingSpaceLower(s: string)
    ensures LeadingSpace(Lower(s)) == LeadingSpace(s)
    decreases |s|
  {
    if |s| > 0 {
      LowerKeepsSpace(s[0]);
      LowerSlice(s, 1, |s|);
      LeadingSpaceLower(s[1..]);
    }
  }

  /** Lower-casing keeps the white-space suffix. */
  lemma {:induction false} TrailingSpaceLower(s: string)
    ensures TrailingSpace(Lower(s)) == TrailingSpace(s)
    decreases |s|
  {
    if |s| > 0 {
      LowerKeepsSpace(s[|s| - 1]);
      LowerSlice(s, 0, |s| - 1);
      TrailingSpaceLower(s[..|s| - 1]);
    }
  }

  /** `Trim` cuts exactly the white-space prefix and then the white-space suffix of what remains. */
  lemma TrimCuts(s: string)
    ensures Trim(s) == s[LeadingSpace(s)..LeadingSpace(s) + TrailingSpace(s[LeadingSpace(s)..])]
  {
  }

  /** Lower-casing moves neither cut `Trim` makes. */
  lemma LowerKeepsCuts(s: string)
    ensures LeadingSpace(Lower(s)) == LeadingSpace(s)
    ensures TrailingSpace(Lower(s)[LeadingSpace(s)..]) == TrailingSpace(s[LeadingSpace(s)..])
  {
    var i := LeadingSpace(s);
    LeadingSpaceLower(s);
    LowerSlice(s, i, |s|);
    TrailingSpaceLower(s[i..]);
  }

  /** `Trim` of `s` is the slice between its two cuts. */
  lemma TrimAt(s: string, i: nat, k: nat)
    requires i == LeadingSpace(s) && k == TrailingSpace(s[i..])
    ensures i + k <= |s| && Trim(s) == s[i..i + k]
  {
    TrimCuts(s);
  }

  /** `Trim` of the lower case cuts where `Trim` of `s` does. */
  lemma LowerTrimAt(s: string, i: nat, k: nat)
    requires i == LeadingSpace(s) && k == TrailingSpace(s[i..])
    ensures i + k <= |s| && Trim(Lower(s)) == Lower(s)[i..i + k]
  {
    LowerKeepsCuts(s);
    TrimAt(Lower(s), i, k);
  }

  /**
   * `s.toLowerCase().trim()` is `s.trim().toLowerCase()`: lower-casing moves
   * no white space, so it does not matter which runs first.
   */
  lemma LowerTrimCommute(s: string)
    ensures Trim(Lower(s)) == Lower(Trim(s))
  {
    var i := LeadingSpace(s);
    var k := TrailingSpace(s[i..]);
    LowerTrimAt(s, i, k);
    TrimAt(s, i, k);
    var m := s[i..i + k];
    assert Lower(Trim(s)) == Lower(m);
    LowerSlice(s, i, i + k);
  }

  ghost predicate IsLower(s: string) {
    forall i :: 0 <= i < |s| ==> !('A' <= s[i] <= 'Z')
  }

  /** Lower-casing leaves no upper-case letter behind, and a lower-case string is its own lower case. */
  lemma LowerNormal(s: string)
    ensures IsLower(Lower(s))
    ensures IsLower(s) ==> Lower(s) == s
  {
  }

  /** `s.replace(from, to)` with a one-character pattern: only the first occurrence is replaced. */
  function ReplaceFirstChar(s: string, from: char, to: char): (r: string)
    ensures |r| == |s|
    ensures IndexOfKey(s, from, Id).None? ==> r == s
    ensures IndexOfKey(s, from, Id).Some? ==>
              var i := IndexOfKey(s, from, Id).value;
              r[i] == to && forall j :: 0 <= j < |s| && j != i ==> r[j] == s[j]
  {
    if |s| == 0 then []
    else if s[0] == from then [to] + s[1..]
    else [s[0]] + ReplaceFirstChar(s[1..], from, to)
  }

  function TotalLength(xs: seq<string>): nat {
    if |xs| == 0 then 0 else |xs[0]| + TotalLength(xs[1..])
  }

  /** `xs.join(sep)`: the pieces in order, one separator between neighbours. */
  function Join(xs: seq<string>, sep: string): (r: string)
    ensures |xs| == 0 ==> r == ""
    ensures |xs| > 0 ==> xs[0] <= r
    ensures |xs| > 1 ==> xs[0] + sep <= r
  {
    if |xs| == 0 then ""
    else if |xs| == 1 then xs[0]
    else
      assert xs[0] + sep <= xs[0] + sep + Join(xs[1..], sep);
      xs[0] + sep + Join(xs[1..], sep)
  }

  /** The joined text holds every piece and one separator between each two neighbours. */
  lemma {:induction false} JoinLength(xs: seq<string>, sep: string)
    requires |xs| > 0
    ensures |Join(xs, sep)| == TotalLength(xs) + (|xs| - 1) * |sep|
    decreases |xs|
  {
    if |xs| > 1 {
      JoinLength(xs[1..], sep);
    }
  }

  /** One piece joins to itself. */
  lemma JoinOne(x: string, sep: string)
    ensures Join([x], sep) == x
  {
  }

  /** Joining one more piece adds a separator and that piece at the end. */
  lemma {:induction false} JoinSnoc(xs: seq<string>, x: string, sep: string)
    requires |xs| > 0
    ensures Join(xs + [x], sep) == Join(xs, sep) + sep + x
    decreases |xs|
  {
    var ys := xs + [x];
    assert |ys| > 1 && ys[0] == xs[0];
    assert Join(ys, sep) == xs[0] + sep + Join(ys[1..], sep);
    if |xs| > 1 {
      assert ys[1..] == xs[1..] + [x];
      JoinSnoc(xs[1..], x, sep);
      var rest := Join(xs[1..], sep);
      assert Join(xs, sep) == xs[0] + sep + rest;
      assert xs[0] + sep + (rest + sep + x) == (xs[0] + sep + rest) + sep + x;
    } else {
      assert ys[1..] == [x];
      JoinOne(x, sep);
      assert Join(xs, sep) == xs[0];
    }
  }
}

=== FILE: user_row.dfy ===
/**
 * One row of the products list: its options popover ("Editar", "Deletar")
 * and its delete confirmation dialog, driven by the row's UI events.
 */
module UserRow {
  import opened Options

  datatype RowUi = RowUi(popoverOpen: bool, confirmOpen: bool)

  const Closed: RowUi := RowUi(false, false)

  /** What a row event asks of the list: delete this product, or open the edit form on it. */
  datatype Effect = DeleteProduct | EditProduct

  datatype Event = OpenMenu | CloseMenu | ClickEdit | ClickDelete | Confirm | CloseDialog

  /**
   * One event. The menu items exist only while the popover is open and the
   * confirm button only while the dialog is open, so those events are
   * ignored otherwise. Editing hands the row over and closes the popover;
   * "Deletar" opens the dialog and closes the popover; confirming calls
   * `onDelete` and closes the dialog.
   */
  function Handle(ui: RowUi, e: Event): (r: (RowUi, Option<Effect>))
    ensures r.1 == Some(DeleteProduct) <==> e == Confirm && ui.confirmOpen
    ensures r.1 == Some(EditProduct) <==> e == ClickEdit && ui.popoverOpen
    ensures e == Confirm && ui.confirmOpen ==> !r.0.confirmOpen && r.0.popoverOpen == ui.popoverOpen
    ensures e == ClickDelete && ui.popoverOpen ==> r.0 == RowUi(false, true)
    ensures e == ClickEdit && ui.popoverOpen ==> r.0 == ui.(popoverOpen := false)
    ensures e == OpenMenu ==> r.0 == ui.(popoverOpen := true) && r.1.None?
    ensures e == CloseMenu ==> r.0 == ui.(popoverOpen := false) && r.1.None?
    ensures e == CloseDialog ==> r.0 == ui.(confirmOpen := false) && r.1.None?
  {
    match e
    case OpenMenu => (ui.(popoverOpen := true), None)
    case CloseMenu => (ui.(popoverOpen := false), None)
    case ClickEdit => if ui.popoverOpen then (ui.(popoverOpen := false), Some(EditProduct)) else (ui, None)
    case ClickDelete => if ui.popoverOpen then (RowUi(false, true), None) else (ui, None)
    case Confirm => if ui.confirmOpen then (ui.(confirmOpen := false), Some(DeleteProduct)) else (ui, None)
    case CloseDialog => (ui.(confirmOpen := false), None)
  }

  /** Runs a sequence of events, collecting what they ask of the list. */
  function Run(ui: RowUi, es: seq<Event>): (r: (RowUi, seq<Effect>))
    ensures |r.1| <= |es|
    decreases |es|
  {
    if |es| == 0 then (ui, [])
    else
      var (next, eff) := Handle(ui, es[0]);
      var (last, rest) := Run(next, es[1..]);
      (last, (if eff.Some? then [eff.value] else []) + rest)
  }

  /** Running one event: its new state, and its effect when it has one. */
  lemma RunOne(ui: RowUi, e: Event, es: seq<Event>)
    ensures var (next, eff) := Handle(ui, e);
            Run(ui, [e] + es) == (Run(next, es).0, (if eff.Some? then [eff.value] else []) + Run(next, es).1)
  {
    assert ([e] + es)[0] == e && ([e] + es)[1..] == es;
  }

  /** From any state, menu, "Deletar", confirm: exactly one delete, and the row is back to closed. */
  lemma DeleteFlow(ui: RowUi)
    ensures Run(ui, [OpenMenu, ClickDelete, Confirm]) == (Closed, [DeleteProduct])
  {
    var open := ui.(popoverOpen := true);
    RunOne(RowUi(false, true), Confirm, []);
    assert [Confirm] == [Confirm] + [];
    RunOne(open, ClickDelete, [Confirm]);
    RunOne(ui, OpenMenu, [ClickDelete, Confirm]);
    assert [OpenMenu, ClickDelete, Confirm] == [OpenMenu] + [ClickDelete, Confirm];
    assert [ClickDelete, Confirm] == [ClickDelete] + [Confirm];
    assert Run(RowUi(false, true), [Confirm]) == (Closed, [DeleteProduct] + []);
    assert Run(open, [ClickDelete, Confirm]) == (Closed, [] + ([DeleteProduct] + []));
    assert [] + ([DeleteProduct] + []) == [DeleteProduct];
    assert Handle(ui, OpenMenu) == (open, None);
    assert Run(ui, [OpenMenu] + [ClickDelete, Confirm]) == (Closed, [] + ([] + ([DeleteProduct] + [])));
    assert [] + ([] + ([DeleteProduct] + [])) == [DeleteProduct];
  }

  /** From any state, menu, "Deletar", close: nothing is deleted, and the row is back to closed. */
  lemma CancelFlow(ui: RowUi)
    ensures Run(ui, [OpenMenu, ClickDelete, CloseDialog]) == (Closed, [])
  {
    var open := ui.(popoverOpen := true);
    RunOne(RowUi(false, true), CloseDialog, []);
    assert [CloseDialog] == [CloseDialog] + [];
    RunOne(open, ClickDelete, [CloseDialog]);
    RunOne(ui, OpenMenu, [ClickDelete, CloseDialog]);
    assert [OpenMenu, ClickDelete, CloseDialog] == [OpenMenu] + [ClickDelete, CloseDialog];
    assert [ClickDelete, CloseDialog] == [ClickDelete] + [CloseDialog];
  }

  /** From any state, menu, "Editar": one edit, the menu is closed again and the dialog is as it was. */
  lemma EditFlow(ui: RowUi)
    ensures Run(ui, [OpenMenu, ClickEdit]) == (ui.(popoverOpen := false), [EditProduct])
  {
    var open := ui.(popoverOpen := true);
    RunOne(open, ClickEdit, []);
    assert [ClickEdit] == [ClickEdit] + [];
    RunOne(ui, OpenMenu, [ClickEdit]);
    assert [OpenMenu, ClickEdit] == [OpenMenu] + [ClickEdit];
    assert Run(open, [ClickEdit]) == (ui.(popoverOpen := false), [EditProduct] + []);
    assert [] + ([EditProduct] + []) == [EditProduct];
  }

  /** Without first opening the dialog, no event sequence deletes: every delete follows a "Deletar" click. */
  lemma {:induction false} NoDeleteWithoutDialog(ui: RowUi, es: seq<Event>)
    requires !ui.confirmOpen
    requires forall i :: 0 <= i < |es| ==> es[i] != ClickDelete
    ensures DeleteProduct !in Run(ui, es).1
    decreases |es|
  {
    if |es| > 0 {
      var (next, eff) := Handle(ui, es[0]);
      assert !next.confirmOpen;
      NoDeleteWithoutDialog(next, es[1..]);
    }
  }
}

=== FILE: user_table.dfy ===
/**
 * The products list: the table state hook (sort column and direction,
 * selected ids, page and page size), the rows shown on the current page,
 * the "not found" message, and the defaults of the edit form.
 */
module UserTable {
  import opened Options
  import opened Lists
  import opened Entities

  datatype Order = Asc | Desc

  datatype TableState = TableState(page: nat, orderBy: string, rowsPerPage: nat, selected: seq<string>, order: Order)

  /** The hook's initial state: first page, sorted by name ascending, five rows per page, nothing selected. */
  const Initial: TableState := TableState(0, "nome", 5, [], Asc)

  /**
   * `onSort`: the clicked column becomes the sort column; the direction is
   * descending only when that column was already sorted ascending.
   */
  function OnSort(st: TableState, id: string): (r: TableState)
    ensures r.orderBy == id
    ensures r.order == Desc <==> st.orderBy == id && st.order == Asc
    ensures r.page == st.page && r.rowsPerPage == st.rowsPerPage && r.selected == st.selected
  {
    st.(order := if st.orderBy == id && st.order == Asc then Desc else Asc, orderBy := id)
  }

  /** Clicking a new column sorts it ascending; clicking it again keeps flipping the direction. */
  lemma SortClicks(st: TableState, id: string)
    ensures st.orderBy != id ==> OnSort(st, id).order == Asc
    ensures OnSort(OnSort(st, id), id).order != OnSort(st, id).order
    ensures OnSort(OnSort(OnSort(st, id), id), id) == OnSort(st, id)
  {
  }

  /** `onSelectAllRows`: checking selects exactly the given ids, unchecking selects none. */
  function OnSelectAllRows(st: TableState, checked: bool, ids: seq<string>): (r: TableState)
    ensures checked ==> r.selected == ids
    ensures !checked ==> r.selected == []
    ensures r == st.(selected := r.selected)
  {
    st.(selected := if checked then ids else [])
  }

  /**
   * `onSelectRow`: a selected id is removed (every occurrence), an
   * unselected one is appended at the end; no other id changes status.
   */
  function OnSelectRow(st: TableState, id: string): (r: TableState)
    ensures id in r.selected <==> id !in st.selected
    ensures forall x :: x != id ==> (x in r.selected <==> x in st.selected)
    ensures id !in st.selected ==> r.selected == st.selected + [id]
    ensures r == st.(selected := r.selected)
  {
    st.(selected := if id in st.selected then RemoveKey(st.selected, id, Id) else st.selected + [id])
  }

  /** Toggling an unselected row twice restores the selection exactly. */
  lemma SelectRowTwice(st: TableState, id: string)
    requires id !in st.selected
    ensures OnSelectRow(OnSelectRow(st, id), id) == st
  {
    var once := st.selected + [id];
    RemoveKeyAppend(st.selected, [id], id, Id);
    assert RemoveKey([id], id, Id) == [];
    assert RemoveKey(once, id, Id) == st.selected + [];
  }

  /** Toggling a row keeps a duplicate-free selection duplicate-free. */
  lemma SelectRowNoDup(st: TableState, id: string)
    requires NoDup(st.selected)
    ensures NoDup(OnSelectRow(st, id).selected)
  {
    if id in st.selected {
      RemoveKeyNoDup(st.selected, id, Id);
    }
  }

  /** `onResetPage`: back to the first page. */
  function OnResetPage(st: TableState): (r: TableState)
    ensures r.page == 0 && r == st.(page := 0)
  {
    st.(page := 0)
  }

  /** `onChangePage`: the requested page. */
  function OnChangePage(st: TableState, newPage: nat): (r: TableState)
    ensures r.page == newPage && r == st.(page := newPage)
  {
    st.(page := newPage)
  }

  /** `onChangeRowsPerPage`: the new page size, and back to the first page. */
  function OnChangeRowsPerPage(st: TableState, rowsPerPage: nat): (r: TableState)
    ensures r.rowsPerPage == rowsPerPage && r.page == 0
    ensures r.orderBy == st.orderBy && r.order == st.order && r.selected == st.selected
  {
    OnResetPage(st.(rowsPerPage := rowsPerPage))
  }

  /** Typing a filter: the filter text changes and the page goes back to the first. */
  function OnFilterName(st: TableState, typed: string): (r: (TableState, string))
    ensures r.1 == typed && r.0.page == 0
    ensures r.0 == st.(page := 0)
  {
    (OnResetPage(st), typed)
  }

  /**
   * The rows of the current page: `data.slice(page * n, page * n + n)`,
   * clamped to the data, so never more than `n` rows.
   */
  function PageRows<T>(data: seq<T>, page: nat, n: nat): (r: seq<T>)
    ensures |r| <= n
    ensures page * n <= |data| ==> |r| == if page * n + n <= |data| then n else |data| - page * n
    ensures page * n >= |data| ==> r == []
    ensures forall i :: 0 <= i < |r| ==> page * n + i < |data| && r[i] == data[page * n + i]
  {
    var start := page * n;
    if start >= |data| then []
    else if start + n <= |data| then data[start..start + n]
    else data[start..]
  }

  /** With a positive page size, every row is on exactly one page: row `k` is at position `k % n` of page `k / n`. */
  lemma EveryRowOnItsPage<T>(data: seq<T>, n: nat, k: nat)
    requires n > 0 && k < |data|
    ensures var p := PageRows(data, k / n, n);
            k % n < |p| && p[k % n] == data[k]
  {
    var q, m := k / n, k % n;
    assert q * n + m == k;
    assert q * n <= k;
  }

  /** The last full page and the page after the data. */
  lemma PageSizes<T>(data: seq<T>, n: nat)
    requires n > 0
    ensures |PageRows(data, |data| / n, n)| == |data| % n
    ensures |data| >= n ==> |PageRows(data, 0, n)| == n
  {
    var q := |data| / n;
    assert q * n + |data| % n == |data|;
  }

  /** `notFound`: the filtered list is empty although a filter was typed. */
  function NotFound<T>(filtered: seq<T>, filterName: string): (b: bool)
    ensures b <==> |filtered| == 0 && |filterName| > 0
  {
    |filtered| == 0 && filterName != ""
  }

  /** With no filter typed, the message never shows, whatever the data. */
  lemma NoFilterNoMessage<T>(filtered: seq<T>)
    ensures !NotFound(filtered, "")
  {
  }

  /** The product being edited, as the list holds it: any field may be missing. */
  datatype EditedProduct = EditedProduct(
    id: string,
    nome: Option<string>,
    tipo: Option<string>,
    referencia: Option<string>,
    parametros: Option<seq<Param>>,
    projetos: Option<seq<Project>>)

  /** The edit form's values. */
  datatype FormValues = FormValues(nome: string, tipo: string, referencia: string, parametros: seq<Param>, projetos: seq<Project>)

  const DefaultTipo: string := "JARDIM"

  /**
   * `initialValues`: each field of the product being edited, or its default
   * (`''`, `'JARDIM'`, `''` for missing text, `[]` for a missing list).
   * Present text is kept even when empty, since the defaults are applied
   * with `??`.
   */
  function InitialValues(editing: Option<EditedProduct>): (r: FormValues)
    ensures editing.None? ==> r == FormValues("", DefaultTipo, "", [], [])
    ensures editing.Some? ==>
              r.nome == editing.value.nome.GetOr("") && r.tipo == editing.value.tipo.GetOr(DefaultTipo) &&
              r.referencia == editing.value.referencia.GetOr("") &&
              r.parametros == editing.value.parametros.GetOr([]) && r.projetos == editing.value.projetos.GetOr([])
  {
    match editing
    case None => FormValues("", DefaultTipo, "", [], [])
    case Some(p) => FormValues(p.nome.GetOr(""), p.tipo.GetOr(DefaultTipo), p.referencia.GetOr(""),
                               p.parametros.GetOr([]), p.projetos.GetOr([]))
  }

  /** Editing a complete product opens the form on exactly its values; an empty type stays empty. */
  lemma InitialValuesOfCompleteProduct(id: string, nome: string, tipo: string, referencia: string, ps: seq<Param>, projs: seq<Project>)
    ensures InitialValues(Some(EditedProduct(id, Some(nome), Some(tipo), Some(referencia), Some(ps), Some(projs))))
            == FormValues(nome, tipo, referencia, ps, projs)
    ensures InitialValues(Some(EditedProduct(id, Some(nome), Some(""), Some(referencia), Some(ps), Some(projs)))).tipo == ""
  {
  }
}
